=== FILE: README.md ===
# NWB project analytics: a Dafny model of the statistics core

This project models the computational core of the NWB project analytics
scripts (Neurodata Without Borders). The scripts turn git histories, GitHub
release lists, Codecov listings and DANDI archive metadata into tables for
plots. The model covers these parts:

- **Code statistics (`GitCodeStats`).**
  - The per-day selection of commits whose cloc report is kept (`git_repo_stats`).
  - The carry-forward aligner that resamples every repository's cloc SUM rows
    onto one shared daily range (`compute_summary_stats`), and the five
    date-by-repository tables it assembles.
  - The start-date clean-up of `from_nwb`, which zeroes the HDMF and
    NDX_Extension_Smithy columns up to the day each project started.
  - The per-language tables of `compute_language_stats`.
- **GitHub statistics.**
  - Issue labels: type, level and RGB colour.
  - The ordered label and repository dictionaries with `merge` and `get_by_type`.
  - The clone URL of a repository.
  - The release names and dates kept from GitHub's release list.
  - The major/minor/patch classification of version jumps.
  - The stem levels of the release timeline plot, including its six-periodic fallback.
- **Codecov.**
  - The key check of `get_pulls_or_commits`.
  - `get_time_and_coverage`: coverage read from totals, then head, then base;
    optional zero filtering; the result sorted by time stamp.
- **DANDI.**
  - `is_nwb` and `has_related_publication`.
  - The row each kept dandiset contributes.
  - The species-name clean-up and the shorthand labels of the species histogram.

Dates are whole day numbers counted from 1970-01-01. This gives:

| date | day number |
|---|---|
| 2016-08-31 (NWB 2 start) | 17044 |
| 2019-03-13 (HDMF start) | 17968 |
| 2019-04-25 (extension smithy start) | 18011 |

A commit time is in seconds since the epoch, and its day is the floor of
time / 86400, as `time.gmtime` computes it. Exceptions the source raises
become `Err` values of a `Result`. Where several can occur, the model follows
the source's order of evaluation. Python's `None` and pandas' NaN are
`Option`s.

The repository holds two copies of most of this code: `src/nwb_project_analytics`
and the older `src/projectstats`. Each routine is modelled once. The table
below cites the newer copy and names the older copy's lines where they
differ only in layout.

The engine shared by both code-statistics loops is `Timeline`:

- `Sweep` is the cursor loop exactly as written.
- `Replay` is its meaning: apply, in order, every snapshot dated on or before the day.
- `SweepReplays` proves the two agree when the snapshot days and the range
  strictly increase, the range contains every snapshot day that lies inside
  it, and the loop starts in step.

The source's aligners are modelled as written. The as-written versions are
proved to meet the reference where they do, and shown to miss it where they
do not. Corrected versions are proved to meet it everywhere. The corrected
versions are: `AlignRepoFixed`, `ComputeSummaryStatsFixed`, `FromNwbFixed`
and `LanguageTableFixed`.

Behaviours of the code worth knowing:

- **Empty history.** A repository without cloc snapshots raises `IndexError`
  at `curr_dates[0]` (`EmptyHistory`). It does not give a column of zeros.
- **Start-date clean-up.** It zeroes days on or before the start date,
  because pandas label slices include their end. It does not stop at days
  strictly before the start date. It is also applied only to the summary
  tables, not to the language tables.
- **Language tables.** They hold blank + code + code. Their rows run over
  every day from the oldest snapshot through today, and the index is
  attached in reverse. `LanguageTableFixed` holds blank + code + comment
  over the snapshot days in ascending order.
- **Entries without counts.** A cloc report also holds a "header" entry
  with no line counts. The default ignore list does not name it, so it is
  tracked as a language, and reading its `blank` count raises `KeyError`
  (`MissingCounts`) on the first day it is read.
- **No DANDI row.** When no dandiset yields a row, the table has no columns
  and the species clean-up raises `KeyError` on "species"
  (`MissingSpeciesColumn`).

`int(piece, 16)` is more lenient than "two hexadecimal digits":

- it accepts a sign, so `Labels.Rgb` allows components from -15 (the colour
  "#-f0000") up to 255, not only 0-255;
- it reads decimal digits of every script (Unicode category Nd: ASCII and the
  64 further runs of ten of Unicode 13.0, the character data of Python 3.9
  and 3.10, which setup.py lists), so "#٣٣٣٣٣٣" is the colour (51, 51, 51);
- it accepts a "0x" prefix (whose zero may be any script's zero), a single
  '_' after the prefix, single '_' between digits, and surrounding
  whitespace.

## Model

| member | source | states |
|---|---|---|
| `Cloc.Day` | src/nwb_project_analytics/codestats.py:446 | The day of a commit time is the UTC day that contains it: day × 86400 ≤ time < (day + 1) × 86400. |
| `Cloc.FirstOfEachDay` | src/nwb_project_analytics/codestats.py:444-460 | The reference selection keeps at most one snapshot per commit. Its last snapshot is on the oldest commit's day. Neighbouring snapshots never share a day. |
| `Cloc.FirstOfEachDayKeepsRunStarts` | src/nwb_project_analytics/codestats.py:445-460 | Every commit that is the newest of its day-run has its snapshot kept. Every kept snapshot comes from such a commit. |
| `Cloc.RunStartsKept` | src/nwb_project_analytics/codestats.py:447-448 | Every run start's snapshot is in the selection (first half of the previous row). |
| `Cloc.KeptAreRunStarts` | src/nwb_project_analytics/codestats.py:447-448 | Every kept snapshot is the snapshot of some run start (second half). |
| `Cloc.ClocSnapshots` | src/nwb_project_analytics/codestats.py:444-462 | The loop of `git_repo_stats` returns exactly the reference selection, and adjacent snapshots never share a day. |
| `Timeline.Advance` | src/nwb_project_analytics/codestats.py:285-286 | The cursor stays inside the snapshot list. It moves one step only on a date equal to its snapshot's day. |
| `Timeline.CursorAt` | src/nwb_project_analytics/codestats.py:279-286 | The cursor before any date never passes the newest snapshot and moves at most one step per date. |
| `Timeline.Sweep` | src/nwb_project_analytics/codestats.py:275-292 | The loop emits exactly one value per date of the range. |
| `Timeline.SweepCarriesForward` | src/nwb_project_analytics/codestats.py:275-292 | At every date the emitted value is the previous one (or the start value). It is updated from the cursor's snapshot exactly when the date equals that snapshot's day. |
| `Timeline.SweepReplays` | src/nwb_project_analytics/codestats.py:275-292 | From a start in step with the reference, the cursor loop emits at every date the replay of all snapshots dated on or before it. This needs ordered snapshots and a strictly increasing range that holds every snapshot day inside it. |
| `Timeline.StepKeepsReady` | src/nwb_project_analytics/codestats.py:279-286 | One step emits the replay at the visited date and leaves cursor and value in step for the next date. |
| `Timeline.SweepWithoutMatch` | src/nwb_project_analytics/codestats.py:279-292 | When no date equals the cursor's day, the cursor never moves and the start value is emitted at every date. |
| `Timeline.HoldsFirstUntilSecond` | src/nwb_project_analytics/codestats.py:343-357 | A loop starting on the oldest snapshot's day holds that snapshot's update until the second snapshot's day. |
| `Timeline.DailyRange` | src/nwb_project_analytics/codestats.py:101-104 | A daily `date_range` strictly increases, holds exactly the days from start through end, and its k-th day is start + k. |
| `Timeline.DailyRangeCovers` | src/nwb_project_analytics/codestats.py:332-334 | A daily range contains every snapshot day that lies between its ends. |
| `SummaryStats.SumTimeline` | src/nwb_project_analytics/codestats.py:237-243 | It fails exactly when some report lacks a SUM row. Otherwise it returns the SUM rows reversed to oldest-first, each with its snapshot's day. |
| `SummaryStats.LatestBeforeAll` | src/nwb_project_analytics/codestats.py:246-251 | The reference is all zeros on days before every snapshot. |
| `SummaryStats.FirstAfter` | src/nwb_project_analytics/codestats.py:264-267 | The search returns the first snapshot dated after the start, with every snapshot before it dated on or before the start. It returns nothing when there is no such snapshot. |
| `SummaryStats.PrehistoryStart` | src/nwb_project_analytics/codestats.py:257-272 | A range starting on or before the oldest snapshot starts at cursor 0 with zeros. A later start takes the values of the snapshot under the cursor. |
| `SummaryStats.AlignRepoMatchesLatest` | src/nwb_project_analytics/codestats.py:246-292 | At every date, the aligner as written yields the SUM row of the newest snapshot on or before that date (zeros before the first). This holds for a start on or before the oldest snapshot, after the newest, or on a snapshot day other than the newest. |
| `SummaryStats.StartBetweenSnapshotsFreezes` | src/nwb_project_analytics/codestats.py:260-286 | As written, a range starting strictly between two snapshots emits the older one's row at every date. |
| `SummaryStats.StartOnNewestFreezes` | src/nwb_project_analytics/codestats.py:260-286 | As written, a range starting on the newest snapshot's day (with at least two snapshots) emits the oldest row at every date. |
| `SummaryStats.StartBetweenSnapshotsExample` | src/nwb_project_analytics/codestats.py:264-267 | Snapshots on days 1, 5 and 10 aligned over days 3-5: day 5 reports the day-1 code count 10, while the reference says 20. |
| `SummaryStats.StartOnNewestExample` | src/nwb_project_analytics/codestats.py:260-267 | Snapshots on days 1 and 5 aligned over days 5-6: day 5 reports 10, while the reference says 20. |
| `SummaryStats.StartCursor` | src/nwb_project_analytics/codestats.py:260-272 | Corrected start: the first snapshot not older than the start, or the newest when all are older. |
| `SummaryStats.AlignRepoFixedMatchesLatest` | src/nwb_project_analytics/codestats.py:246-292 | The corrected aligner yields the reference at every date, for any start date. |
| `SummaryStats.AlignOne` | src/nwb_project_analytics/codestats.py:235-298 | One repository aligns exactly when its SUM rows exist, the range is non-empty and it has a snapshot. Any error is one of those three, and the result has one row per date. |
| `SummaryStats.AlignAll` | src/nwb_project_analytics/codestats.py:235-298 | All repositories align exactly when each does. There is one column per repository, in dictionary order, and each column is that repository's own alignment. |
| `Results.MapAll` | src/nwb_project_analytics/codestats.py:235-298 | A loop over the repositories succeeds exactly when every step does, keeping one value per step in order. Otherwise it raises the error of the first failing step, every earlier step having succeeded. |
| `SummaryStats.ComputeSummaryStats` | src/nwb_project_analytics/codestats.py:209-316 | The call fails with the not-initialised error exactly when the statistics are missing. It succeeds exactly when they are present and every repository aligns. With no repository the tables have no columns and are still indexed by the range. All five tables are indexed by the range with one full-length column per repository, in order, and "nfiles" equals "codes". The same code is at src/projectstats/codestats.py:137-242. |
| `SummaryStats.AlignedColumns` | src/nwb_project_analytics/codestats.py:294-316 | A successful aggregation is the assembly of one aligned column per repository, each of the range's length. |
| `SummaryStats.AssembleCell` | src/nwb_project_analytics/codestats.py:301-310 | Each table cell is its category's metric of the aligned value. The "nfiles" cell reads the category it is built from. |
| `SummaryStats.SummaryCell` | src/nwb_project_analytics/codestats.py:294-310 | Every cell of the source's tables is the category's metric of the as-written aligner's value. The "nfiles" cells read the code count. |
| `SummaryStats.SummaryMatchesLatest` | src/projectstats/codestats.py:186-236 | For a strictly increasing range and a well-dated repository with a supported start, each cell is its category's value in the newest snapshot on or before its date. The exception is that "nfiles" holds the code count. |
| `SummaryStats.NFilesFromCodesExample` | src/nwb_project_analytics/codestats.py:309 | One snapshot with 7 code lines in 3 files: the "nfiles" table reports 7. |
| `SummaryStats.NoRepositoriesNoColumns` | src/nwb_project_analytics/codestats.py:300-310 | With no repository the call succeeds, and every table has no columns and is indexed by the whole range. |
| `SummaryStats.ComputeSummaryStatsFixed` | src/nwb_project_analytics/codestats.py:209-316 | The corrected aggregation has the same failure conditions and the same table shape. |
| `SummaryStats.SummaryFixedMatchesLatest` | src/nwb_project_analytics/codestats.py:294-316 | Every corrected cell is its own category's value in the newest snapshot on or before its date, for any start. |
| `NwbSummary.Truncate` | src/nwb_project_analytics/codestats.py:115 | `table[repo][:cutoff] = 0` zeroes exactly the entries of `repo` dated on or before the cutoff. Every other column is unchanged. A table without the column raises. |
| `NwbSummary.TruncateIdempotent` | src/nwb_project_analytics/codestats.py:113-115 | Truncating again at the same cutoff changes nothing. |
| `NwbSummary.TruncateTwice` | src/nwb_project_analytics/codestats.py:113-121 | Truncating at two cutoffs is truncating at the later one. |
| `NwbSummary.TruncateCommutes` | src/nwb_project_analytics/codestats.py:113-121 | The HDMF and smithy clean-ups can run in either order. |
| `NwbSummary.TruncateAll` | src/nwb_project_analytics/codestats.py:114-115 | The loop over the five tables fails exactly when some table lacks the column. Otherwise every table is truncated. |
| `NwbSummary.TruncateAllShaped` | src/nwb_project_analytics/codestats.py:114-115 | Truncating a shaped summary keeps its shape. It zeroes exactly the cells of `repo` dated on or before the cutoff. |
| `NwbSummary.MarkStartDates` | src/nwb_project_analytics/codestats.py:109-121 | The clean-up succeeds exactly when both HDMF and the smithy have columns. It zeroes exactly their cells on or before their start days and keeps every other cell. |
| `NwbSummary.FromNwb` | src/nwb_project_analytics/codestats.py:100-123 | `from_nwb` uses the range from the given dates (default start 2016-08-31, default end today). It fails exactly when the aggregation fails or a clean-up column is missing. Every cell is zero before the repository's start day and the aggregation's value otherwise. |
| `NwbSummary.FromNwbFreezesAtDefaultStart` | src/nwb_project_analytics/codestats.py:101-107 | With the default start and snapshots on both sides of 2016-08-31 but none on it, a repository's cells all hold its last pre-2016-08-31 counts. |
| `NwbSummary.FromNwbFixed` | src/nwb_project_analytics/codestats.py:100-123 | The same clean-up over the corrected aggregation, with the same failure conditions. |
| `NwbSummary.FromNwbFixedCell` | src/nwb_project_analytics/codestats.py:100-121 | End to end, each corrected cell is zero before the repository's start day. Otherwise it is the category's value in the newest snapshot on or before that day. |
| `LanguageStats.LanguagesReported` | src/nwb_project_analytics/codestats.py:330 | The tracked languages are exactly those some snapshot reports and the ignore list does not name. |
| `LanguageStats.Start` | src/nwb_project_analytics/codestats.py:338 | Every tracked language starts at 0. |
| `LanguageStats.MisPaired` | src/nwb_project_analytics/codestats.py:340-349 | The loop pairs the ascending dates with the reports at the same position of the newest-first list. |
| `LanguageStats.Paired` | src/nwb_project_analytics/codestats.py:340 | Corrected pairing: each snapshot with its own report, oldest first. |
| `LanguageStats.ReversedRange` | src/nwb_project_analytics/codestats.py:360 | The reversed index labels row k with today − k. |
| `LanguageStats.LanguageTable` | src/nwb_project_analytics/codestats.py:326-360 | A table fails exactly when the repository has no snapshot, when a tracked entry without line counts (cloc's "header" unless it is ignored) is read on a matched day. Otherwise there is one row per day from the oldest snapshot through today, every row holds exactly the tracked languages, and row k is labelled today − k. The same code is at src/projectstats/codestats.py:252-282. |
| `LanguageStats.TableKeepsKeys` | src/nwb_project_analytics/codestats.py:356-357 | Every row of a table holds exactly the tracked languages. |
| `LanguageStats.LanguageRowsAsWritten` | src/nwb_project_analytics/codestats.py:343-357 | Row k is the previous row (zeros first), except on the cursor's day. There, every tracked language that the entry at the cursor's position of the newest-first list reports takes blank + code + code. |
| `LanguageStats.FirstRowAsWritten` | src/nwb_project_analytics/codestats.py:347-360 | The row labelled today holds the counts the NEWEST snapshot gives on the oldest day. The reference at the oldest day reads the oldest snapshot. |
| `LanguageStats.MisLabelledRow` | src/nwb_project_analytics/codestats.py:340-360 | Rows before the second-oldest snapshot's day carry the newest snapshot's counts, under labels where the reference does not see that snapshot. |
| `LanguageStats.SecondRowAsWritten` | src/nwb_project_analytics/codestats.py:340-360 | When the two newest snapshots are more than a day apart, the row labelled today − 1 holds the newest snapshot's counts as written. |
| `LanguageStats.MisLabelledTwoSnapshots` | src/nwb_project_analytics/codestats.py:340-360 | With snapshots of one language on days d and e > d + 1 and today e, the row labelled e − 1 holds the day-e counts as written. The reference for day e − 1 is the day-d snapshot. |
| `LanguageStats.MisLabelledExample` | src/nwb_project_analytics/codestats.py:340-360 | 4 code lines on day d and 8 on day d + 3, today d + 3: the row labelled d + 2 records 16 where the reference holds 4. |
| `LanguageStats.NewestNoCountsRaises` | src/nwb_project_analytics/codestats.py:326-351 | A tracked entry without counts in the newest report makes the table raise `MissingCounts`. |
| `LanguageStats.IgnoredNoCountsNeverRaise` | src/nwb_project_analytics/codestats.py:330-351 | When every entry without counts is ignored, no day raises `MissingCounts`. |
| `LanguageStats.CodeTwiceExample` | src/nwb_project_analytics/codestats.py:351 | 1 blank, 2 code and 3 comment lines are recorded as 5. |
| `LanguageStats.NoLanguageNoColumns` | src/nwb_project_analytics/codestats.py:330-360 | A repository with snapshots but no tracked language gets a table without columns: one empty row per day of its range. |
| `LanguageStats.LanguageTableFixed` | src/nwb_project_analytics/codestats.py:326-360 | The corrected table has the same failures and shape, with row k labelled oldest day + k. |
| `LanguageStats.LanguageTableFixedMatchesLatest` | src/nwb_project_analytics/codestats.py:343-357 | Each corrected cell is the language's blank + code + comment in the newest snapshot on or before its day that reports it, or 0. |
| `LanguageStats.ComputeLanguageStats` | src/nwb_project_analytics/codestats.py:318-362 | It fails when the statistics are missing, and with `MissingCounts` when a tracked entry without counts is read. It succeeds exactly when every repository's table can be built. There is one entry per repository, in order, under its name. |
| `LanguageStats.ComputeLanguageStatsTables` | src/nwb_project_analytics/codestats.py:328-359 | Each repository's entry is its own table. |
| `Labels.Type` | src/nwb_project_analytics/gitstats.py:43-45 | The type is absent exactly when the label has no ':'. Otherwise it is the text before the first ':'. The same code is at src/projectstats/gitstats.py:47-49. |
| `Labels.Level` | src/nwb_project_analytics/gitstats.py:56-60 | The level is the non-empty piece between the first ':' and the next one (or the end). It is absent when that piece is empty or there is no ':'. The same code is at src/projectstats/gitstats.py:60-64. |
| `Labels.TypeLevelRoundTrip` | src/nwb_project_analytics/gitstats.py:43-60 | "t:lv" with ':'-free parts and a non-empty level gives back t and lv. |
| `Labels.NoColonNoTypeNoLevel` | src/nwb_project_analytics/gitstats.py:43-60 | A label without ':' has neither type nor level. |
| `Labels.Hex` | src/nwb_project_analytics/gitstats.py:69 | The colour code is stripped of exactly its leading '#' characters. |
| `Labels.Rgb` | src/nwb_project_analytics/gitstats.py:69-70 | Each component is in -15..255, read by `int(piece, 16)` with its sign, prefix, underscore and other-script digit rules. An error names one of the three two-character pieces. The same code is at src/projectstats/gitstats.py:73-74. |
| `Labels.RgbOfSixDigits` | src/nwb_project_analytics/gitstats.py:69-70 | Six leading hexadecimal digits give the three two-digit values. |
| `Labels.RgbOtherScriptDigits` | src/nwb_project_analytics/gitstats.py:70 | Six Arabic-Indic threes after '#' are the colour (51, 51, 51). |
| `Labels.RgbRoundTrip` | src/nwb_project_analytics/gitstats.py:69-70 | Any number of '#' followed by three two-digit hex bytes parses back to the bytes. |
| `Labels.GetByType` | src/nwb_project_analytics/gitstats.py:83-87 | Exactly the labels whose type is present and equal to the argument are kept. An absent type keeps nothing. The same code is at src/projectstats/gitstats.py:87-91. |
| `Labels.GetByTypeIsFilter` | src/nwb_project_analytics/gitstats.py:83-87 | `get_by_type` is the order-preserving filter of the dictionary. |
| `Labels.GithubPath` | src/nwb_project_analytics/gitstats.py:129-131 | The URL is "https://github.com/" + owner + "/" + repo + ".git". |
| `Labels.GithubPathInjective` | src/nwb_project_analytics/gitstats.py:129-131 | For owners and names without '/', the URL determines both. |
| `OrderedDict.Put` | src/nwb_project_analytics/gitstats.py:524-526 | Assigning an existing key keeps the length. A new key is appended. |
| `OrderedDict.PutKeeps` | src/nwb_project_analytics/gitstats.py:524-526 | An assignment keeps keys distinct, adds exactly its key, and changes only that key's value. |
| `OrderedDict.FromItems` | src/nwb_project_analytics/gitstats.py:81 | `OrderedDict(items)` has distinct keys, the keys of the items, and for each key the value of its last item. |
| `OrderedDict.Merge` | src/nwb_project_analytics/gitstats.py:78-81 | `merge` has every key of both inputs. A key of `o2` takes `o2`'s value, and any other key keeps `o1`'s. `GitRepos.merge` (lines 184-187) is the same. |
| `OrderedDict.MergeIsSpec` | src/nwb_project_analytics/gitstats.py:184-187 | `merge` is exactly `o1`'s keys in `o1`'s order, each with `o2`'s value when shared, followed by `o2`'s new items in order. |
| `OrderedDict.FilterKeepsDistinct` | src/nwb_project_analytics/gitstats.py:85-87 | Filtering a dictionary keeps keys distinct, so rebuilding it changes nothing. |
| `Strings.LStrip` | src/nwb_project_analytics/gitstats.py:500 | `lstrip(c)` removes exactly the leading run of `c`. |
| `Strings.Split` | src/nwb_project_analytics/gitstats.py:44 | `split` gives at least one piece, no piece holds the separator, there is more than one piece exactly when the separator occurs, and the first piece ends at its first occurrence. |
| `Strings.JoinSplit` | src/nwb_project_analytics/gitstats.py:57 | Joining the pieces of a split gives back the string. |
| `Strings.Slice` | src/nwb_project_analytics/gitstats.py:70 | `s[i:j]` is clamped to the string's length. |
| `Strings.ParseHex` | src/nwb_project_analytics/gitstats.py:70 | `int(s, 16)` of hex digits is their value, and of at most two characters it is within -15..255. Whitespace around the text is ignored, and a sign may lead. |
| `Strings.Unsigned` | src/nwb_project_analytics/gitstats.py:70 | Unsigned text of hex digits (any script's decimal digits included) is their value; one or two characters give less than 16 or 256. An optional "0x" prefix and single underscores between digits are accepted. |
| `Strings.DigitsNeedNoPrefix` | src/nwb_project_analytics/gitstats.py:70 | Plain hex digits have no prefix to drop, are well grouped and hold no underscore. |
| `Strings.GroupedDigits` | src/nwb_project_analytics/gitstats.py:70 | Removing the underscores of well-grouped text leaves only hex digits. |
| `Strings.ParseHexOtherScript` | src/nwb_project_analytics/gitstats.py:70 | Two Arabic-Indic threes read as 0x33 = 51. |
| `Strings.ParseHexPrefix` | src/nwb_project_analytics/gitstats.py:70 | "0xff" reads as 255. |
| `Strings.ParseHexOtherScriptPrefix` | src/nwb_project_analytics/gitstats.py:70 | The prefix's zero may be an Arabic-Indic zero: "٠xff" reads as 255. |
| `Strings.ParseHexUnderscore` | src/nwb_project_analytics/gitstats.py:70 | "f_f" reads as 255. |
| `Strings.ParseHexSignedPrefix` | src/nwb_project_analytics/gitstats.py:70 | " -0x_f " reads as -15. |
| `Strings.ParseHexDoubleUnderscore` | src/nwb_project_analytics/gitstats.py:70 | "f__f" raises. |
| `Strings.ParseHexTrailingUnderscore` | src/nwb_project_analytics/gitstats.py:70 | "f_" raises. |
| `Strings.ParseHexBarePrefix` | src/nwb_project_analytics/gitstats.py:70 | "0x" without digits raises. |
| `Strings.ParseHexKawiNotDigit` | src/nwb_project_analytics/gitstats.py:70 | Kawi digits, added in Unicode 15.0, are not digits under Unicode 13.0, so two Kawi threes raise. |
| `Releases.KeptReleases` | src/nwb_project_analytics/gitstats.py:498-499 | The kept releases are exactly those whose name does not contain "Latest". |
| `Releases.KeptReleasesSingle` | src/nwb_project_analytics/gitstats.py:498-499 | One release is kept exactly when its name does not contain "Latest". |
| `Releases.KeptReleasesAppend` | src/nwb_project_analytics/gitstats.py:498-499 | The kept releases of a concatenation are those of its first part followed by those of its second: the filter keeps order. |
| `Releases.ReleaseNamesAndDates` | src/nwb_project_analytics/gitstats.py:495-503 | It succeeds exactly when every kept date parses. The names (tags without leading 'v') and the days then follow the kept releases in order. A failure names an unparsable date. The same code is at src/projectstats/gitstats.py:446-454. |
| `Releases.NamesHaveNoLeadingV` | src/nwb_project_analytics/gitstats.py:500 | No returned name starts with 'v'. |
| `Releases.AddReleases` | src/nwb_project_analytics/renderstats.py:42-46 | The added releases come after the fetched ones, in order. |
| `Releases.LexLessTransitive` | src/nwb_project_analytics/gitstats.py:519 | The component-list order that `sorted` uses is transitive. |
| `Releases.SortVersions` | src/nwb_project_analytics/gitstats.py:519 | The result is ascending and a permutation of the tags. |
| `Releases.CompareVersions` | src/nwb_project_analytics/gitstats.py:512-518 | The result is "major" exactly when the first component grew. It raises exactly when a component that is read is missing. |
| `Releases.JumpIsFirstDifference` | src/nwb_project_analytics/gitstats.py:512-518 | Between sorted versions, the first differing leading component decides major/minor, and patch means both agree. The same code is at src/projectstats/gitstats.py:582-588. |
| `Releases.FirstJump` | src/nwb_project_analytics/gitstats.py:521-522 | The smallest version is major exactly when its first component is positive, and never patch. |
| `Releases.LaterJumps` | src/nwb_project_analytics/gitstats.py:524-526 | Each later sorted version is keyed by its tag with its jump from its predecessor. |
| `Releases.VersionJumps` | src/nwb_project_analytics/gitstats.py:506-528 | No tags raises. Two components everywhere succeeds. The keys are distinct and cover every tag. With distinct tags, each version's entry is its own jump. The same code is at src/projectstats/gitstats.py:576-598. |
| `Releases.MergedJumps` | src/nwb_project_analytics/gitstats.py:521-526 | The dictionary from the first jump updated with the later ones holds every sorted version's own jump. |
| `Releases.Levels` | src/nwb_project_analytics/renderstats.py:51-65 | One level per name: 5 for major, 2 and 1 alternating for minor, −5..−1 cycling for patch. Levels are never 0, and the level's sign and size identify the kind. The same code is at src/projectstats/gitstats.py:489-503. |
| `Releases.Tile` | src/nwb_project_analytics/renderstats.py:69 | `np.tile` repeats the six-value pattern. |
| `Releases.FallbackLevels` | src/nwb_project_analytics/renderstats.py:67-71 | Exactly one level per date, following [−5, 5, −3, 3, −1, 1] periodically. Levels are nonzero and positive exactly at odd positions. |
| `Releases.PlotLevels` | src/nwb_project_analytics/renderstats.py:48-71 | The plot uses the jump levels exactly when the jumps can be computed, and the fallback otherwise. No level is 0. |
| `Codecov.ResolveKey` | src/nwb_project_analytics/codecovstats.py:27-30 | A missing key means "pulls". Only "pulls" and "commits" are accepted, and any other key raises before any request. The same code is at src/projectstats/codecovstats.py:26-29. |
| `Codecov.CoverageSource` | src/nwb_project_analytics/codecovstats.py:75-80 | Coverage is read from the entry's totals, else its head's, else its base's. There is none exactly when none of them has totals. |
| `Codecov.StampText` | src/nwb_project_analytics/codecovstats.py:67 | The stamp is "timestamp" when present, else "updatestamp". Having neither raises. |
| `Codecov.FormatOf` | src/nwb_project_analytics/codecovstats.py:69 | The ISO layout is chosen exactly when the stamp contains 'T'. |
| `Codecov.StampAndCov` | src/nwb_project_analytics/codecovstats.py:63-71 | Nothing is returned exactly for a zero coverage that is filtered. Totals without "c" raise `MissingC`, and coverage text that does not parse raises `InvalidFloat`. Otherwise a missing stamp raises `MissingTimestamp`, a stamp whose first 19 characters do not parse raises `InvalidTimestamp`, and else the stamp and coverage are returned. It never raises `MissingPullId`. |
| `Codecov.EntryOutcome` | src/nwb_project_analytics/codecovstats.py:73-85 | An entry contributes either its pair from its coverage source or its pull id, never both. With a coverage source, its errors propagate unchanged and its pair makes the entry covered. A filtered zero makes the entry uncovered by its pull id, or raises `MissingPullId` when it has none. |
| `Codecov.FilteredZeroUncovered` | src/nwb_project_analytics/codecovstats.py:65-85 | With filtering, a zero coverage sends the entry to the uncovered pull ids, or raises `MissingPullId` when it has none. An entry with a source is uncovered only for a zero coverage. |
| `Codecov.Outcomes` | src/nwb_project_analytics/codecovstats.py:73-85 | The loop succeeds exactly when every entry does, keeping one outcome per entry in order. Otherwise it raises the error of the first failing entry. |
| `Codecov.SortByStamp` | src/nwb_project_analytics/codecovstats.py:86-88 | The pairs come out ascending by stamp, as a permutation of the input. |
| `Codecov.TimeAndCoverage` | src/nwb_project_analytics/codecovstats.py:47-89 | Stamps ascend, coverage is permuted alongside, together they are exactly the covered pairs, and the uncovered pull ids keep input order. Each entry lands in exactly one output. The same code is at src/projectstats/codecovstats.py:45-85. |
| `Codecov.NoZeroWhenFiltered` | src/nwb_project_analytics/codecovstats.py:65-66 | With zero filtering, no returned coverage is zero. |
| `Codecov.UnfilteredKeepsZeros` | src/projectstats/codecovstats.py:61-67 | Without filtering, an entry with totals is never sent to `no_coverage`. It is covered by its parsed coverage, zero included, or raises its source's error, never `MissingPullId`. |
| `Dandi.AnyNwb` | src/nwb_project_analytics/dandistats.py:59-62 | The result is true exactly when an NWB identifier comes before any entry without one. It is false exactly when every entry has a non-NWB identifier. Otherwise it raises. |
| `Dandi.IsNwb` | src/nwb_project_analytics/dandistats.py:57-62 | A missing assets summary raises, and missing data standards give false. |
| `Dandi.IsNwbWhenIdentified` | src/nwb_project_analytics/dandistats.py:57-62 | With identifiers everywhere, `is_nwb` is exactly "the NWB standard is listed". |
| `Dandi.HasRelatedPublication` | src/nwb_project_analytics/dandistats.py:65-68 | The result is true exactly when related resources exist and one is "dcite:IsDescribedBy". |
| `Dandi.CountPersonsIsPositions` | src/nwb_project_analytics/dandistats.py:124-127 | The count of persons is the number of contributor positions holding a "Person". |
| `Dandi.Nauthors` | src/nwb_project_analytics/dandistats.py:124-127 | The count is 0 without contributors, and otherwise the persons among them. |
| `Dandi.HasModality` | src/nwb_project_analytics/dandistats.py:129-132 | A modality flag is true exactly when a measured variable is one of its neurodata types. |
| `Dandi.FirstSpecies` | src/nwb_project_analytics/dandistats.py:119-122 | The result is the first species' name, NaN without species, and raises on a nameless first entry. |
| `Dandi.RowOf` | src/nwb_project_analytics/dandistats.py:108-136 | A row is produced exactly for an NWB dandiset of positive size whose fields can be read. Its fields are the dandiset's. Non-NWB and sizeless dandisets give no row. |
| `Dandi.RowsMembers` | src/nwb_project_analytics/dandistats.py:107-138 | The table holds exactly the rows the dandisets yield. |
| `Dandi.Collect` | src/nwb_project_analytics/dandistats.py:108-138 | The row loop succeeds exactly when every dandiset does and keeps at most one row each. Otherwise it raises the error of the first failing dandiset. |
| `Dandi.ReplaceValue` | src/nwb_project_analytics/dandistats.py:142 | `replace(key, val)` changes exactly the entries equal to `key`. |
| `Dandi.ReplaceAllTranslates` | src/nwb_project_analytics/dandistats.py:141-142 | With a well-formed table, sequential replacement is one table lookup per value. |
| `Dandi.SpeciesTableWellFormed` | src/nwb_project_analytics/dandistats.py:33-51 | The species table has distinct keys and no target that is a key. |
| `Dandi.CleanSpecies` | src/nwb_project_analytics/dandistats.py:140-142 | Each species becomes its table target, or stays unchanged when not listed. |
| `Dandi.DandiStats` | src/nwb_project_analytics/dandistats.py:107-142 | A row error passes through; with no row the species clean-up raises `MissingSpeciesColumn`; otherwise the table is the rows in order with each species translated through the table. |
| `Dandi.NoNwbNoTable` | src/nwb_project_analytics/dandistats.py:113-142 | When no dandiset is NWB, the species clean-up raises. |
| `Dandi.CleanSpeciesIdempotent` | src/nwb_project_analytics/dandistats.py:33-51 | Cleaning twice equals cleaning once. |
| `Dandi.TranslateIdempotent` | src/nwb_project_analytics/dandistats.py:141-142 | When no target is a key, translating twice is translating once. |
| `Dandi.Shorthand` | src/nwb_project_analytics/dandistats.py:164-165 | A shorthand never contains " - ". A name without it is unchanged. |
| `Dandi.ShorthandAfterSeparator` | src/nwb_project_analytics/dandistats.py:165 | The shorthand is the text right after the first " - ", up to the next one or the end. |
| `Dandi.ShorthandIsFirstPiece` | src/nwb_project_analytics/dandistats.py:165 | The shorthand is the first piece of what follows the first separator. |
| `Dandi.ShorthandTable` | src/nwb_project_analytics/dandistats.py:163-165 | Each table entry is a name holding the separator, mapped to its shorthand. |
| `Dandi.ShorthandTableKeys` | src/nwb_project_analytics/dandistats.py:163-164 | A name is a key exactly when it is listed and holds the separator. |
| `Dandi.ShorthandLabels` | src/nwb_project_analytics/dandistats.py:161-165 | The histogram labels shorten exactly the listed names to their shorthand, whatever the order of the counts. |

## Left out

- Cloning repositories, `git checkout`, running cloc, the YAML cache and
  directory clean-up in `GitCodeStats` are I/O. The cloc run is a function
  parameter `runCloc`, and the statistics object is an input.
- The HTTP requests are not modelled: `get_releases`, the Codecov paging loop,
  `DandiAPIClient` and `get_issues_as_dataframe`. Their results are inputs.
- All matplotlib plotting and page assembly are not modelled. From
  `plot_release_timeline`, only the name/date gathering and the level block
  are modelled.
- `float()` on coverage text and `strptime` on stamps and dates are parameters
  (`Parsers`, `parseDay`). Coverage is an abstract real with a zero test.
- `LooseVersion` parsing is not modelled. Tags arrive as the tag text plus a
  pre-parsed list of naturals. LooseVersion's mixed int/str components and
  their comparison errors are not modelled.
- `datetime.today()` and `time.localtime()` are the parameter `today` (a day
  number). The local-time versus UTC offset is not modelled.
- `Strings.ParseHex`: the digit table is that of Unicode 13.0 (Python 3.9 and
  3.10). setup.py also admits Python 3.7 and 3.8 and anything later. Python 3.8
  (Unicode 12.1) rejects the runs starting at U+11950 and U+1FBF0, and
  Python 3.7 (Unicode 11.0) also those at U+1E140 and U+1E2F0. Python 3.11
  (Unicode 14.0) accepts Tangsa digits (U+16AC0), and Python 3.12 (Unicode
  15.0) also Kawi (U+11F50) and Nag Mundari (U+1E4F0). The model states one
  version's behaviour, not the others.
- `LanguageStats.Languages`: `np.unique` also sorts the languages, which fixes
  the column order. The model keeps the set of languages and not that order.
- `Releases.SortVersions`: the model sorts stably like Python's `sorted`, but
  the contract states only ascending order and permutation. Stability is not
  stated.
- `Codecov.TimeAndCoverage`: `np.argsort` is not stable, so pairs with equal
  stamps may come out in any order. The contract therefore states ascending
  stamps and a permutation of the covered pairs, not one particular order of
  ties.
- The properties `types`, `levels`, `colors` and `rgbs` of `IssueLabels`
  build Python sets and return them in arbitrary order. `GitRepos.get_info_objects`
  wraps network objects. Neither is modelled.
- The older copy of `git_repo_stats` (src/projectstats/codestats.py:371)
  calls `run_cloc` by its bare name, which that module does not define, so
  its first cloc run raises NameError. `Cloc.ClocSnapshots` models the newer
  copy only.
- Older pandas releases raise ValueError when an index of another length is
  set on a table without columns. The model follows the releases that accept
  it, so a repository list or language set that is empty still gives tables
  indexed by the range.
- `get_languages_used` is not modelled. In the older copy it reads an
  undefined `ignore_lang` and raises NameError.
- The DANDI numeric post-processing (log sizes, cumulative sums, scaling) is
  not modelled, because it is floating point.
- The hard-coded repository and label tables of `NWBGitInfo` are
  configuration, not logic. Only the three start dates are used.

## Findings

| source | as written | input that shows it | evidently intended | confidence | as-written member | corrected member |
|---|---|---|---|---|---|---|
| src/nwb_project_analytics/codestats.py:264-267 | The pre-history search leaves the cursor on the snapshot before the range start. When the start lies strictly between two snapshots, that day never occurs in the range, so the cursor never advances. | Snapshots on days 1, 5 and 10 with code 10, 20 and 15, aligned over days 3, 4 and 5: day 5 reports 10. | Each date reports the newest snapshot on or before it (20 on day 5). | high; not executed | `SummaryStats.StartBetweenSnapshotsExample` | `SummaryStats.AlignRepoFixedMatchesLatest` |
| src/nwb_project_analytics/codestats.py:260-267 | When the range starts on the newest snapshot's day, the search finds no later snapshot and leaves the cursor at 0. It loads the oldest values, which are then frozen. | Snapshots on days 1 and 5, aligned over days 5 and 6: both days report the day-1 counts. | Day 5 and later report the day-5 snapshot. | high; not executed | `SummaryStats.StartOnNewestExample` | `SummaryStats.AlignRepoFixedMatchesLatest` |
| src/nwb_project_analytics/codestats.py:101-104 | `from_nwb` with the default start (2016-08-31) freezes every repository that has cloc snapshots on both sides of that day but none on it. | A repository with snapshots on 2016-08-30 and 2016-09-02: every cell holds the 2016-08-30 counts. | Counts follow the repository's history. | high; not executed | `NwbSummary.FromNwbFreezesAtDefaultStart` | `NwbSummary.FromNwbFixedCell` |
| src/nwb_project_analytics/codestats.py:309 | The "nfiles" table is built from the aligned code counts. | One snapshot with 7 code lines in 3 files: "nfiles" reports 7. | "nfiles" reports 3. | high; not executed | `SummaryStats.NFilesFromCodesExample` | `SummaryStats.SummaryFixedMatchesLatest` |
| src/nwb_project_analytics/codestats.py:349 | The ascending dates are matched against `v[curr_index]` of the newest-first list, and the index is then attached reversed (line 360). | Snapshots with 4 code lines on day 10 (oldest) and 8 on day 13, with today 13: the row labelled 12 records 16, the day-13 counts. | Each labelled day holds the newest snapshot on or before it (4, the day-10 counts). | high; not executed | `LanguageStats.MisLabelledExample` | `LanguageStats.LanguageTableFixedMatchesLatest` |
| src/nwb_project_analytics/codestats.py:351 | A language's count is blank + code + code. | 1 blank, 2 code and 3 comment lines: the table records 5. | blank + code + comment, which is 6. | medium; not executed | `LanguageStats.CodeTwiceExample` | `LanguageStats.LanguageTableFixedMatchesLatest` |

=== FILE: cloc.dfy ===
/**
 * The records `GitCodeStats` keeps per repository: the commits walked by
 * `git_repo_stats` and the per-day cloc reports taken from them.
 */
module Cloc {
  import opened Results

  /** One row of a cloc report: line counts for a language, or for the "SUM" total. */
  datatype Counts = Counts(blank: nat, code: nat, comment: nat, nFiles: nat)

  /** The all-zero row reported before a repository exists. */
  const Zero: Counts := Counts(0, 0, 0, 0)

  /** The key of cloc's aggregate row. */
  const SumKey: string := "SUM"

  /** One entry of a cloc report: the line counts of a language (or of the
      "SUM" total), or an entry without counts, such as cloc's "header". */
  datatype ReportEntry = Lines(counts: Counts) | NoCounts

  /** A cloc report as `yaml.safe_load` returns it: entry name to entry. */
  type ClocReport = map<string, ReportEntry>

  /** The report has line counts under `key`. */
  predicate HasLines(report: ClocReport, key: string) {
    key in report && report[key].Lines?
  }

  /** A commit as `iter_commits` yields it: its hash and its commit time in
      seconds since the Unix epoch. */
  datatype CommitInfo = CommitInfo(hexsha: string, committedDate: int)

  /** One cloc snapshot: the commit it was taken at, its day number, and the report. */
  datatype ClocEntry = ClocEntry(hexsha: string, day: int, cloc: ClocReport)

  /** The cloc snapshots of one repository, newest first, under its name. */
  datatype RepoClocs = RepoClocs(name: string, entries: seq<ClocEntry>)

  /** The statistics object: commit lists and cloc snapshots per repository, in
      the order of the source's dictionaries; `None` stands for an attribute that
      `compute_code_stats` (or the cache) has not initialised. */
  datatype GitCodeStats = GitCodeStats(commitStats: Option<map<string, seq<CommitInfo>>>, clocStats: Option<seq<RepoClocs>>)

  const SecondsPerDay: int := 86400

  /** The UTC calendar day (days since 1970-01-01) of a commit time, as
      `time.gmtime` rounds it: towards minus infinity. */
  function Day(t: int): (d: int)
    ensures d * SecondsPerDay <= t < (d + 1) * SecondsPerDay
  {
    t / SecondsPerDay
  }

  /** The snapshot taken at a commit; `runCloc` stands for checking the commit
      out and running cloc on it. */
  function SnapshotOf(c: CommitInfo, runCloc: string -> ClocReport): ClocEntry {
    ClocEntry(c.hexsha, Day(c.committedDate), runCloc(c.hexsha))
  }

  /** A commit (newest first) is the first of its day-run when the commit before
      it in the list falls on another day. */
  predicate IsRunStart(commits: seq<CommitInfo>, i: nat)
    requires i < |commits|
  {
    i == 0 || Day(commits[i - 1].committedDate) != Day(commits[i].committedDate)
  }

  /** Reference selection: one snapshot for each run start, in list order. */
  function FirstOfEachDay(commits: seq<CommitInfo>, runCloc: string -> ClocReport): (r: seq<ClocEntry>)
    ensures |r| <= |commits|
    ensures |commits| > 0 ==> |r| > 0 && r[|r| - 1].day == Day(commits[|commits| - 1].committedDate)
    ensures forall j :: 0 < j < |r| ==> r[j - 1].day != r[j].day
    decreases |commits|
  {
    if |commits| == 0 then []
    else
      var n := |commits| - 1;
      FirstOfEachDay(commits[..n], runCloc)
        + (if IsRunStart(commits, n) then [SnapshotOf(commits[n], runCloc)] else [])
  }

  /** The selection keeps exactly the run starts: every run start has its
      snapshot in the result, and every snapshot in the result comes from one. */
  lemma FirstOfEachDayKeepsRunStarts(commits: seq<CommitInfo>, runCloc: string -> ClocReport)
    ensures forall i :: 0 <= i < |commits| && IsRunStart(commits, i) ==>
      SnapshotOf(commits[i], runCloc) in FirstOfEachDay(commits, runCloc)
    ensures forall e :: e in FirstOfEachDay(commits, runCloc) ==>
      exists i :: 0 <= i < |commits| && IsRunStart(commits, i) && e == SnapshotOf(commits[i], runCloc)
  {
    RunStartsKept(commits, runCloc);
    KeptAreRunStarts(commits, runCloc);
  }

  /** The selection after one more commit: the earlier selection, then the
      commit's snapshot if it starts a run. */
  lemma FirstOfEachDayStep(commits: seq<CommitInfo>, runCloc: string -> ClocReport)
    requires |commits| > 0
    ensures var n := |commits| - 1;
      && (forall i :: 0 <= i < n ==> commits[..n][i] == commits[i] && (IsRunStart(commits[..n], i) <==> IsRunStart(commits, i)))
      && (forall e :: e in FirstOfEachDay(commits, runCloc) <==>
            e in FirstOfEachDay(commits[..n], runCloc) || (IsRunStart(commits, n) && e == SnapshotOf(commits[n], runCloc)))
  {
    var n := |commits| - 1;
    var last := if IsRunStart(commits, n) then [SnapshotOf(commits[n], runCloc)] else [];
    assert FirstOfEachDay(commits, runCloc) == FirstOfEachDay(commits[..n], runCloc) + last;
  }

  lemma {:induction false} RunStartsKept(commits: seq<CommitInfo>, runCloc: string -> ClocReport)
    ensures forall i :: 0 <= i < |commits| && IsRunStart(commits, i) ==>
      SnapshotOf(commits[i], runCloc) in FirstOfEachDay(commits, runCloc)
    decreases |commits|
  {
    if |commits| > 0 {
      var n := |commits| - 1;
      RunStartsKept(commits[..n], runCloc);
      FirstOfEachDayStep(commits, runCloc);
    }
  }

  lemma KeptAreRunStarts(commits: seq<CommitInfo>, runCloc: string -> ClocReport)
    ensures forall e :: e in FirstOfEachDay(commits, runCloc) ==>
      exists i :: 0 <= i < |commits| && IsRunStart(commits, i) && e == SnapshotOf(commits[i], runCloc)
  {
    forall e | e in FirstOfEachDay(commits, runCloc)
      ensures exists i :: 0 <= i < |commits| && IsRunStart(commits, i) && e == SnapshotOf(commits[i], runCloc)
    {
      var i := KeptFrom(commits, runCloc, e);
    }
  }

  /** The run start a kept snapshot comes from. */
  lemma {:induction false} KeptFrom(commits: seq<CommitInfo>, runCloc: string -> ClocReport, e: ClocEntry) returns (i: nat)
    requires e in FirstOfEachDay(commits, runCloc)
    ensures i < |commits| && IsRunStart(commits, i) && e == SnapshotOf(commits[i], runCloc)
    decreases |commits|
  {
    var n := |commits| - 1;
    var p := commits[..n];
    FirstOfEachDayStep(commits, runCloc);
    if e in FirstOfEachDay(p, runCloc) {
      i := KeptFrom(p, runCloc, e);
      assert p[i] == commits[i] && IsRunStart(p, i);
    } else {
      i := n;
    }
  }

  /** The per-day loop of `git_repo_stats`: walking the commits newest first, a
      snapshot is taken when the list is empty or the commit's day differs from
      the day of the last snapshot taken. */
  method ClocSnapshots(commits: seq<CommitInfo>, runCloc: string -> ClocReport) returns (entries: seq<ClocEntry>)
    ensures entries == FirstOfEachDay(commits, runCloc)
    ensures forall j :: 0 < j < |entries| ==> entries[j - 1].day != entries[j].day
  {
    entries := [];
    var i := 0;
    while i < |commits|
      invariant 0 <= i <= |commits|
      invariant entries == FirstOfEachDay(commits[..i], runCloc)
      invariant i > 0 ==> |entries| > 0 && entries[|entries| - 1].day == Day(commits[i - 1].committedDate)
    {
      var day := Day(commits[i].committedDate);
      var seen := commits[..i + 1];
      assert seen[..i] == commits[..i] && seen[i] == commits[i];
      assert IsRunStart(seen, i) <==> |entries| == 0 || day != entries[|entries| - 1].day;
      assert FirstOfEachDay(seen, runCloc)
        == entries + (if IsRunStart(seen, i) then [SnapshotOf(commits[i], runCloc)] else []);
      if |entries| == 0 || day != entries[|entries| - 1].day {
        entries := entries + [SnapshotOf(commits[i], runCloc)];
      }
      i := i + 1;
    }
    assert commits[..i] == commits;
  }
}

=== FILE: codecov.dfy ===
/**
 * Coverage history from Codecov: which listing a request may ask for, and
 * how the listed pull requests or commits become a time-sorted coverage
 * series plus the pull ids that carry no usable coverage.
 */
module Codecov {
  import opened Results
  import opened Strings

  const Pulls: string := "pulls"
  const Commits: string := "commits"

  /** The listing asked for was neither "pulls" nor "commits" (ValueError). */
  datatype KeyError = InvalidKey(key: string)

  /** The key check of `get_pulls_or_commits`, made before any request: no key
      means "pulls", and only "pulls" and "commits" are accepted. */
  function ResolveKey(key: Option<string>): (r: Result<string, KeyError>)
    ensures r.Ok? <==> key.None? || key.value == Pulls || key.value == Commits
    ensures r.Ok? ==> (r.value == Pulls || r.value == Commits)
    ensures key.None? ==> r == Ok(Pulls)
    ensures key.Some? && r.Ok? ==> r.value == key.value
    ensures r.Err? ==> r.error == InvalidKey(key.value)
  {
    match key
    case None => Ok(Pulls)
    case Some(k) => if k == Pulls || k == Commits then Ok(k) else Err(InvalidKey(k))
  }

  /** A `totals` record; `c` is the coverage percentage text, absent when the
      record has no "c" entry. */
  datatype Totals = Totals(c: Option<string>)

  /** A dictionary that may carry coverage totals and time stamps: the entry
      itself, or its "head" or "base" commit. `totals` is `None` when the key
      is missing or its value is null. */
  datatype Source = Source(totals: Option<Totals>, timestamp: Option<string>, updatestamp: Option<string>)

  /** One listed pull request or commit. `head` and `base` are `None` when
      missing or null; `pullid` is `None` when missing. */
  datatype Entry = Entry(top: Source, head: Option<Source>, base: Option<Source>, pullid: Option<int>)

  /** The two time stamp layouts `strptime` is given. */
  datatype StampFormat = IsoT | Spaced

  /** What can go wrong for one entry, as the exception the source raises. */
  datatype CovError =
    | MissingC                  // KeyError on totals['c']
    | InvalidFloat(text: string) // ValueError from float()
    | MissingTimestamp          // KeyError on 'updatestamp'
    | InvalidTimestamp(text: string) // ValueError from strptime
    | MissingPullId             // KeyError on p['pullid']

  /** The parsers the source borrows from Python: `float` on text and
      `strptime` on the first 19 characters of a stamp (seconds since the epoch). */
  datatype Parsers = Parsers(toFloat: string -> Option<real>, parseStamp: (string, StampFormat) -> Option<int>)

  predicate HasTotals(s: Option<Source>) {
    s.Some? && s.value.totals.Some?
  }

  /** Where the coverage is read from: the entry's own totals, else its head's,
      else its base's. */
  function CoverageSource(p: Entry): (r: Option<Source>)
    ensures r.None? <==> !HasTotals(Some(p.top)) && !HasTotals(p.head) && !HasTotals(p.base)
    ensures HasTotals(Some(p.top)) ==> r == Some(p.top)
    ensures !HasTotals(Some(p.top)) && HasTotals(p.head) ==> r == p.head
    ensures !HasTotals(Some(p.top)) && !HasTotals(p.head) && HasTotals(p.base) ==> r == p.base
    ensures r.Some? ==> r.value.totals.Some?
  {
    if p.top.totals.Some? then Some(p.top)
    else if HasTotals(p.head) then p.head
    else if HasTotals(p.base) then p.base
    else None
  }

  /** The stamp text: "timestamp" if present, else "updatestamp". */
  function StampText(s: Source): (r: Result<string, CovError>)
    ensures r.Err? <==> s.timestamp.None? && s.updatestamp.None?
    ensures s.timestamp.Some? ==> r == Ok(s.timestamp.value)
    ensures s.timestamp.None? && s.updatestamp.Some? ==> r == Ok(s.updatestamp.value)
  {
    match s.timestamp
    case Some(t) => Ok(t)
    case None =>
      match s.updatestamp
      case Some(u) => Ok(u)
      case None => Err(MissingTimestamp)
  }

  /** The layout chosen for a stamp: ISO with 'T' when the stamp has a 'T' anywhere. */
  function FormatOf(ts: string): (f: StampFormat)
    ensures f == IsoT <==> 'T' in ts
  {
    if 'T' in ts then IsoT else Spaced
  }

  /** `get_stamp_and_cov`: the coverage of a source and, unless it is a zero
      that is filtered, its time stamp; `None` for a filtered zero. */
  function StampAndCov(s: Source, filterZeros: bool, parsers: Parsers): (r: Result<Option<(int, real)>, CovError>)
    requires s.totals.Some?
    ensures s.totals.value.c.None? ==> r == Err(MissingC)
    ensures r == Ok(None) <==> s.totals.value.c.Some? && parsers.toFloat(s.totals.value.c.value) == Some(0.0) && filterZeros
    ensures r.Ok? && r.value.Some? ==> (Some(r.value.value.1) == parsers.toFloat(s.totals.value.c.value)
      && StampText(s).Ok?
      && Some(r.value.value.0) == parsers.parseStamp(Slice(StampText(s).value, 0, 19), FormatOf(StampText(s).value)))
    ensures var c := s.totals.value.c;
      c.Some? && parsers.toFloat(c.value).None? ==> r == Err(InvalidFloat(c.value))
    ensures var c := s.totals.value.c;
      c.Some? && parsers.toFloat(c.value).Some? && !(parsers.toFloat(c.value).value == 0.0 && filterZeros) ==>
        && (StampText(s).Err? ==> r == Err(MissingTimestamp))
        && (StampText(s).Ok? ==>
              var ts := StampText(s).value;
              var stamp := parsers.parseStamp(Slice(ts, 0, 19), FormatOf(ts));
              r == if stamp.Some? then Ok(Some((stamp.value, parsers.toFloat(c.value).value)))
                   else Err(InvalidTimestamp(Slice(ts, 0, 19))))
    ensures r.Err? ==> r.error != MissingPullId
  {
    match s.totals.value.c
    case None => Err(MissingC)
    case Some(text) =>
      match parsers.toFloat(text)
      case None => Err(InvalidFloat(text))
      case Some(cov) =>
        if cov == 0.0 && filterZeros then Ok(None)
        else
          match StampText(s)
          case Err(e) => Err(e)
          case Ok(ts) =>
            var head := Slice(ts, 0, 19);
            match parsers.parseStamp(head, FormatOf(ts))
            case None => Err(InvalidTimestamp(head))
            case Some(stamp) => Ok(Some((stamp, cov)))
  }

  /** What one entry contributes: a (time stamp, coverage) pair or its pull id. */
  datatype Outcome = Covered(stamp: int, cov: real) | Uncovered(pullid: int)

  /** The body of the loop over the entries. */
  function EntryOutcome(p: Entry, filterZeros: bool, parsers: Parsers): (r: Result<Outcome, CovError>)
    ensures r.Ok? && r.value.Covered? ==> (CoverageSource(p).Some?
      && StampAndCov(CoverageSource(p).value, filterZeros, parsers) == Ok(Some((r.value.stamp, r.value.cov))))
    ensures r.Ok? && r.value.Uncovered? ==> (p.pullid == Some(r.value.pullid)
      && (CoverageSource(p).None? || StampAndCov(CoverageSource(p).value, filterZeros, parsers) == Ok(None)))
    ensures CoverageSource(p).None? ==> r == if p.pullid.Some? then Ok(Uncovered(p.pullid.value)) else Err(MissingPullId)
    ensures CoverageSource(p).Some? ==>
      match StampAndCov(CoverageSource(p).value, filterZeros, parsers)
      case Err(e) => r == Err(e)
      case Ok(Some(x)) => r == Ok(Covered(x.0, x.1))
      case Ok(None) => r == if p.pullid.Some? then Ok(Uncovered(p.pullid.value)) else Err(MissingPullId)
  {
    var found: Result<Option<(int, real)>, CovError> :=
      match CoverageSource(p)
      case None => Ok(None)
      case Some(s) => StampAndCov(s, filterZeros, parsers);
    match found
    case Err(e) => Err(e)
    case Ok(Some((stamp, cov))) => Ok(Covered(stamp, cov))
    case Ok(None) =>
      match p.pullid
      case None => Err(MissingPullId)
      case Some(id) => Ok(Uncovered(id))
  }

  /** The outcomes of all entries in order, failing at the first entry that raises. */
  function Outcomes(ps: seq<Entry>, filterZeros: bool, parsers: Parsers): (r: Result<seq<Outcome>, CovError>)
    ensures r.Ok? <==> forall i :: 0 <= i < |ps| ==> EntryOutcome(ps[i], filterZeros, parsers).Ok?
    ensures r.Ok? ==> (|r.value| == |ps|
      && forall i :: 0 <= i < |ps| ==> EntryOutcome(ps[i], filterZeros, parsers) == Ok(r.value[i]))
    ensures r.Err? ==> exists j :: (0 <= j < |ps| && EntryOutcome(ps[j], filterZeros, parsers) == Err(r.error)
      && forall i :: 0 <= i < j ==> EntryOutcome(ps[i], filterZeros, parsers).Ok?)
    decreases |ps|
  {
    if |ps| == 0 then Ok([])
    else
      var n := |ps| - 1;
      match Outcomes(ps[..n], filterZeros, parsers)
      case Err(e) => Err(e)
      case Ok(front) =>
        match EntryOutcome(ps[n], filterZeros, parsers)
        case Err(e) => Err(e)
        case Ok(o) => Ok(front + [o])
  }

  /** The (time stamp, coverage) pairs of the covered outcomes, in order. */
  function CoveredPairs(os: seq<Outcome>): (r: seq<(int, real)>)
    ensures |r| <= |os|
    decreases |os|
  {
    if |os| == 0 then []
    else
      var n := |os| - 1;
      CoveredPairs(os[..n]) + (if os[n].Covered? then [(os[n].stamp, os[n].cov)] else [])
  }

  /** The pull ids of the uncovered outcomes, in order. */
  function UncoveredIds(os: seq<Outcome>): (r: seq<int>)
    ensures |r| + |CoveredPairs(os)| == |os|
    decreases |os|
  {
    if |os| == 0 then []
    else
      var n := |os| - 1;
      UncoveredIds(os[..n]) + (if os[n].Uncovered? then [os[n].pullid] else [])
  }

  /** Ascending by time stamp. */
  predicate SortedByStamp(s: seq<(int, real)>) {
    forall i, j :: 0 <= i < j < |s| ==> s[i].0 <= s[j].0
  }

  /** Insert a pair behind every pair whose stamp is not later. */
  function InsertByStamp(x: (int, real), s: seq<(int, real)>): (r: seq<(int, real)>)
    requires SortedByStamp(s)
    ensures SortedByStamp(r)
    ensures multiset(r) == multiset(s) + multiset{x}
    ensures |r| == |s| + 1
    decreases |s|
  {
    if |s| == 0 then [x]
    else if x.0 < s[0].0 then [x] + s
    else
      var rest := InsertByStamp(x, s[1..]);
      assert s == [s[0]] + s[1..];
      InsertBehindStamp(x, s, rest);
      [s[0]] + rest
  }

  lemma InsertBehindStamp(x: (int, real), s: seq<(int, real)>, rest: seq<(int, real)>)
    requires SortedByStamp(s) && |s| > 0 && s[0].0 <= x.0
    requires SortedByStamp(rest) && multiset(rest) == multiset(s[1..]) + multiset{x}
    ensures SortedByStamp([s[0]] + rest)
  {
    var r := [s[0]] + rest;
    forall j | 0 < j < |r| ensures s[0].0 <= r[j].0 {
      assert r[j] in multiset(rest);
      if r[j] != x {
        assert r[j] in multiset(s[1..]);
        var k :| 0 <= k < |s[1..]| && s[1..][k] == r[j];
        assert s[k + 1] == r[j];
      }
    }
  }

  /** `np.argsort` of the stamps applied to the pairs: the pairs ordered by time stamp. */
  function SortByStamp(s: seq<(int, real)>): (r: seq<(int, real)>)
    ensures SortedByStamp(r)
    ensures multiset(r) == multiset(s)
    ensures |r| == |s|
    decreases |s|
  {
    if |s| == 0 then []
    else
      assert s == s[..|s| - 1] + [s[|s| - 1]];
      InsertByStamp(s[|s| - 1], SortByStamp(s[..|s| - 1]))
  }

  /** `get_time_and_coverage`: time stamps ascending, the coverage values
      permuted alongside, and the pull ids of the entries without coverage
      in input order. */
  function TimeAndCoverage(ps: seq<Entry>, filterZeros: bool, parsers: Parsers)
    : (r: Result<(seq<int>, seq<real>, seq<int>), CovError>)
    ensures r.Ok? <==> Outcomes(ps, filterZeros, parsers).Ok?
    ensures r.Ok? ==> |r.value.0| + |r.value.2| == |ps|
    ensures r.Ok? ==> Series(r.value, Outcomes(ps, filterZeros, parsers).value)
  {
    match Outcomes(ps, filterZeros, parsers)
    case Err(e) => Err(e)
    case Ok(os) => Ok(SeriesOf(os))
  }

  /** The result triple for the outcomes: stamps ascending with coverage kept
      pairwise alongside, forming exactly the covered pairs, and the uncovered
      pull ids in order. */
  ghost predicate Series(t: (seq<int>, seq<real>, seq<int>), os: seq<Outcome>) {
    && |t.0| == |t.1|
    && (forall i, j :: 0 <= i < j < |t.0| ==> t.0[i] <= t.0[j])
    && multiset(Zip(t.0, t.1)) == multiset(CoveredPairs(os))
    && t.2 == UncoveredIds(os)
  }

  /** Sort the covered pairs and split them into the two arrays. */
  function SeriesOf(os: seq<Outcome>): (t: (seq<int>, seq<real>, seq<int>))
    ensures Series(t, os)
    ensures |t.0| + |t.2| == |os|
  {
    var sorted := SortByStamp(CoveredPairs(os));
    var stamps := seq(|sorted|, i requires 0 <= i < |sorted| => sorted[i].0);
    var covs := seq(|sorted|, i requires 0 <= i < |sorted| => sorted[i].1);
    assert Zip(stamps, covs) == sorted;
    (stamps, covs, UncoveredIds(os))
  }

  /** Pairs up two sequences of equal length. */
  function Zip(a: seq<int>, b: seq<real>): (r: seq<(int, real)>)
    requires |a| == |b|
    ensures |r| == |a| && forall i :: 0 <= i < |a| ==> r[i] == (a[i], b[i])
  {
    seq(|a|, i requires 0 <= i < |a| => (a[i], b[i]))
  }

  /** With zero filtering on, no returned coverage value is zero. */
  lemma NoZeroWhenFiltered(ps: seq<Entry>, parsers: Parsers)
    requires TimeAndCoverage(ps, true, parsers).Ok?
    ensures forall i :: 0 <= i < |TimeAndCoverage(ps, true, parsers).value.1| ==> TimeAndCoverage(ps, true, parsers).value.1[i] != 0.0
  {
    var os := Outcomes(ps, true, parsers).value;
    var r := TimeAndCoverage(ps, true, parsers).value;
    CoveredNonZero(ps, os, parsers);
    forall i | 0 <= i < |r.1| ensures r.1[i] != 0.0 {
      var z := Zip(r.0, r.1);
      assert z[i] in multiset(CoveredPairs(os));
    }
  }

  /** Every covered pair of a filtered run has a non-zero coverage. */
  lemma CoveredNonZero(ps: seq<Entry>, os: seq<Outcome>, parsers: Parsers)
    requires Outcomes(ps, true, parsers) == Ok(os)
    ensures forall x :: x in CoveredPairs(os) ==> x.1 != 0.0
  {
    forall k | 0 <= k < |os| && os[k].Covered? ensures os[k].cov != 0.0 {
      assert EntryOutcome(ps[k], true, parsers) == Ok(os[k]);
    }
    CoveredPairsFrom(os);
  }

  /** Every covered pair comes from a covered outcome. */
  lemma {:induction false} CoveredPairsFrom(os: seq<Outcome>)
    ensures forall x :: x in CoveredPairs(os) ==> exists k :: 0 <= k < |os| && os[k] == Covered(x.0, x.1)
    decreases |os|
  {
    if |os| > 0 {
      var n := |os| - 1;
      CoveredPairsFrom(os[..n]);
      forall x | x in CoveredPairs(os[..n]) ensures exists k :: 0 <= k < |os| && os[k] == Covered(x.0, x.1) {
        var k :| 0 <= k < n && os[..n][k] == Covered(x.0, x.1);
        assert os[k] == os[..n][k];
      }
    }
  }

  /** Without zero filtering, an entry with totals is never sent to the
      uncovered ids: it is covered by its parsed pair, whatever the coverage
      (zero included), or it raises the error of its coverage source, never
      the missing pull id. */
  lemma UnfilteredKeepsZeros(p: Entry, parsers: Parsers)
    requires CoverageSource(p).Some?
    ensures EntryOutcome(p, false, parsers).Ok? ==> EntryOutcome(p, false, parsers).value.Covered?
    ensures var r := EntryOutcome(p, false, parsers);
      var c := CoverageSource(p).value.totals.value.c;
      && (r.Err? ==> r.error != MissingPullId)
      && (r.Ok? ==> c.Some? && Some(r.value.cov) == parsers.toFloat(c.value))
  {
  }

  /** A zero that is filtered sends the entry to the uncovered ids, or raises
      when the entry has no pull id; zero filtering is the only way an entry
      with totals ends up uncovered. */
  lemma FilteredZeroUncovered(p: Entry, parsers: Parsers)
    requires CoverageSource(p).Some?
    ensures var c := CoverageSource(p).value.totals.value.c;
      var r := EntryOutcome(p, true, parsers);
      c.Some? && parsers.toFloat(c.value) == Some(0.0) ==>
        r == if p.pullid.Some? then Ok(Uncovered(p.pullid.value)) else Err(MissingPullId)
    ensures var r := EntryOutcome(p, true, parsers);
      r.Ok? && r.value.Uncovered? ==> parsers.toFloat(CoverageSource(p).value.totals.value.c.value) == Some(0.0)
  {
  }
}

=== FILE: dandi.dfy ===
/**
 * Statistics over DANDI archive dandisets: which dandisets hold NWB data,
 * which cite a describing publication, the table row each kept dandiset
 * contributes, and the clean-up of species names for display.
 */
module Dandi {
  import opened Results
  import opened Strings
  import opened OrderedDict

  /** The RRID under which NWB is registered as a data standard. */
  const NwbRrid: string := "RRID:SCR_015242"
  const DescribedBy: string := "dcite:IsDescribedBy"
  const PersonKey: string := "Person"

  /** One `dataStandard` entry; `identifier` is absent when the key is missing. */
  datatype Standard = Standard(identifier: Option<string>)

  /** One `species` entry; `name` is absent when the key is missing. */
  datatype Species = Species(name: Option<string>)

  /** The dandiset's `assetsSummary`; each field is absent when its key is missing. */
  datatype AssetsSummary = AssetsSummary(
    dataStandard: Option<seq<Standard>>,
    species: Option<seq<Species>>,
    variableMeasured: Option<seq<string>>,
    numberOfSubjects: Option<int>,
    numberOfFiles: Option<int>)

  /** A `contributor` entry, with its optional `schemaKey`. */
  datatype Contributor = Contributor(schemaKey: Option<string>)

  /** A `relatedResource` entry, with its optional `relation`. */
  datatype Resource = Resource(relation: Option<string>)

  /** The raw metadata of a dandiset; each field is absent when its key is missing. */
  datatype Metadata = Metadata(
    assetsSummary: Option<AssetsSummary>,
    contributor: Option<seq<Contributor>>,
    relatedResource: Option<seq<Resource>>)

  /** A dandiset's draft version: identifier, creation and modification
      times, size in bytes (absent when unknown) and metadata. */
  datatype Dandiset = Dandiset(identifier: string, created: int, modified: int, size: Option<nat>, metadata: Metadata)

  /** The KeyError a metadata lookup raises. */
  datatype DandiError =
    | MissingAssetsSummary
    | MissingIdentifier
    | MissingSpeciesName
    | MissingVariableMeasured
    | MissingSpeciesColumn // the table has no rows, so no "species" column

  /** `any(x['identifier'] == NwbRrid for x in standards)`: stops at the first
      match, and raises on an entry without identifier reached before it. */
  function AnyNwb(standards: seq<Standard>): (r: Result<bool, DandiError>)
    ensures r == Ok(false) <==> forall i :: 0 <= i < |standards| ==>
      standards[i].identifier.Some? && standards[i].identifier.value != NwbRrid
    ensures r == Ok(true) <==> exists i :: (0 <= i < |standards| && standards[i].identifier == Some(NwbRrid)
      && forall j :: 0 <= j < i ==> standards[j].identifier.Some?)
    ensures r.Err? ==> r.error == MissingIdentifier
    decreases |standards|
  {
    if |standards| == 0 then Ok(false)
    else
      match standards[0].identifier
      case None => Err(MissingIdentifier)
      case Some(id) =>
        if id == NwbRrid then Ok(true)
        else
          var rest := AnyNwb(standards[1..]);
          assert forall i :: 1 <= i < |standards| ==> standards[i] == standards[1..][i - 1];
          if rest == Ok(true) then
            var k :| 0 <= k < |standards[1..]| && standards[1..][k].identifier == Some(NwbRrid)
              && forall j :: 0 <= j < k ==> standards[1..][j].identifier.Some?;
            assert standards[k + 1].identifier == Some(NwbRrid);
            rest
          else rest
  }

  /** `is_nwb`: some data standard of the assets summary is NWB; a summary
      without data standards is not NWB, a dandiset without summary raises. */
  function IsNwb(m: Metadata): (r: Result<bool, DandiError>)
    ensures m.assetsSummary.None? <==> r == Err(MissingAssetsSummary)
    ensures m.assetsSummary.Some? && m.assetsSummary.value.dataStandard.None? ==> r == Ok(false)
  {
    match m.assetsSummary
    case None => Err(MissingAssetsSummary)
    case Some(summary) =>
      match summary.dataStandard
      case None => Ok(false)
      case Some(standards) => AnyNwb(standards)
  }

  /** When every data standard has an identifier, `is_nwb` is exactly "NWB is
      one of them". */
  lemma IsNwbWhenIdentified(m: Metadata)
    requires m.assetsSummary.Some? && m.assetsSummary.value.dataStandard.Some?
    requires forall x :: x in m.assetsSummary.value.dataStandard.value ==> x.identifier.Some?
    ensures IsNwb(m) == Ok(Standard(Some(NwbRrid)) in m.assetsSummary.value.dataStandard.value)
  {
    var standards := m.assetsSummary.value.dataStandard.value;
    if Standard(Some(NwbRrid)) in standards {
      var i :| 0 <= i < |standards| && standards[i] == Standard(Some(NwbRrid));
      assert forall j :: 0 <= j < i ==> standards[j] in standards;
    } else {
      assert forall i :: 0 <= i < |standards| ==> standards[i] in standards;
    }
  }

  /** `any(x.get("relation") == DescribedBy for x in resources)`. */
  function AnyDescribedBy(resources: seq<Resource>): (r: bool)
    ensures r <==> exists i :: 0 <= i < |resources| && resources[i].relation == Some(DescribedBy)
    decreases |resources|
  {
    if |resources| == 0 then false
    else if resources[0].relation == Some(DescribedBy) then true
    else
      assert forall i :: 1 <= i < |resources| ==> resources[i] == resources[1..][i - 1];
      AnyDescribedBy(resources[1..])
  }

  /** `has_related_publication`: the metadata lists a related resource that
      describes the dandiset. */
  function HasRelatedPublication(m: Metadata): (r: bool)
    ensures r <==> m.relatedResource.Some? && Resource(Some(DescribedBy)) in m.relatedResource.value
  {
    match m.relatedResource
    case None => false
    case Some(resources) =>
      var b := AnyDescribedBy(resources);
      assert b <==> Resource(Some(DescribedBy)) in resources by {
        if Resource(Some(DescribedBy)) in resources {
          var i :| 0 <= i < |resources| && resources[i] == Resource(Some(DescribedBy));
        }
      }
      b
  }

  predicate IsPerson(c: Contributor) {
    c.schemaKey == Some(PersonKey)
  }

  /** `sum(x.get('schemaKey', []) == "Person" for x in contributors)`. */
  function CountPersons(cs: seq<Contributor>): (n: nat)
    ensures n <= |cs|
    decreases |cs|
  {
    if |cs| == 0 then 0
    else CountPersons(cs[..|cs| - 1]) + (if IsPerson(cs[|cs| - 1]) then 1 else 0)
  }

  /** The positions of the contributors that are persons. */
  ghost function PersonPositions(cs: seq<Contributor>): set<nat> {
    set i: nat | i < |cs| && IsPerson(cs[i])
  }

  /** The count of persons is the number of positions holding a person. */
  lemma {:induction false} CountPersonsIsPositions(cs: seq<Contributor>)
    ensures CountPersons(cs) == |PersonPositions(cs)|
    decreases |cs|
  {
    if |cs| == 0 {
      assert PersonPositions(cs) == {};
    } else {
      var n := |cs| - 1;
      CountPersonsIsPositions(cs[..n]);
      var front := PersonPositions(cs[..n]);
      assert forall i: nat :: i < n ==> cs[..n][i] == cs[i];
      if IsPerson(cs[n]) {
        assert PersonPositions(cs) == front + {n};
      } else {
        assert PersonPositions(cs) == front;
      }
    }
  }

  /** The number of authors: the persons among the contributors, or 0 without a contributor list. */
  function Nauthors(m: Metadata): (n: nat)
    ensures m.contributor.None? ==> n == 0
    ensures m.contributor.Some? ==> n == CountPersons(m.contributor.value) && n <= |m.contributor.value|
  {
    match m.contributor
    case None => 0
    case Some(cs) => CountPersons(cs)
  }

  /** The modalities and the NWB neurodata types that mark them. */
  datatype Modality = Ecephys | Ophys | Icephys

  function NeurodataTypes(mod: Modality): seq<string> {
    match mod
    case Ecephys => ["LFP", "Units", "ElectricalSeries"]
    case Ophys => ["PlaneSegmentation", "TwoPhotonSeries", "ImageSegmentation"]
    case Icephys => ["PatchClampSeries", "VoltageClampSeries", "CurrentClampSeries", "CurrentClampStimulusSeries"]
  }

  /** `any(x in ndtypes for x in measured)`. */
  function AnyMeasured(measured: seq<string>, ndtypes: seq<string>): (r: bool)
    ensures r <==> exists i :: 0 <= i < |measured| && measured[i] in ndtypes
    decreases |measured|
  {
    if |measured| == 0 then false
    else if measured[0] in ndtypes then true
    else
      assert forall i :: 1 <= i < |measured| ==> measured[i] == measured[1..][i - 1];
      AnyMeasured(measured[1..], ndtypes)
  }

  /** The flag of a modality: some measured variable is one of its neurodata types. */
  function HasModality(measured: seq<string>, mod: Modality): (r: bool)
    ensures r <==> exists t :: t in measured && t in NeurodataTypes(mod)
  {
    var b := AnyMeasured(measured, NeurodataTypes(mod));
    assert b ==> exists t :: t in measured && t in NeurodataTypes(mod) by {
      if b {
        var i :| 0 <= i < |measured| && measured[i] in NeurodataTypes(mod);
        assert measured[i] in measured;
      }
    }
    assert (exists t :: t in measured && t in NeurodataTypes(mod)) ==> b by {
      if exists t :: t in measured && t in NeurodataTypes(mod) {
        var t :| t in measured && t in NeurodataTypes(mod);
        var i :| 0 <= i < |measured| && measured[i] == t;
      }
    }
    b
  }

  /** The row one kept dandiset contributes; `species` is `None` for NaN. */
  datatype Row = Row(
    identifier: string, created: int, modified: int, size: nat,
    species: Option<string>, nauthors: nat,
    ecephys: bool, ophys: bool, icephys: bool,
    numberOfSubjects: Option<int>, numberOfFiles: Option<int>,
    hasRelatedPub: bool)

  /** The first species' name, or NaN when there are no species. */
  function FirstSpecies(summary: AssetsSummary): (r: Result<Option<string>, DandiError>)
    ensures summary.species.None? || |summary.species.value| == 0 ==> r == Ok(None)
    ensures summary.species.Some? && |summary.species.value| > 0 ==>
      r == if summary.species.value[0].name.Some? then Ok(summary.species.value[0].name) else Err(MissingSpeciesName)
  {
    match summary.species
    case None => Ok(None)
    case Some(list) =>
      if |list| == 0 then Ok(None)
      else
        match list[0].name
        case None => Err(MissingSpeciesName)
        case Some(name) => Ok(Some(name))
  }

  /** The loop body of `compute_dandi_nwb_stats` for one dandiset: no row for
      a dandiset that is not NWB or has no size, else its row. */
  function RowOf(d: Dandiset): (r: Result<Option<Row>, DandiError>)
    ensures r.Ok? && r.value.Some? <==> (IsNwb(d.metadata) == Ok(true) && d.size.Some? && d.size.value > 0
      && FirstSpecies(d.metadata.assetsSummary.value).Ok? && d.metadata.assetsSummary.value.variableMeasured.Some?)
    ensures r.Ok? && r.value.Some? ==> var row := r.value.value; var m := d.metadata; var s := m.assetsSummary.value;
      && row.identifier == d.identifier && row.created == d.created && row.modified == d.modified
      && row.size == d.size.value && row.size > 0
      && row.species == FirstSpecies(s).value
      && row.nauthors == Nauthors(m)
      && row.ecephys == HasModality(s.variableMeasured.value, Ecephys)
      && row.ophys == HasModality(s.variableMeasured.value, Ophys)
      && row.icephys == HasModality(s.variableMeasured.value, Icephys)
      && row.numberOfSubjects == s.numberOfSubjects && row.numberOfFiles == s.numberOfFiles
      && row.hasRelatedPub == HasRelatedPublication(m)
    ensures IsNwb(d.metadata) == Ok(false) || (IsNwb(d.metadata).Ok? && (d.size.None? || d.size.value == 0)) ==> r == Ok(None)
  {
    match IsNwb(d.metadata)
    case Err(e) => Err(e)
    case Ok(nwb) =>
      if !nwb || d.size.None? || d.size.value == 0 then Ok(None)
      else
        var m := d.metadata;
        var s := m.assetsSummary.value;
        match FirstSpecies(s)
        case Err(e) => Err(e)
        case Ok(species) =>
          match s.variableMeasured
          case None => Err(MissingVariableMeasured)
          case Some(measured) =>
            Ok(Some(Row(d.identifier, d.created, d.modified, d.size.value, species, Nauthors(m),
              HasModality(measured, Ecephys), HasModality(measured, Ophys), HasModality(measured, Icephys),
              s.numberOfSubjects, s.numberOfFiles, HasRelatedPublication(m))))
  }

  /** The row loop over any sequence: each element yields an error, nothing
      or one row, in order, and the first error stops the loop. */
  function Collect<T, R, E>(xs: seq<T>, f: T -> Result<Option<R>, E>): (r: Result<seq<R>, E>)
    ensures r.Ok? <==> forall i :: 0 <= i < |xs| ==> f(xs[i]).Ok?
    ensures r.Ok? ==> |r.value| <= |xs|
    ensures r.Err? ==> exists j :: 0 <= j < |xs| && f(xs[j]) == Err(r.error) && forall i :: 0 <= i < j ==> f(xs[i]).Ok?
    decreases |xs|
  {
    if |xs| == 0 then Ok([])
    else
      var n := |xs| - 1;
      assert forall i :: 0 <= i < n ==> xs[..n][i] == xs[i];
      match Collect(xs[..n], f)
      case Err(e) => Err(e)
      case Ok(front) =>
        match f(xs[n])
        case Err(e) => Err(e)
        case Ok(None) => Ok(front)
        case Ok(Some(y)) => Ok(front + [y])
  }

  /** The loop keeps exactly the rows its elements yield. */
  lemma {:induction false} CollectMembers<T, R, E>(xs: seq<T>, f: T -> Result<Option<R>, E>, y: R)
    requires Collect(xs, f).Ok?
    ensures y in Collect(xs, f).value <==> exists i :: 0 <= i < |xs| && f(xs[i]) == Ok(Some(y))
    decreases |xs|
  {
    if |xs| > 0 {
      var n := |xs| - 1;
      var pre := xs[..n];
      assert forall i :: 0 <= i < n ==> pre[i] == xs[i];
      CollectMembers(pre, f, y);
    }
  }

  /** The rows of all dandisets in order, failing at the first that raises. */
  function Rows(ds: seq<Dandiset>): (r: Result<seq<Row>, DandiError>)
    ensures r.Ok? <==> forall i :: 0 <= i < |ds| ==> RowOf(ds[i]).Ok?
    ensures r.Ok? ==> |r.value| <= |ds|
  {
    Collect(ds, RowOf)
  }

  /** The table holds exactly the rows of the dandisets that yield one. */
  lemma RowsMembers(ds: seq<Dandiset>, row: Row)
    requires Rows(ds).Ok?
    ensures row in Rows(ds).value <==> exists i :: 0 <= i < |ds| && RowOf(ds[i]) == Ok(Some(row))
  {
    CollectMembers(ds, RowOf, row);
  }

  /** `Series.replace(key, val)`: every value equal to `key` becomes `val`;
      NaN stays. */
  function ReplaceValue(vals: seq<Option<string>>, key: string, val: string): (r: seq<Option<string>>)
    ensures |r| == |vals|
    ensures forall i :: 0 <= i < |vals| ==> r[i] == if vals[i] == Some(key) then Some(val) else vals[i]
  {
    seq(|vals|, i requires 0 <= i < |vals| => if vals[i] == Some(key) then Some(val) else vals[i])
  }

  /** One `replace` per table entry, in table order. */
  function ReplaceAll(vals: seq<Option<string>>, table: Items<string, string>): (r: seq<Option<string>>)
    ensures |r| == |vals|
    decreases |table|
  {
    if |table| == 0 then vals
    else ReplaceAll(ReplaceValue(vals, table[0].0, table[0].1), table[1..])
  }

  /** The replacement of one value: its table entry's value when it is a key, else itself. */
  function Translate(v: Option<string>, table: Items<string, string>): Option<string> {
    if v.Some? && v.value in Keys(table) then Lookup(table, v.value) else v
  }

  /** No replacement value is itself replaced later. */
  predicate NoTargetIsKey(table: Items<string, string>) {
    forall i, j :: 0 <= i < |table| && 0 <= j < |table| ==> table[i].1 != table[j].0
  }

  /** A well-formed replacement table: distinct keys, none of which is a target. */
  ghost predicate WellFormedTable(table: Items<string, string>) {
    DistinctKeys(table) && NoTargetIsKey(table)
  }

  /** Dropping the first entry keeps a table well formed. */
  lemma WellFormedTail(table: Items<string, string>)
    requires WellFormedTable(table) && |table| > 0
    ensures WellFormedTable(table[1..])
  {
    assert forall i :: 0 <= i < |table| - 1 ==> table[1..][i] == table[i + 1];
  }

  /** Sequential replacement with distinct keys, none of which is a target,
      is one table lookup per value. */
  lemma {:induction false} ReplaceAllTranslates(vals: seq<Option<string>>, table: Items<string, string>)
    requires WellFormedTable(table)
    ensures forall i :: 0 <= i < |vals| ==> ReplaceAll(vals, table)[i] == Translate(vals[i], table)
    decreases |table|
  {
    if |table| > 0 {
      var step := ReplaceValue(vals, table[0].0, table[0].1);
      WellFormedTail(table);
      ReplaceAllTranslates(step, table[1..]);
      forall i | 0 <= i < |vals| ensures Translate(step[i], table[1..]) == Translate(vals[i], table) {
        TranslateFirst(vals[i], table);
      }
    }
  }

  /** Looking a value up in a table is looking at its first entry, then at the rest. */
  lemma TranslateFirst(v: Option<string>, table: Items<string, string>)
    requires WellFormedTable(table) && |table| > 0
    ensures Translate(if v == Some(table[0].0) then Some(table[0].1) else v, table[1..]) == Translate(v, table)
  {
    if v == Some(table[0].0) {
      TranslateHead(table);
    } else if v.Some? {
      WellFormedTail(table);
      TranslateTail(v.value, table);
    }
  }

  /** The first key goes to its target, which the rest of the table leaves alone. */
  lemma TranslateHead(table: Items<string, string>)
    requires WellFormedTable(table) && |table| > 0
    ensures Translate(Some(table[0].1), table[1..]) == Translate(Some(table[0].0), table)
  {
    var rest := table[1..];
    assert table[0].1 !in Keys(rest) by {
      forall j | 0 <= j < |rest| ensures Keys(rest)[j] != table[0].1 {
        assert rest[j] == table[j + 1];
      }
    }
    assert Keys(table)[0] == table[0].0;
    LookupDistinct(table, table[0].0);
  }

  /** Any other key is found in the rest of the table, with the same target. */
  lemma TranslateTail(k: string, table: Items<string, string>)
    requires |table| > 0 && DistinctKeys(table) && DistinctKeys(table[1..]) && k != table[0].0
    ensures Translate(Some(k), table[1..]) == Translate(Some(k), table)
  {
    var rest := table[1..];
    if k in Keys(rest) {
      var j :| 0 <= j < |rest| && Keys(rest)[j] == k;
      assert rest[j] == table[j + 1];
      assert Keys(table)[j + 1] == k;
      LookupDistinct(table, k);
      LookupDistinct(rest, k);
    } else {
      assert k !in Keys(table) by {
        forall j | 0 <= j < |table| ensures Keys(table)[j] != k {
          if j > 0 {
            assert rest[j - 1] == table[j];
          }
        }
      }
    }
  }

  /** Translating twice is translating once, since no target is a key. */
  lemma TranslateIdempotent(v: Option<string>, table: Items<string, string>)
    requires NoTargetIsKey(table)
    ensures Translate(Translate(v, table), table) == Translate(v, table)
  {
    if v.Some? && v.value in Keys(table) {
      var t := Lookup(table, v.value);
      var i :| 0 <= i < |table| && table[i] == (v.value, t.value);
      assert t.value !in Keys(table) by {
        forall j | 0 <= j < |table| ensures Keys(table)[j] != t.value {
          assert table[i].1 != table[j].0;
        }
      }
    }
  }
  /** The display names that replace the archive's species names, in the
      order the clean-up applies them (three runs of one table). */
  const SpeciesReplacement: Items<string, string> := SpeciesRunOne + SpeciesRunTwo + SpeciesRunThree

  const SpeciesRunOne: Items<string, string> := [
    ("Mus musculus - House mouse", "House mouse"),
    ("Rattus norvegicus - Norway rat", "Rat"),
    ("Brown rat", "Rat"),
    ("Rat; norway rat; rats; brown rat", "Rat"),
    ("Homo sapiens - Human", "Human"),
    ("Drosophila melanogaster - Fruit fly", "Fruit fly")
  ]

  const SpeciesRunTwo: Items<string, string> := [
    ("Danio rerio - Leopard danio", "Zebrafish"),
    ("Macaca mulatta - Rhesus monkey", "Rhesus monkey"),
    ("Danio rerio - Zebra fish", "Zebrafish"),
    ("Macaca nemestrina - Pig-tailed macaque", "Pig-tailed macaque"),
    ("Cricetulus griseus - Cricetulus aureus", "Chinese hamster"),
    ("Caenorhabditis elegans", "C. elegans")
  ]

  const SpeciesRunThree: Items<string, string> := [
    ("Canis lupus familiaris - Dog", "Dog"),
    ("Oryctolagus cuniculus - Rabbits", "Rabbit"),
    ("Bos taurus - Cattle", "Cattle"),
    ("Macaca nemestrina - Pigtail macaque", "Pigtail macaque"),
    ("Ooceraea biroi - Clonal raider ant", "Clonal raider ant")
  ]

  /** Two tables that share no key and whose targets are none of the other's keys. */
  ghost predicate Apart(a: Items<string, string>, b: Items<string, string>) {
    forall i, j :: 0 <= i < |a| && 0 <= j < |b| ==>
      a[i].0 != b[j].0 && a[i].1 != b[j].0 && b[j].1 != a[i].0
  }

  /** Joining two well-formed tables that are apart gives a well-formed table. */
  lemma WellFormedConcat(a: Items<string, string>, b: Items<string, string>)
    requires WellFormedTable(a) && WellFormedTable(b) && Apart(a, b)
    ensures WellFormedTable(a + b)
  {
    var t := a + b;
    forall i | 0 <= i < |t| ensures t[i] == if i < |a| then a[i] else b[i - |a|] { }
  }

  /** A table is apart from another when both of its halves are. */
  lemma ApartConcat(a: Items<string, string>, b: Items<string, string>, c: Items<string, string>)
    requires Apart(a, c) && Apart(b, c)
    ensures Apart(a + b, c)
  {
    var t := a + b;
    forall i | 0 <= i < |t| ensures t[i] == if i < |a| then a[i] else b[i - |a|] { }
  }

  lemma RunOneWellFormed()
    ensures WellFormedTable(SpeciesRunOne)
  {
  }

  lemma RunTwoWellFormed()
    ensures WellFormedTable(SpeciesRunTwo)
  {
  }

  lemma RunThreeWellFormed()
    ensures WellFormedTable(SpeciesRunThree)
  {
  }

  lemma RunOneApartFromTwo()
    ensures Apart(SpeciesRunOne, SpeciesRunTwo)
  {
  }

  lemma RunOneApartFromThree()
    ensures Apart(SpeciesRunOne, SpeciesRunThree)
  {
  }

  lemma RunTwoApartFromThree()
    ensures Apart(SpeciesRunTwo, SpeciesRunThree)
  {
  }

  /** The species table names each archive name once and never maps onto another archive name. */
  lemma SpeciesTableWellFormed()
    ensures WellFormedTable(SpeciesReplacement)
  {
    RunOneWellFormed();
    RunTwoWellFormed();
    RunThreeWellFormed();
    RunOneApartFromTwo();
    RunOneApartFromThree();
    RunTwoApartFromThree();
    WellFormedConcat(SpeciesRunOne, SpeciesRunTwo);
    ApartConcat(SpeciesRunOne, SpeciesRunTwo, SpeciesRunThree);
    WellFormedConcat(SpeciesRunOne + SpeciesRunTwo, SpeciesRunThree);
  }

  /** The species column after its clean-up: one `replace` per table entry. */
  function CleanSpecies(species: seq<Option<string>>): (r: seq<Option<string>>)
    ensures |r| == |species|
    ensures forall i :: 0 <= i < |species| ==> r[i] == Translate(species[i], SpeciesReplacement)
  {
    SpeciesTableWellFormed();
    ReplaceAllTranslates(species, SpeciesReplacement);
    ReplaceAll(species, SpeciesReplacement)
  }

  /** The table `compute_dandi_nwb_stats` builds from the dandisets it is
      given: their rows, with the species column cleaned up. With no row the
      table has no columns at all, and its clean-up raises on "species". */
  function DandiStats(ds: seq<Dandiset>): (r: Result<seq<Row>, DandiError>)
    ensures Rows(ds).Err? ==> r == Rows(ds)
    ensures Rows(ds) == Ok([]) ==> r == Err(MissingSpeciesColumn)
    ensures r.Ok? <==> Rows(ds).Ok? && |Rows(ds).value| > 0
    ensures r.Ok? ==> var rows := Rows(ds).value;
      && |r.value| == |rows|
      && forall i :: 0 <= i < |rows| ==>
           r.value[i] == rows[i].(species := Translate(rows[i].species, SpeciesReplacement))
  {
    match Rows(ds)
    case Err(e) => Err(e)
    case Ok(rows) =>
      if |rows| == 0 then Err(MissingSpeciesColumn)
      else
        var species := CleanSpecies(seq(|rows|, i requires 0 <= i < |rows| => rows[i].species));
        Ok(seq(|rows|, i requires 0 <= i < |rows| => rows[i].(species := species[i])))
  }

  /** When none of the dandisets is an NWB dandiset, no row is kept and the
      clean-up of the species column raises. */
  lemma NoNwbNoTable(ds: seq<Dandiset>)
    requires forall i :: 0 <= i < |ds| ==> IsNwb(ds[i].metadata) == Ok(false)
    ensures DandiStats(ds) == Err(MissingSpeciesColumn)
  {
    assert forall i :: 0 <= i < |ds| ==> RowOf(ds[i]) == Ok(None);
    var rows := Rows(ds).value;
    if |rows| > 0 {
      RowsMembers(ds, rows[0]);
      assert false;
    }
  }

  /** Cleaning the species column a second time changes nothing. */
  lemma CleanSpeciesIdempotent(species: seq<Option<string>>)
    ensures CleanSpecies(CleanSpecies(species)) == CleanSpecies(species)
  {
    var once := CleanSpecies(species);
    SpeciesTableWellFormed();
    forall i | 0 <= i < |species| ensures CleanSpecies(once)[i] == once[i] {
      TranslateIdempotent(species[i], SpeciesReplacement);
    }
  }

  /** The separator between a scientific and a common species name. */
  const NameSep: string := " - "

  /** The shorthand label of a species name: `name.split(" - ")[1]` when the
      name holds the separator, else the name itself. */
  function Shorthand(name: string): (r: string)
    ensures !Contains(r, NameSep)
    ensures !Contains(name, NameSep) ==> r == name
  {
    if Contains(name, NameSep) then Split(name, NameSep)[1] else name
  }

  /** The shorthand is the text after the first separator, up to the next one or the end. */
  lemma ShorthandAfterSeparator(name: string)
    requires Contains(name, NameSep)
    ensures var i, r := Find(name, NameSep).value, Shorthand(name);
      && i + |NameSep| + |r| <= |name| && name[i + |NameSep|..i + |NameSep| + |r|] == r
      && (i + |NameSep| + |r| == |name| || OccursAt(name, NameSep, i + |NameSep| + |r|))
  {
    var k := Find(name, NameSep).value + |NameSep|;
    var rest := name[k..];
    var e := FirstPieceEnd(rest, NameSep);
    ShorthandIsFirstPiece(name);
    assert name[k..k + e] == rest[..e];
    if e < |rest| {
      OccursInSuffix(name, NameSep, k, e);
    }
  }

  /** The shorthand is the first piece of what follows the first separator. */
  lemma ShorthandIsFirstPiece(name: string)
    requires Contains(name, NameSep)
    ensures var k := Find(name, NameSep).value + |NameSep|;
      var e := FirstPieceEnd(name[k..], NameSep);
      && Shorthand(name) == name[k..][..e]
      && (e == |name[k..]| || OccursAt(name[k..], NameSep, e))
  {
    var i := Find(name, NameSep).value;
    var rest := name[i + |NameSep|..];
    assert Split(name, NameSep) == [name[..i]] + Split(rest, NameSep);
  }

  /** The replacement table of the species histogram: each listed name holding
      the separator goes to its shorthand. */
  function ShorthandTable(names: seq<string>): (r: Items<string, string>)
    ensures forall i :: 0 <= i < |r| ==> Contains(r[i].0, NameSep) && r[i].1 == Shorthand(r[i].0)
    decreases |names|
  {
    if |names| == 0 then []
    else
      var rest := ShorthandTable(names[1..]);
      if Contains(names[0], NameSep) then [(names[0], Shorthand(names[0]))] + rest else rest
  }

  /** No name is listed twice: the index of a `value_counts`. */
  ghost predicate DistinctNames(names: seq<string>) {
    forall i, j :: 0 <= i < j < |names| ==> names[i] != names[j]
  }

  /** A name is a key of the table exactly when it is listed and holds the separator. */
  lemma {:induction false} ShorthandTableKeys(names: seq<string>, n: string)
    ensures n in Keys(ShorthandTable(names)) <==> n in names && Contains(n, NameSep)
    decreases |names|
  {
    if |names| > 0 {
      var rest := ShorthandTable(names[1..]);
      ShorthandTableKeys(names[1..], n);
      assert n in names <==> n == names[0] || n in names[1..] by {
        assert names == [names[0]] + names[1..];
      }
      if Contains(names[0], NameSep) {
        KeysCons((names[0], Shorthand(names[0])), rest);
      }
    }
  }

  /** Distinct names give a table with distinct keys. */
  lemma {:induction false} ShorthandTableDistinct(names: seq<string>)
    requires DistinctNames(names)
    ensures DistinctKeys(ShorthandTable(names))
    decreases |names|
  {
    if |names| > 0 {
      var rest := ShorthandTable(names[1..]);
      assert DistinctNames(names[1..]) by {
        forall i, j | 0 <= i < j < |names| - 1 ensures names[1..][i] != names[1..][j] {
          assert names[1..][i] == names[i + 1] && names[1..][j] == names[j + 1];
        }
      }
      ShorthandTableDistinct(names[1..]);
      if Contains(names[0], NameSep) {
        assert names[0] !in names[1..] by {
          forall k | 0 <= k < |names| - 1 ensures names[1..][k] != names[0] {
            assert names[1..][k] == names[k + 1];
          }
        }
        ShorthandTableKeys(names[1..], names[0]);
        PrependFresh((names[0], Shorthand(names[0])), rest);
      }
    }
  }

  /** The histogram labels: replacing, in turn, every distinct species name
      that holds the separator shortens exactly those names, whatever their
      order. */
  lemma ShorthandLabels(vals: seq<Option<string>>, names: seq<string>)
    requires DistinctNames(names)
    ensures forall i :: 0 <= i < |vals| ==> (ReplaceAll(vals, ShorthandTable(names))[i] ==
      if vals[i].Some? && vals[i].value in names then Some(Shorthand(vals[i].value)) else vals[i])
  {
    var table := ShorthandTable(names);
    ShorthandTableDistinct(names);
    assert NoTargetIsKey(table) by {
      forall i, j | 0 <= i < |table| && 0 <= j < |table| ensures table[i].1 != table[j].0 {
        assert Contains(table[j].0, NameSep);
      }
    }
    ReplaceAllTranslates(vals, table);
    forall i | 0 <= i < |vals| ensures Translate(vals[i], table) ==
      if vals[i].Some? && vals[i].value in names then Some(Shorthand(vals[i].value)) else vals[i]
    {
      if vals[i].Some? {
        ShorthandTableKeys(names, vals[i].value);
      }
      TranslateShorthand(vals[i], table);
    }
  }

  /** One label of the histogram, looked up in a shorthand table. */
  lemma TranslateShorthand(v: Option<string>, table: Items<string, string>)
    requires DistinctKeys(table)
    requires forall i :: 0 <= i < |table| ==> Contains(table[i].0, NameSep) && table[i].1 == Shorthand(table[i].0)
    ensures v.Some? && v.value in Keys(table) ==> Translate(v, table) == Some(Shorthand(v.value))
    ensures v.Some? && v.value !in Keys(table) ==> Translate(v, table) == v
  {
    if v.Some? && v.value in Keys(table) {
      var k :| 0 <= k < |table| && table[k].0 == v.value;
      LookupDistinct(table, v.value);
    }
  }
}

=== FILE: labels.dfy ===
/**
 * Issue labels and repository records of the GitHub statistics: a label's
 * type and level parsed from "<type>:<level>", its colour as RGB, the label
 * and repository dictionaries with their `merge` and `get_by_type`, and the
 * clone URL of a repository.
 */
module Labels {
  import opened Results
  import opened Strings
  import opened OrderedDict

  /** `IssueLabel`: the label text, its description and its hex colour code. */
  datatype IssueLabel = IssueLabel(name: string, description: string, color: string)

  const Colon: string := ":"

  /** `IssueLabel.type`: the text before the first ':', or `None` without one. */
  function Type(l: IssueLabel): (r: Option<string>)
    ensures r.None? <==> ':' !in l.name
    ensures r.Some? ==> (|r.value| < |l.name| && r.value == l.name[..|r.value|]
                         && l.name[|r.value|] == ':' && ':' !in r.value)
  {
    if ':' in l.name then
      var parts := Split(l.name, Colon);
      ColonFound(l.name);
      PieceFree(parts[0], ':');
      Some(parts[0])
    else None
  }

  /** `IssueLabel.level`: the text between the first ':' and the next one (or
      the end), when that text is not empty; `None` otherwise. */
  function Level(l: IssueLabel): (r: Option<string>)
    ensures ':' !in l.name ==> r.None?
    ensures r.Some? ==> (Type(l).Some? && |r.value| > 0 && ':' !in r.value
                         && PieceAt(l.name, |Type(l).value| + 1, r.value))
    ensures r.None? && Type(l).Some? ==> PieceAt(l.name, |Type(l).value| + 1, "")
  {
    if ':' in l.name then
      var parts := Split(l.name, Colon);
      ColonFound(l.name);
      SecondPiece(l.name);
      if |parts| > 1 && |parts[1]| > 0 then
        PieceFree(parts[1], ':');
        Some(parts[1])
      else None
    else None
  }

  /** `v` sits in `s` at `i` and runs up to the end of `s` or up to a ':'. */
  predicate PieceAt(s: string, i: nat, v: string) {
    i + |v| <= |s| && s[i..i + |v|] == v && (i + |v| == |s| || s[i + |v|] == ':')
  }

  /** A string with ':' has its first piece ending at its first ':'. */
  lemma ColonFound(s: string)
    requires ':' in s
    ensures Contains(s, Colon)
    ensures FirstPieceEnd(s, Colon) < |s| && s[FirstPieceEnd(s, Colon)] == ':'
  {
    var i :| 0 <= i < |s| && s[i] == ':';
    assert OccursAt(s, Colon, i);
  }

  /** A piece without the one-character separator does not contain the character. */
  lemma PieceFree(p: string, c: char)
    requires !Contains(p, [c])
    ensures c !in p
  {
    if c in p {
      var i :| 0 <= i < |p| && p[i] == c;
      assert OccursAt(p, [c], i);
    }
  }

  /** The second piece of a split on ':' starts after the first ':' and runs
      up to the end of the string or the next ':'. */
  lemma SecondPiece(s: string)
    requires |Split(s, Colon)| > 1
    ensures PieceAt(s, |Split(s, Colon)[0]| + 1, Split(s, Colon)[1])
  {
    var i := Find(s, Colon).value;
    var rest := s[i + 1..];
    assert Split(s, Colon) == [s[..i]] + Split(rest, Colon);
    var f := FirstPieceEnd(rest, Colon);
    assert Split(s, Colon)[1] == rest[..f];
    if f < |rest| {
      var j := Find(rest, Colon).value;
      assert OccursAt(rest, Colon, j);
      assert rest[j] == ':';
    }
    assert s[i + 1..i + 1 + f] == rest[..f];
  }

  /** A label "<type>:<level>" with a non-empty level and no ':' in either part
      gives back its type and level. */
  lemma TypeLevelRoundTrip(t: string, lv: string, description: string, color: string)
    requires ':' !in t && ':' !in lv && |lv| > 0
    ensures Type(IssueLabel(t + Colon + lv, description, color)) == Some(t)
    ensures Level(IssueLabel(t + Colon + lv, description, color)) == Some(lv)
  {
    var s := t + Colon + lv;
    assert Join([t, lv], Colon) == s by {
      assert Join([lv], Colon) == lv;
    }
    SplitJoin([t, lv], ':');
    assert ':' in s by { assert s[|t|] == ':'; }
  }

  /** A label without a ':' has neither type nor level. */
  lemma NoColonNoTypeNoLevel(l: IssueLabel)
    requires ':' !in l.name
    ensures Type(l).None? && Level(l).None?
  {
  }

  /** `int()` failed on a colour piece. */
  datatype ColorError = InvalidHexPiece(piece: string)

  /** `IssueLabel.rgb`: strip every leading '#' and parse the characters at
      offsets 0-1, 2-3 and 4-5 as base-16 integers (a short colour gives short
      or empty pieces; an unparsable piece raises ValueError). */
  function Rgb(l: IssueLabel): (r: Result<(int, int, int), ColorError>)
    ensures r.Ok? ==> -15 <= r.value.0 < 256 && -15 <= r.value.1 < 256 && -15 <= r.value.2 < 256
    ensures r.Err? ==> r.error.piece in {Slice(Hex(l), 0, 2), Slice(Hex(l), 2, 4), Slice(Hex(l), 4, 6)}
  {
    var hex := Hex(l);
    match ParsePiece(Slice(hex, 0, 2))
    case Err(e) => Err(e)
    case Ok(red) =>
      match ParsePiece(Slice(hex, 2, 4))
      case Err(e) => Err(e)
      case Ok(green) =>
        match ParsePiece(Slice(hex, 4, 6))
        case Err(e) => Err(e)
        case Ok(blue) => Ok((red, green, blue))
  }

  /** `int(piece, 16)` for one colour piece of at most two characters. */
  function ParsePiece(p: string): (r: Result<int, ColorError>)
    requires |p| <= 2
    ensures r.Ok? ==> -15 <= r.value < 256
    ensures r.Err? ==> r.error == InvalidHexPiece(p)
    ensures AllHexDigits(p) && |p| > 0 ==> r == Ok(HexDigitsValue(p))
  {
    match ParseHex(p)
    case None => Err(InvalidHexPiece(p))
    case Some(v) => Ok(v)
  }

  /** The colour code without its leading '#' characters. */
  function Hex(l: IssueLabel): (hex: string)
    ensures |hex| <= |l.color| && hex == l.color[|l.color| - |hex|..]
    ensures |hex| > 0 ==> hex[0] != '#'
  {
    LStrip(l.color, '#')
  }

  /** A colour whose code starts with six hexadecimal digits after its '#'
      characters has the three two-digit values as its RGB components. */
  lemma RgbOfSixDigits(l: IssueLabel)
    requires |Hex(l)| >= 6 && AllHexDigits(Hex(l)[..6])
    ensures var hex := Hex(l);
      && AllHexDigits(hex[0..2]) && AllHexDigits(hex[2..4]) && AllHexDigits(hex[4..6])
      && Rgb(l) == Ok((HexDigitsValue(hex[0..2]), HexDigitsValue(hex[2..4]), HexDigitsValue(hex[4..6])))
  {
    SixDigitPieces(Hex(l));
  }

  /** Six leading hexadecimal digits make the three two-character pieces all digits. */
  lemma SixDigitPieces(hex: string)
    ensures |hex| >= 6 && AllHexDigits(hex[..6]) ==>
      Slice(hex, 0, 2) == hex[0..2] && AllHexDigits(hex[0..2])
      && Slice(hex, 2, 4) == hex[2..4] && AllHexDigits(hex[2..4])
      && Slice(hex, 4, 6) == hex[4..6] && AllHexDigits(hex[4..6])
  {
    if |hex| >= 6 && AllHexDigits(hex[..6]) {
      assert hex[0..2] == hex[..6][0..2] && hex[2..4] == hex[..6][2..4] && hex[4..6] == hex[..6][4..6];
    }
  }

  /** The upper-case hexadecimal digit of a value below 16. */
  function HexDigit(n: nat): (ch: char)
    requires n < 16
    ensures HexValue(ch) == Some(n)
  {
    if n < 10 then ('0' as int + n) as char else ('A' as int + n - 10) as char
  }

  /** Two hexadecimal digits for a byte value. */
  function Hex2(n: nat): (s: string)
    requires n < 256
    ensures |s| == 2 && AllHexDigits(s) && HexDigitsValue(s) == n
  {
    var s := [HexDigit(n / 16), HexDigit(n % 16)];
    assert s[..1] == [HexDigit(n / 16)];
    s
  }

  /** A colour written as any number of '#' and six hexadecimal digits parses
      back to the three byte values it was written from. */
  lemma RgbRoundTrip(red: nat, green: nat, blue: nat, hashes: nat, name: string, description: string)
    requires red < 256 && green < 256 && blue < 256
    ensures var color := seq(hashes, _ => '#') + Hex2(red) + Hex2(green) + Hex2(blue);
      Rgb(IssueLabel(name, description, color)) == Ok((red, green, blue))
  {
    var hex := Hex2(red) + Hex2(green) + Hex2(blue);
    var color := seq(hashes, _ => '#') + hex;
    assert color == seq(hashes, _ => '#') + Hex2(red) + Hex2(green) + Hex2(blue);
    var l := IssueLabel(name, description, color);
    LStripPrefix(hashes, hex);
    assert Hex(l) == hex;
    assert hex[..6] == hex;
    assert AllHexDigits(hex) by {
      forall i | 0 <= i < 6 ensures HexValue(hex[i]).Some? {
        if i < 2 { assert hex[i] == Hex2(red)[i]; }
        else if i < 4 { assert hex[i] == Hex2(green)[i - 2]; }
        else { assert hex[i] == Hex2(blue)[i - 4]; }
      }
    }
    assert hex[0..2] == Hex2(red) && hex[2..4] == Hex2(green) && hex[4..6] == Hex2(blue);
    RgbOfSixDigits(l);
  }

  /** `int()` reads decimal digits of any script: "#٣٣٣٣٣٣" (Arabic-Indic
      threes) is the colour (51, 51, 51). */
  lemma RgbOtherScriptDigits(name: string, description: string)
    ensures Rgb(IssueLabel(name, description, "#\U{663}\U{663}\U{663}\U{663}\U{663}\U{663}")) == Ok((51, 51, 51))
  {
    var hex := "\U{663}\U{663}\U{663}\U{663}\U{663}\U{663}";
    var l := IssueLabel(name, description, "#" + hex);
    assert "#" + hex == seq(1, _ => '#') + hex;
    LStripPrefix(1, hex);
    assert hex[..6] == hex;
    ArabicThreesAreDigits(hex);
    RgbOfSixDigits(l);
    ArabicThreesValue(hex[0..2]);
    ArabicThreesValue(hex[2..4]);
    ArabicThreesValue(hex[4..6]);
    assert "#" + hex == "#\U{663}\U{663}\U{663}\U{663}\U{663}\U{663}";
  }

  /** Two Arabic-Indic threes are the hexadecimal value 0x33. */
  lemma ArabicThreesValue(s: string)
    requires s == "\U{663}\U{663}"
    ensures HexDigitsValue(s) == 51
  {
    assert s[..1] == "\U{663}";
  }

  /** A string of Arabic-Indic threes is all hexadecimal digits. */
  lemma ArabicThreesAreDigits(s: string)
    requires forall i :: 0 <= i < |s| ==> s[i] == '\U{663}'
    ensures AllHexDigits(s)
  {
    assert HexValue('\U{663}') == Some(3);
  }

  /** Stripping '#' removes exactly a run of '#' in front of a string that does not start with '#'. */
  lemma {:induction false} LStripPrefix(hashes: nat, s: string)
    requires |s| > 0 && s[0] != '#'
    ensures LStrip(seq(hashes, _ => '#') + s, '#') == s
    decreases hashes
  {
    if hashes > 0 {
      var t := seq(hashes, _ => '#') + s;
      assert t[1..] == seq(hashes - 1, _ => '#') + s;
      LStripPrefix(hashes - 1, s);
    } else {
      assert seq(hashes, _ => '#') + s == s;
    }
  }

  /** `IssueLabels`: label name to label, in insertion order. */
  type IssueLabels = Items<string, IssueLabel>

  /** The label's type is present and equals `t` (`None` matches nothing). */
  predicate HasType(l: IssueLabel, t: Option<string>) {
    Type(l).Some? && Type(l) == t
  }

  /** `IssueLabels.get_by_type`: the labels whose type is `t`, in their order. */
  function GetByType(labels: IssueLabels, t: Option<string>): (r: IssueLabels)
    requires DistinctKeys(labels)
    ensures forall p :: p in r <==> p in labels && HasType(p.1, t)
    ensures t.None? ==> r == []
    ensures |r| <= |labels|
  {
    FilterKeepsDistinct(labels, l => HasType(l, t));
    FromItems(FilterItems(labels, l => HasType(l, t)))
  }

  /** `get_by_type` keeps the relative order of the labels it keeps: it is the
      order-preserving filter of the dictionary. */
  lemma GetByTypeIsFilter(labels: IssueLabels, t: Option<string>)
    requires DistinctKeys(labels)
    ensures GetByType(labels, t) == FilterItems(labels, l => HasType(l, t))
  {
    FilterKeepsDistinct(labels, l => HasType(l, t));
  }

  /** `GitRepo`: owner and name on GitHub, main branch, optional documentation URL. */
  datatype GitRepo = GitRepo(owner: string, repo: string, mainbranch: string, docs: Option<string>)

  const GithubPrefix: string := "https://github.com/"
  const GitSuffix: string := ".git"

  /** `GitRepo.github_path`: the HTTPS clone URL. */
  function GithubPath(g: GitRepo): (path: string)
    ensures |path| == |GithubPrefix| + |g.owner| + 1 + |g.repo| + |GitSuffix|
    ensures path[..|GithubPrefix|] == GithubPrefix
    ensures path[|path| - |GitSuffix|..] == GitSuffix
    ensures path[|GithubPrefix|..|path| - |GitSuffix|] == g.owner + "/" + g.repo
  {
    GithubPrefix + g.owner + "/" + g.repo + GitSuffix
  }

  /** Owners without '/' make the clone URL determine owner and repository. */
  lemma GithubPathInjective(a: GitRepo, b: GitRepo)
    requires '/' !in a.owner && '/' !in b.owner && '/' !in a.repo && '/' !in b.repo
    requires GithubPath(a) == GithubPath(b)
    ensures a.owner == b.owner && a.repo == b.repo
  {
    var pa, pb := GithubPath(a), GithubPath(b);
    var ma := pa[|GithubPrefix|..|pa| - |GitSuffix|];
    assert ma == a.owner + "/" + a.repo;
    assert ma == b.owner + "/" + b.repo;
    assert Join([a.owner, a.repo], "/") == ma by { assert Join([a.repo], "/") == a.repo; }
    assert Join([b.owner, b.repo], "/") == ma by { assert Join([b.repo], "/") == b.repo; }
    SplitJoin([a.owner, a.repo], '/');
    SplitJoin([b.owner, b.repo], '/');
  }

  /** `GitRepos`: repository name to `GitRepo`, in insertion order. */
  type GitRepos = Items<string, GitRepo>
}

=== FILE: language_stats.dfy ===
/**
 * `GitCodeStats.compute_language_stats`: for every repository, one table of
 * per-language line counts over that repository's own daily range, from the
 * day of its oldest snapshot through today.
 *
 * `LanguageTable` is the loop as the source writes it: the ascending dates are
 * paired with the newest-first snapshot list, a language's count is
 * blank + code + code, and the dates are attached to the rows in reverse.
 * Reading a tracked entry without line counts (cloc's "header", which is
 * tracked unless it is ignored) raises.
 * `LanguageTableFixed` pairs each date with its own snapshot, counts
 * blank + code + comment and keeps the dates in order; it is proved equal to
 * the reference "count of the language in the newest snapshot on or before the
 * day that reports it, else 0" (`LangAt`).
 */
module LanguageStats {
  import opened Results
  import opened Timeline
  import opened Cloc
  import opened OrderedDict

  /** The exceptions `compute_language_stats` can raise. */
  datatype LangError =
    | NotInitialized        // AttributeError: cloc_stats is None
    | EmptyHistory          // IndexError: cloc_stats[k][-1] of a repository without snapshots
    | MissingCounts         // KeyError: val['blank'] of a tracked entry without line counts

  /** The current count of every tracked language. */
  type LangValues = map<string, nat>

  /** One repository's language table: row `k` holds the counts of every
      language and is labelled `index[k]`. */
  datatype LangTable = LangTable(index: seq<int>, languages: set<string>, rows: seq<LangValues>)

  /** `np.unique` of every language reported by some snapshot and not ignored
      (the column order of the sorted result is not modelled). */
  function Languages(v: seq<ClocEntry>, ignore: seq<string>): (r: set<string>)
  {
    set i, l | 0 <= i < |v| && l in v[i].cloc && l !in ignore :: l
  }

  /** The tracked languages are those some snapshot reports and that are not ignored. */
  lemma LanguagesReported(v: seq<ClocEntry>, ignore: seq<string>, l: string)
    ensures l in Languages(v, ignore) <==> l !in ignore && exists i :: 0 <= i < |v| && l in v[i].cloc
  {
  }

  /** Every tracked language starts at 0. */
  function Start(langs: set<string>): (r: LangValues)
    ensures r.Keys == langs
    ensures forall l :: l in r ==> r[l] == 0
  {
    map l | l in langs :: 0
  }

  /** The line count the source records for a language: code counted twice, comments never. */
  function WeightAsWritten(c: Counts): nat {
    c.blank + c.code + c.code
  }

  /** The line count the tables are meant to hold. */
  function Weight(c: Counts): nat {
    c.blank + c.code + c.comment
  }

  /** The matched snapshot's tracked languages take their new count; the others
      keep theirs. (A tracked entry without counts raises instead; see `Raises`.) */
  function UpdateAsWritten(cur: LangValues, report: ClocReport): (r: LangValues)
    ensures r.Keys == cur.Keys
  {
    map l | l in cur :: if HasLines(report, l) then WeightAsWritten(report[l].counts) else cur[l]
  }

  function UpdateFixed(cur: LangValues, report: ClocReport): (r: LangValues)
    ensures r.Keys == cur.Keys
  {
    map l | l in cur :: if HasLines(report, l) then Weight(report[l].counts) else cur[l]
  }

  /** The report has a tracked entry without line counts. */
  predicate HitsNoCounts(report: ClocReport, langs: set<string>) {
    exists l :: l in langs && l in report && report[l].NoCounts?
  }

  /** On the `k`-th date the loop reads the report under its cursor when the
      date matches, and `val['blank']` raises on a tracked entry without counts. */
  predicate RaisesAt(s: seq<Snapshot<ClocReport>>, range: seq<int>, langs: set<string>, k: nat)
    requires |s| > 0 && k < |range|
  {
    var c := CursorAt(s, range, 0, k);
    range[k] == s[c].day && HitsNoCounts(s[c].payload, langs)
  }

  /** The loop raises on some date. */
  predicate Raises(s: seq<Snapshot<ClocReport>>, range: seq<int>, langs: set<string>)
    requires |s| > 0
  {
    exists k: nat :: k < |range| && RaisesAt(s, range, langs, k)
  }

  /** The cursor's timeline as written: the dates of the snapshots in ascending
      order (`curr_dates`), each paired with the report at the same position of
      the newest-first list (`v[curr_index]`). */
  function MisPaired(v: seq<ClocEntry>): (s: seq<Snapshot<ClocReport>>)
    ensures |s| == |v|
    ensures forall i :: 0 <= i < |v| ==> s[i] == Snapshot(v[|v| - 1 - i].day, v[i].cloc)
  {
    seq(|v|, i requires 0 <= i < |v| => Snapshot(v[|v| - 1 - i].day, v[i].cloc))
  }

  /** The snapshots oldest first, each with its own report. */
  function Paired(v: seq<ClocEntry>): (s: seq<Snapshot<ClocReport>>)
    ensures |s| == |v|
    ensures forall i :: 0 <= i < |v| ==> s[i] == Snapshot(v[|v| - 1 - i].day, v[|v| - 1 - i].cloc)
  {
    seq(|v|, i requires 0 <= i < |v| => Snapshot(v[|v| - 1 - i].day, v[|v| - 1 - i].cloc))
  }

  /** The timeline the loop walks, as written or corrected. */
  function Walk(v: seq<ClocEntry>, fixed: bool): (s: seq<Snapshot<ClocReport>>)
    ensures |s| == |v|
  {
    if fixed then Paired(v) else MisPaired(v)
  }

  /** `date_range[::-1]`. */
  function Reverse(range: seq<int>): (r: seq<int>)
    ensures |r| == |range|
    ensures forall k :: 0 <= k < |range| ==> r[k] == range[|range| - 1 - k]
  {
    seq(|range|, k requires 0 <= k < |range| => range[|range| - 1 - k])
  }

  /** The table of one repository, as written or corrected: the languages and
      the range come first, then the loop, then the index assignment. */
  function TableOf(v: seq<ClocEntry>, ignore: seq<string>, today: int, fixed: bool): (r: Result<LangTable, LangError>)
    ensures r == Err(EmptyHistory) <==> |v| == 0
    ensures r == Err(MissingCounts) <==> |v| > 0 && Raises(Walk(v, fixed), DailyRange(v[|v| - 1].day, today), Languages(v, ignore))
    ensures r.Ok? <==> Tabulable(v, ignore, today, fixed)
    ensures r.Ok? ==> r.value.languages == Languages(v, ignore)
    ensures r.Ok? ==> var range := DailyRange(v[|v| - 1].day, today);
      && |r.value.rows| == |range|
      && r.value.index == if fixed then range else Reverse(range)
  {
    if |v| == 0 then Err(EmptyHistory)
    else
      var langs := Languages(v, ignore);
      var range := DailyRange(v[|v| - 1].day, today);
      var rows := if fixed then Sweep(Paired(v), UpdateFixed, range, 0, Start(langs))
                  else Sweep(MisPaired(v), UpdateAsWritten, range, 0, Start(langs));
      if Raises(Walk(v, fixed), range, langs) then Err(MissingCounts)
      else Ok(LangTable(if fixed then range else Reverse(range), langs, rows))
  }

  /** A repository whose snapshots report no tracked language gets a table
      without columns: one empty row per day of its range. */
  lemma NoLanguageNoColumns(v: seq<ClocEntry>, ignore: seq<string>, today: int)
    requires |v| > 0 && Languages(v, ignore) == {}
    ensures var t := LanguageTable(v, ignore, today);
      && t.Ok? && t.value.languages == {}
      && |t.value.rows| == |DailyRange(v[|v| - 1].day, today)|
      && forall k :: 0 <= k < |t.value.rows| ==> t.value.rows[k] == map[]
  {
    var range := DailyRange(v[|v| - 1].day, today);
    assert !Raises(MisPaired(v), range, {});
    assert Tabulable(v, ignore, today, false);
  }

  /** Whether a repository's table can be built: it has snapshots and the
      loop never reads a tracked entry without counts. (A table without
      columns takes an index of any length.) */
  predicate Tabulable(v: seq<ClocEntry>, ignore: seq<string>, today: int, fixed: bool) {
    && |v| > 0
    && !Raises(Walk(v, fixed), DailyRange(v[|v| - 1].day, today), Languages(v, ignore))
  }

  /** Keeping the key set at every update keeps it in every emitted row. */
  lemma {:induction false} SweepKeepsKeys(s: seq<Snapshot<ClocReport>>, apply: (LangValues, ClocReport) -> LangValues,
                                          range: seq<int>, c: nat, cur: LangValues)
    requires c < |s|
    requires forall x, p :: apply(x, p).Keys == x.Keys
    ensures forall k :: 0 <= k < |range| ==> Sweep(s, apply, range, c, cur)[k].Keys == cur.Keys
    decreases |range|
  {
    if |range| > 0 {
      var d := range[0];
      var cur' := if d == s[c].day then apply(cur, s[c].payload) else cur;
      SweepKeepsKeys(s, apply, range[1..], Advance(s, c, d), cur');
      var tail := Sweep(s, apply, range[1..], Advance(s, c, d), cur');
      assert Sweep(s, apply, range, c, cur) == [cur'] + tail;
    }
  }

  /** Every row of a table holds exactly the tracked languages. */
  lemma TableKeepsKeys(v: seq<ClocEntry>, ignore: seq<string>, today: int, fixed: bool)
    ensures TableOf(v, ignore, today, fixed).Ok? ==> var t := TableOf(v, ignore, today, fixed).value;
      forall k :: 0 <= k < |t.rows| ==> t.rows[k].Keys == t.languages
  {
    if |v| > 0 {
      var range := DailyRange(v[|v| - 1].day, today);
      var start := Start(Languages(v, ignore));
      if fixed {
        SweepKeepsKeys(Paired(v), UpdateFixed, range, 0, start);
      } else {
        SweepKeepsKeys(MisPaired(v), UpdateAsWritten, range, 0, start);
      }
    }
  }

  /** One repository's language table as the source builds it: it fails when
      the repository has no snapshot, or when no language is tracked but the
      range is not empty; otherwise there is one row per day from the oldest
      snapshot's day through today, every row holds exactly the tracked
      languages, and the row labels run from today backwards. */
  function LanguageTable(v: seq<ClocEntry>, ignore: seq<string>, today: int): (r: Result<LangTable, LangError>)
    ensures r == Err(EmptyHistory) <==> |v| == 0
    ensures r == Err(MissingCounts) <==> |v| > 0 && Raises(MisPaired(v), DailyRange(v[|v| - 1].day, today), Languages(v, ignore))
    ensures r.Ok? <==> Tabulable(v, ignore, today, false)
    ensures r.Ok? ==> r.value.languages == Languages(v, ignore)
    ensures r.Ok? ==> |r.value.rows| == |r.value.index| == (if today < v[|v| - 1].day then 0 else today - v[|v| - 1].day + 1)
    ensures r.Ok? ==> forall k :: 0 <= k < |r.value.index| ==> r.value.index[k] == today - k
    ensures r.Ok? ==> forall k :: 0 <= k < |r.value.rows| ==> r.value.rows[k].Keys == r.value.languages
  {
    TableKeepsKeys(v, ignore, today, false);
    ReversedRange(v, today);
    TableOf(v, ignore, today, false)
  }

  /** The labels as written run from today backwards. */
  lemma ReversedRange(v: seq<ClocEntry>, today: int)
    ensures |v| > 0 ==> var r := Reverse(DailyRange(v[|v| - 1].day, today));
      forall k :: 0 <= k < |r| ==> r[k] == today - k
  {
    if |v| > 0 {
      var range := DailyRange(v[|v| - 1].day, today);
      forall k | 0 <= k < |range| ensures Reverse(range)[k] == today - k {
        assert range[|range| - 1 - k] == v[|v| - 1].day + (|range| - 1 - k);
      }
    }
  }

  /** The corrected table: same failures and shape, rows labelled in date order. */
  function LanguageTableFixed(v: seq<ClocEntry>, ignore: seq<string>, today: int): (r: Result<LangTable, LangError>)
    ensures r == Err(EmptyHistory) <==> |v| == 0
    ensures r == Err(MissingCounts) <==> |v| > 0 && Raises(Paired(v), DailyRange(v[|v| - 1].day, today), Languages(v, ignore))
    ensures r.Ok? <==> Tabulable(v, ignore, today, true)
    ensures r.Ok? ==> r.value.languages == Languages(v, ignore)
    ensures r.Ok? ==> |r.value.rows| == |r.value.index| == (if today < v[|v| - 1].day then 0 else today - v[|v| - 1].day + 1)
    ensures r.Ok? ==> forall k :: 0 <= k < |r.value.index| ==> r.value.index[k] == v[|v| - 1].day + k
    ensures r.Ok? ==> forall k :: 0 <= k < |r.value.rows| ==> r.value.rows[k].Keys == r.value.languages
  {
    TableKeepsKeys(v, ignore, today, true);
    TableOf(v, ignore, today, true)
  }

  /** The first date is the oldest snapshot's day, and there the loop as
      written reads the NEWEST report: a tracked entry of it without counts
      (cloc's "header" when the ignore list does not name it) raises. */
  lemma NewestNoCountsRaises(v: seq<ClocEntry>, ignore: seq<string>, today: int, l: string)
    requires |v| > 0 && v[|v| - 1].day <= today
    requires l in v[0].cloc && v[0].cloc[l].NoCounts? && l !in ignore
    ensures LanguageTable(v, ignore, today) == Err(MissingCounts)
  {
    var range := DailyRange(v[|v| - 1].day, today);
    var langs := Languages(v, ignore);
    var s := MisPaired(v);
    assert l in langs;
    assert CursorAt(s, range, 0, 0) == 0;
    assert HitsNoCounts(s[0].payload, langs);
    assert RaisesAt(s, range, langs, 0);
  }

  /** When the ignore list names every entry without counts, the loop never
      raises, as written or corrected. */
  lemma IgnoredNoCountsNeverRaise(v: seq<ClocEntry>, ignore: seq<string>, today: int, fixed: bool)
    requires |v| > 0
    requires forall i, l :: 0 <= i < |v| && l in v[i].cloc && v[i].cloc[l].NoCounts? ==> l in ignore
    ensures !Raises(Walk(v, fixed), DailyRange(v[|v| - 1].day, today), Languages(v, ignore))
  {
    var range := DailyRange(v[|v| - 1].day, today);
    var langs := Languages(v, ignore);
    var s := Walk(v, fixed);
    forall k: nat | k < |range| ensures !RaisesAt(s, range, langs, k) {
      var c := CursorAt(s, range, 0, k);
      var i := if fixed then |v| - 1 - c else c;
      assert s[c].payload == v[i].cloc;
    }
  }

  /** The loop as written, date by date: row `k` (the day `oldest + k`, labelled
      `today - k`) is the previous row (all zeros before the first), except that
      on the day of the cursor's snapshot every tracked language reported by the
      entry at the cursor's position of the newest-first list takes its
      blank + code + code. */
  lemma LanguageRowsAsWritten(v: seq<ClocEntry>, ignore: seq<string>, today: int, k: nat)
    requires LanguageTable(v, ignore, today).Ok? && k < |LanguageTable(v, ignore, today).value.rows|
    ensures var t := LanguageTable(v, ignore, today).value;
            var c := CursorAt(MisPaired(v), DailyRange(v[|v| - 1].day, today), 0, k);
            var prev := if k == 0 then Start(t.languages) else t.rows[k - 1];
            var matched := v[|v| - 1].day + k == v[|v| - 1 - c].day;
            forall l :: l in t.languages ==>
              t.rows[k][l] == if matched && HasLines(v[c].cloc, l) then WeightAsWritten(v[c].cloc[l].counts) else prev[l]
  {
    var t := LanguageTable(v, ignore, today).value;
    var langs := Languages(v, ignore);
    var range := DailyRange(v[|v| - 1].day, today);
    var s := MisPaired(v);
    var f: (LangValues, ClocReport) -> LangValues := UpdateAsWritten;
    var out := Sweep(s, f, range, 0, Start(langs));
    assert t.rows == out;
    SweepCarriesForward(s, f, range, 0, Start(langs));
    assert CarriedAt(s, f, range, 0, Start(langs), k);
    var c := CursorAt(s, range, 0, k);
    var prev := if k == 0 then Start(langs) else out[k - 1];
    assert s[c] == Snapshot(v[|v| - 1 - c].day, v[c].cloc);
    assert range[k] == v[|v| - 1].day + k;
    assert out[k] == if range[k] == s[c].day then UpdateAsWritten(prev, v[c].cloc) else prev;
  }

  /** The snapshots are listed newest first, one per day. */
  ghost predicate NewestFirst(v: seq<ClocEntry>) {
    forall i, j :: 0 <= i < j < |v| ==> v[i].day > v[j].day
  }

  /** Reference: the count of language `l` at day `d` is its count in the newest
      snapshot dated on or before `d` that reports it, and 0 when there is none. */
  function LangAt(v: seq<ClocEntry>, l: string, d: int): nat
    decreases |v|
  {
    if |v| == 0 then 0
    else if v[0].day <= d && HasLines(v[0].cloc, l) then Weight(v[0].cloc[l].counts)
    else LangAt(v[1..], l, d)
  }

  /** Replaying the corrected update over the paired snapshots gives every
      tracked language its reference count. */
  lemma {:induction false} ReplayIsLangAt(v: seq<ClocEntry>, langs: set<string>, l: string, d: int)
    requires l in langs
    ensures l in Replay(Paired(v), UpdateFixed, Start(langs), d)
    ensures Replay(Paired(v), UpdateFixed, Start(langs), d)[l] == LangAt(v, l, d)
    decreases |v|
  {
    var f: (LangValues, ClocReport) -> LangValues := UpdateFixed;
    if |v| > 0 {
      var s := Paired(v);
      assert s[..|s| - 1] == Paired(v[1..]);
      assert s[|s| - 1] == Snapshot(v[0].day, v[0].cloc);
      ReplayIsLangAt(v[1..], langs, l, d);
      ReplayKeys(s[..|s| - 1], langs, d);
    }
  }

  /** Every replayed value tracks exactly the starting languages. */
  lemma {:induction false} ReplayKeys(s: seq<Snapshot<ClocReport>>, langs: set<string>, d: int)
    ensures Replay(s, UpdateFixed, Start(langs), d).Keys == langs
    decreases |s|
  {
    if |s| > 0 {
      ReplayKeys(s[..|s| - 1], langs, d);
    }
  }

  /** Newest-first snapshots, reversed, are ordered oldest first. */
  lemma PairedOrdered(v: seq<ClocEntry>)
    requires NewestFirst(v)
    ensures Ordered(Paired(v))
  {
  }

  /** The corrected table holds, at every day and for every tracked language,
      the language's count in the newest snapshot on or before that day that
      reports it, and 0 before any snapshot reports it. */
  lemma LanguageTableFixedMatchesLatest(v: seq<ClocEntry>, ignore: seq<string>, today: int, k: nat, l: string)
    requires NewestFirst(v)
    requires LanguageTableFixed(v, ignore, today).Ok?
    requires k < |LanguageTableFixed(v, ignore, today).value.rows|
    requires l in LanguageTableFixed(v, ignore, today).value.languages
    ensures var t := LanguageTableFixed(v, ignore, today).value;
            t.rows[k][l] == LangAt(v, l, t.index[k])
  {
    var s := Paired(v);
    var langs := Languages(v, ignore);
    var range := DailyRange(v[|v| - 1].day, today);
    var f: (LangValues, ClocReport) -> LangValues := UpdateFixed;
    PairedOrdered(v);
    DailyRangeCovers(s, v[|v| - 1].day, today);
    ReplayDropNewer(s, f, Start(langs), range[0] - 1, 0);
    assert s[..0] == [];
    SweepReplays(s, f, Start(langs), range, 0, Start(langs));
    ReplayIsLangAt(v, langs, l, range[k]);
  }

  /** `compute_language_stats` over every repository, in dictionary order; the
      first failure is raised. */
  function ComputeLanguageStats(stats: GitCodeStats, ignore: seq<string>, today: int): (r: Result<Items<string, LangTable>, LangError>)
    ensures stats.clocStats.None? ==> r == Err(NotInitialized)
    ensures r.Ok? <==> stats.clocStats.Some? && forall j :: 0 <= j < |stats.clocStats.value| ==>
      Tabulable(stats.clocStats.value[j].entries, ignore, today, false)
    ensures r.Ok? ==> |r.value| == |stats.clocStats.value| && forall j :: 0 <= j < |r.value| ==>
      r.value[j].0 == stats.clocStats.value[j].name
  {
    match stats.clocStats
    case None => Err(NotInitialized)
    case Some(repos) => TablesOf(repos, ignore, today)
  }

  /** The loop over repositories: each keyed by its name with its own result,
      in order, stopping at the first failure. */
  function Each<T, U, E>(xs: seq<T>, key: T -> string, f: T -> Result<U, E>): (r: Result<Items<string, U>, E>)
    ensures r.Ok? <==> forall j :: 0 <= j < |xs| ==> f(xs[j]).Ok?
    ensures r.Ok? ==> |r.value| == |xs| && forall j :: 0 <= j < |xs| ==> r.value[j] == (key(xs[j]), f(xs[j]).value)
    decreases |xs|
  {
    if |xs| == 0 then Ok([])
    else
      assert forall j :: 1 <= j < |xs| ==> xs[1..][j - 1] == xs[j];
      match f(xs[0])
      case Err(e) => Err(e)
      case Ok(t) =>
        match Each(xs[1..], key, f)
        case Err(e) => Err(e)
        case Ok(rest) => Ok([(key(xs[0]), t)] + rest)
  }

  function TablesOf(repos: seq<RepoClocs>, ignore: seq<string>, today: int): (r: Result<Items<string, LangTable>, LangError>)
    ensures r.Ok? <==> forall j :: 0 <= j < |repos| ==> Tabulable(repos[j].entries, ignore, today, false)
    ensures r.Ok? ==> |r.value| == |repos| && forall j :: 0 <= j < |repos| ==> r.value[j].0 == repos[j].name
  {
    Each(repos, (x: RepoClocs) => x.name, (x: RepoClocs) => LanguageTable(x.entries, ignore, today))
  }

  /** Each repository's entry holds its own table. */
  lemma TablesOfEntry(repos: seq<RepoClocs>, ignore: seq<string>, today: int, j: nat)
    requires TablesOf(repos, ignore, today).Ok? && j < |repos|
    ensures LanguageTable(repos[j].entries, ignore, today) == Ok(TablesOf(repos, ignore, today).value[j].1)
  {
    var f := (x: RepoClocs) => LanguageTable(x.entries, ignore, today);
    assert TablesOf(repos, ignore, today).value[j].1 == f(repos[j]).value;
  }

  /** Every repository's entry in the result is that repository's table. */
  lemma ComputeLanguageStatsTables(stats: GitCodeStats, ignore: seq<string>, today: int, j: nat)
    requires ComputeLanguageStats(stats, ignore, today).Ok? && j < |stats.clocStats.value|
    ensures LanguageTable(stats.clocStats.value[j].entries, ignore, today) == Ok(ComputeLanguageStats(stats, ignore, today).value[j].1)
  {
    TablesOfEntry(stats.clocStats.value, ignore, today, j);
  }

  /** The first row of a table as written, the one labelled today, holds the
      oldest day's counts taken from the NEWEST snapshot, while the reference
      at the oldest day reads the oldest snapshot. */
  lemma FirstRowAsWritten(v: seq<ClocEntry>, ignore: seq<string>, today: int, l: string)
    requires Tabulable(v, ignore, today, false) && v[|v| - 1].day <= today
    requires l in Languages(v, ignore)
    ensures var t := LanguageTable(v, ignore, today).value;
            && t.index[0] == today && l in t.rows[0]
            && t.rows[0][l] == (if HasLines(v[0].cloc, l) then WeightAsWritten(v[0].cloc[l].counts) else 0)
    ensures NewestFirst(v) ==>
      LangAt(v, l, v[|v| - 1].day) == if HasLines(v[|v| - 1].cloc, l) then Weight(v[|v| - 1].cloc[l].counts) else 0
  {
    LanguageRowsAsWritten(v, ignore, today, 0);
    if NewestFirst(v) {
      LangAtOldest(v, l);
    }
  }

  /** At the oldest snapshot's day only that snapshot is visible. */
  lemma {:induction false} LangAtOldest(v: seq<ClocEntry>, l: string)
    requires NewestFirst(v) && |v| > 0
    ensures LangAt(v, l, v[|v| - 1].day) == if HasLines(v[|v| - 1].cloc, l) then Weight(v[|v| - 1].cloc[l].counts) else 0
    decreases |v|
  {
    if |v| > 1 {
      var w := v[1..];
      assert NewestFirst(w) by {
        forall i, j | 0 <= i < j < |w| ensures w[i].day > w[j].day {
          assert w[i] == v[i + 1] && w[j] == v[j + 1];
        }
      }
      assert w[|w| - 1] == v[|v| - 1];
      LangAtOldest(w, l);
    }
  }

  /** Until the second-oldest snapshot's day, the rows as written keep the
      newest snapshot's counts (applied on the oldest day), and with the
      reversed index such a row can carry the label of a day before the newest
      snapshot, where the reference does not see that snapshot at all. */
  lemma MisLabelledRow(v: seq<ClocEntry>, ignore: seq<string>, today: int, k: nat, l: string)
    requires Tabulable(v, ignore, today, false) && |v| >= 2
    requires k < |LanguageTable(v, ignore, today).value.rows|
    requires v[|v| - 1].day + k < v[|v| - 2].day
    requires l in Languages(v, ignore) && HasLines(v[0].cloc, l)
    ensures var t := LanguageTable(v, ignore, today).value;
            && t.index[k] == today - k && l in t.rows[k]
            && t.rows[k][l] == WeightAsWritten(v[0].cloc[l].counts)
    ensures today - k < v[0].day ==> LangAt(v, l, today - k) == LangAt(v[1..], l, today - k)
  {
    var langs := Languages(v, ignore);
    var range := DailyRange(v[|v| - 1].day, today);
    var s := MisPaired(v);
    var f: (LangValues, ClocReport) -> LangValues := UpdateAsWritten;
    var out := Sweep(s, f, range, 0, Start(langs));
    assert LanguageTable(v, ignore, today).value.rows == out;
    assert s[0] == Snapshot(v[|v| - 1].day, v[0].cloc) && s[1].day == v[|v| - 2].day;
    HoldsFirstUntilSecond(s, f, range, Start(langs), k);
    assert out[k] == UpdateAsWritten(Start(langs), v[0].cloc);
  }

  /** Two snapshots reporting one language `l`: the newer on day e, the older on day d. */
  predicate TwoSnapshots(v: seq<ClocEntry>, d: int, e: int, l: string, newer: Counts, older: Counts) {
    && |v| == 2
    && v[0].day == e && v[0].cloc == map[l := Lines(newer)]
    && v[1].day == d && v[1].cloc == map[l := Lines(older)]
  }

  /** Two snapshots of language `l`, on days d and e > d + 1, with today e:
      the row labelled e - 1 records the newer snapshot's counts as written,
      while the newest snapshot on or before day e - 1 is the older one. */
  lemma MisLabelledTwoSnapshots(v: seq<ClocEntry>, d: int, e: int, l: string, newer: Counts, older: Counts)
    requires TwoSnapshots(v, d, e, l, newer, older) && d + 1 < e
    ensures var t := LanguageTable(v, [], e);
            && t.Ok? && |t.value.index| == |t.value.rows| == e - d + 1 && t.value.index[1] == e - 1
            && l in t.value.rows[1] && t.value.rows[1][l] == WeightAsWritten(newer)
            && LangAt(v, l, e - 1) == Weight(older)
  {
    TwoSnapshotsTabulable(v, d, e, l, newer, older);
    assert v[0].cloc[l].counts == newer;
    SecondRowAsWritten(v, e, l);
    TwoSnapshotsReference(v, d, e, l, newer, older);
  }

  /** When the two newest snapshots are more than a day apart, the row
      labelled today - 1 holds the newest snapshot's counts as written. */
  lemma SecondRowAsWritten(v: seq<ClocEntry>, today: int, l: string)
    requires Tabulable(v, [], today, false) && |v| >= 2
    requires v[|v| - 1].day + 1 < v[|v| - 2].day <= today
    requires l in Languages(v, []) && HasLines(v[0].cloc, l)
    ensures var t := LanguageTable(v, [], today).value;
            && |t.rows| == today - v[|v| - 1].day + 1 && t.index[1] == today - 1
            && l in t.rows[1] && t.rows[1][l] == WeightAsWritten(v[0].cloc[l].counts)
  {
    MisLabelledRow(v, [], today, 1, l);
  }

  /** With 4 code lines on day d and 8 on day d + 3 (days 10 and 13 with
      today 13, say), the row labelled d + 2 records 8 + 8 = 16 where the
      reference holds 4. */
  lemma MisLabelledExample(v: seq<ClocEntry>, d: int, l: string)
    requires TwoSnapshots(v, d, d + 3, l, Counts(0, 8, 0, 1), Counts(0, 4, 0, 1))
    ensures var t := LanguageTable(v, [], d + 3);
            && t.Ok? && |t.value.rows| == 4 && t.value.index[1] == d + 2
            && l in t.value.rows[1] && t.value.rows[1][l] == 16
            && LangAt(v, l, d + 2) == 4
  {
    MisLabelledTwoSnapshots(v, d, d + 3, l, Counts(0, 8, 0, 1), Counts(0, 4, 0, 1));
    ExampleWeights();
  }

  /** 8 code lines count 16 as written; 4 code lines weigh 4. */
  lemma ExampleWeights()
    ensures WeightAsWritten(Counts(0, 8, 0, 1)) == 16 && Weight(Counts(0, 4, 0, 1)) == 4
  {
  }

  /** Before the newer snapshot's day only the older one is visible. */
  lemma TwoSnapshotsReference(v: seq<ClocEntry>, d: int, e: int, l: string, newer: Counts, older: Counts)
    requires TwoSnapshots(v, d, e, l, newer, older) && d + 1 < e
    ensures LangAt(v, l, e - 1) == Weight(older)
  {
    assert v[1..] == [v[1]];
  }

  /** Two snapshots of one language can be tabulated, and the language is tracked. */
  lemma TwoSnapshotsTabulable(v: seq<ClocEntry>, d: int, e: int, l: string, newer: Counts, older: Counts)
    requires TwoSnapshots(v, d, e, l, newer, older) && d < e
    ensures Tabulable(v, [], e, false) && l in Languages(v, [])
  {
    TwoSnapshotsNeverRaise(v, d, e, l, newer, older);
    TwoSnapshotsLanguage(v, d, e, l, newer, older);
  }

  /** No entry of the two snapshots lacks line counts, so no day raises. */
  lemma TwoSnapshotsNeverRaise(v: seq<ClocEntry>, d: int, e: int, l: string, newer: Counts, older: Counts)
    requires TwoSnapshots(v, d, e, l, newer, older)
    ensures !Raises(Walk(v, false), DailyRange(v[|v| - 1].day, e), Languages(v, []))
  {
    forall i, k | 0 <= i < |v| && k in v[i].cloc ensures v[i].cloc[k].Lines? {
      assert v[i].cloc.Keys == {l};
    }
    IgnoredNoCountsNeverRaise(v, [], e, false);
  }

  /** The one language reported is tracked. */
  lemma TwoSnapshotsLanguage(v: seq<ClocEntry>, d: int, e: int, l: string, newer: Counts, older: Counts)
    requires TwoSnapshots(v, d, e, l, newer, older)
    ensures l in Languages(v, [])
  {
    assert l in v[0].cloc && l !in [];
    LanguagesReported(v, [], l);
  }

  /** One snapshot with 1 blank, 2 code and 3 comment lines of "C": the table
      records 5 (blank + code + code) where the reference holds 6. */
  lemma CodeTwiceExample()
    ensures var v := [ClocEntry("a", 10, map["C" := Lines(Counts(1, 2, 3, 1))])];
            var t := LanguageTable(v, [], 10);
            && t.Ok? && t.value.index == [10] && "C" in t.value.rows[0] && t.value.rows[0]["C"] == 5
            && LangAt(v, "C", 10) == 6
  {
    var v := [ClocEntry("a", 10, map["C" := Lines(Counts(1, 2, 3, 1))])];
    CodeTwiceTable(v);
    assert LangAt(v, "C", 10) == 6;
  }

  /** The as-written table of the single snapshot above. */
  lemma CodeTwiceTable(v: seq<ClocEntry>)
    requires v == [ClocEntry("a", 10, map["C" := Lines(Counts(1, 2, 3, 1))])]
    ensures var t := LanguageTable(v, [], 10);
            t.Ok? && t.value.index == [10] && "C" in t.value.rows[0] && t.value.rows[0]["C"] == 5
  {
    LanguagesReported(v, [], "C");
    var langs := Languages(v, []);
    var s := MisPaired(v);
    var f: (LangValues, ClocReport) -> LangValues := UpdateAsWritten;
    assert DailyRange(10, 10) == [10];
    assert s == [Snapshot(10, v[0].cloc)];
    var t := LanguageTable(v, [], 10).value;
    assert t.rows == Sweep(s, f, [10], 0, Start(langs));
    assert t.rows[0] == UpdateAsWritten(Start(langs), v[0].cloc);
  }
}

=== FILE: nwb_summary.dfy ===
/**
 * `GitCodeStats.from_nwb`: the summary tables of the NWB repositories over a
 * daily date range, with the HDMF and NDX_Extension_Smithy columns zeroed up
 * to the day each project started. Cache handling, cloning and running cloc
 * are not modelled: the statistics object is a parameter.
 */
module NwbSummary {
  import opened Results
  import opened Timeline
  import opened Cloc
  import opened SummaryStats

  /** Dates as day numbers since 1970-01-01. */
  const Nwb2StartDate: int := 17044            // 2016-08-31
  const HdmfStartDate: int := 17968            // 2019-03-13
  const ExtensionSmithyStartDate: int := 18011 // 2019-04-25

  const HdmfRepo: string := "HDMF"
  const SmithyRepo: string := "NDX_Extension_Smithy"

  /** Every column holds one value per index entry, as in a DataFrame. */
  ghost predicate WellFormed(t: Table) {
    forall j :: 0 <= j < |t.columns| ==> |t.columns[j].values| == |t.index|
  }

  /** The values of one column with every entry whose date is on or before
      `cutoff` set to zero. */
  function ZeroThrough(index: seq<int>, values: seq<nat>, cutoff: int): (r: seq<nat>)
    requires |values| == |index|
    ensures |r| == |values|
    ensures forall k :: 0 <= k < |r| ==> r[k] == if index[k] <= cutoff then 0 else values[k]
  {
    seq(|values|, k requires 0 <= k < |values| => if index[k] <= cutoff then 0 else values[k])
  }

  /** `table[repo][:cutoff] = 0`: the label slice is inclusive, so every entry
      dated on or before the cutoff is zeroed in every column named `repo`;
      a table without such a column raises KeyError. */
  function Truncate(t: Table, repo: string, cutoff: int): (r: Result<Table, StatsError>)
    requires WellFormed(t)
    ensures r.Err? <==> forall j :: 0 <= j < |t.columns| ==> t.columns[j].repo != repo
    ensures r.Err? ==> r.error == MissingColumn(repo)
    ensures r.Ok? ==> WellFormed(r.value) && r.value.index == t.index && |r.value.columns| == |t.columns|
    ensures r.Ok? ==> forall j :: 0 <= j < |t.columns| ==> r.value.columns[j].repo == t.columns[j].repo
    ensures r.Ok? ==> forall j :: 0 <= j < |t.columns| && t.columns[j].repo != repo ==> r.value.columns[j] == t.columns[j]
    ensures r.Ok? ==> forall j, k :: 0 <= j < |t.columns| && t.columns[j].repo == repo && 0 <= k < |t.index| ==>
      r.value.columns[j].values[k] == (if t.index[k] <= cutoff then 0 else t.columns[j].values[k])
  {
    if forall j :: 0 <= j < |t.columns| ==> t.columns[j].repo != repo then Err(MissingColumn(repo))
    else
      Ok(Table(t.index, seq(|t.columns|, j requires 0 <= j < |t.columns| =>
        var c := t.columns[j];
        if c.repo == repo then Column(repo, ZeroThrough(t.index, c.values, cutoff)) else c)))
  }

  /** Truncating twice at the same cutoff changes nothing more. */
  lemma TruncateIdempotent(t: Table, repo: string, cutoff: int)
    requires WellFormed(t) && Truncate(t, repo, cutoff).Ok?
    ensures Truncate(Truncate(t, repo, cutoff).value, repo, cutoff) == Truncate(t, repo, cutoff)
  {
    var once := Truncate(t, repo, cutoff).value;
    var twice := Truncate(once, repo, cutoff).value;
    ColumnsEqual(twice, once);
  }

  /** Truncating at one cutoff and then at another is truncating at the later one. */
  lemma TruncateTwice(t: Table, repo: string, c1: int, c2: int)
    requires WellFormed(t) && Truncate(t, repo, c1).Ok?
    ensures Truncate(Truncate(t, repo, c1).value, repo, c2) == Truncate(t, repo, if c1 < c2 then c2 else c1)
  {
    var a := Truncate(Truncate(t, repo, c1).value, repo, c2).value;
    var b := Truncate(t, repo, if c1 < c2 then c2 else c1).value;
    ColumnsEqual(a, b);
  }

  /** Truncating two different repositories commutes. */
  lemma TruncateCommutes(t: Table, r1: string, c1: int, r2: string, c2: int)
    requires WellFormed(t) && Truncate(t, r1, c1).Ok? && Truncate(t, r2, c2).Ok? && r1 != r2
    ensures Truncate(Truncate(t, r1, c1).value, r2, c2) == Truncate(Truncate(t, r2, c2).value, r1, c1)
  {
    var a := Truncate(Truncate(t, r1, c1).value, r2, c2).value;
    var b := Truncate(Truncate(t, r2, c2).value, r1, c1).value;
    ColumnsEqual(a, b);
  }

  /** Two well-formed tables with the same index and the same cells are equal. */
  lemma ColumnsEqual(a: Table, b: Table)
    requires WellFormed(a) && WellFormed(b) && a.index == b.index && |a.columns| == |b.columns|
    requires forall j :: 0 <= j < |a.columns| ==> a.columns[j].repo == b.columns[j].repo
    requires forall j, k :: 0 <= j < |a.columns| && 0 <= k < |a.index| ==> a.columns[j].values[k] == b.columns[j].values[k]
    ensures a == b
  {
    forall j | 0 <= j < |a.columns| ensures a.columns[j] == b.columns[j] {
      assert a.columns[j].values == b.columns[j].values;
    }
  }

  /** `for k in summary_stats.keys(): summary_stats[k][repo][:cutoff] = 0`, over
      the five tables in key order; the first table without the column raises. */
  function TruncateAll(sum: Summary, repo: string, cutoff: int): (r: Result<Summary, StatsError>)
    requires forall cat :: WellFormed(TableOf(sum, cat))
    ensures r.Err? <==> exists cat :: Truncate(TableOf(sum, cat), repo, cutoff).Err?
    ensures r.Err? ==> r.error == MissingColumn(repo)
    ensures r.Ok? ==> forall cat :: TableOf(r.value, cat) == Truncate(TableOf(sum, cat), repo, cutoff).value
  {
    assert WellFormed(TableOf(sum, Sizes)) && WellFormed(TableOf(sum, Blanks)) && WellFormed(TableOf(sum, Codes));
    assert WellFormed(TableOf(sum, Comments)) && WellFormed(TableOf(sum, NFiles));
    var a := Truncate(sum.sizes, repo, cutoff);
    var b := Truncate(sum.blanks, repo, cutoff);
    var c := Truncate(sum.codes, repo, cutoff);
    var d := Truncate(sum.comments, repo, cutoff);
    var e := Truncate(sum.nfiles, repo, cutoff);
    if a.Err? then Err(a.error)
    else if b.Err? then assert Truncate(TableOf(sum, Blanks), repo, cutoff).Err?; Err(b.error)
    else if c.Err? then assert Truncate(TableOf(sum, Codes), repo, cutoff).Err?; Err(c.error)
    else if d.Err? then assert Truncate(TableOf(sum, Comments), repo, cutoff).Err?; Err(d.error)
    else if e.Err? then assert Truncate(TableOf(sum, NFiles), repo, cutoff).Err?; Err(e.error)
    else Ok(Summary(a.value, b.value, c.value, d.value, e.value))
  }

  /** The value in column `j` at row `k`, zero outside the table. */
  function Cell(t: Table, j: nat, k: nat): nat {
    if j < |t.columns| && k < |t.columns[j].values| then t.columns[j].values[k] else 0
  }

  /** The dates up to which a repository's values are set to zero: HDMF before
      it was split out of PyNWB, the extension smithy before it started. */
  predicate BeforeStart(repo: string, d: int) {
    || (repo == HdmfRepo && d <= HdmfStartDate)
    || (repo == SmithyRepo && d <= ExtensionSmithyStartDate)
  }

  /** The two clean-up loops of `from_nwb`. On tables with one column per name
      they succeed exactly when both repositories have a column, and then zero
      exactly the cells before each repository's start date. */
  function MarkStartDates(sum: Summary, names: seq<string>, range: seq<int>): (r: Result<Summary, StatsError>)
    requires forall cat {:trigger TableOf(sum, cat)} :: Shaped(TableOf(sum, cat), range, names)
    ensures r.Ok? <==> HdmfRepo in names && SmithyRepo in names
    ensures r.Err? ==> r.error == MissingColumn(if HdmfRepo in names then SmithyRepo else HdmfRepo)
    ensures r.Ok? ==> forall cat {:trigger TableOf(r.value, cat)} :: Shaped(TableOf(r.value, cat), range, names)
    ensures r.Ok? ==> forall cat, j: nat, k: nat :: j < |names| && k < |range| ==>
      Cell(TableOf(r.value, cat), j, k) == (if BeforeStart(names[j], range[k]) then 0 else Cell(TableOf(sum, cat), j, k))
  {
    ShapedHasColumn(sum, names, range, HdmfRepo);
    match TruncateAll(sum, HdmfRepo, HdmfStartDate)
    case Err(e) => Err(e)
    case Ok(s1) =>
      TruncateAllShaped(sum, names, range, HdmfRepo, HdmfStartDate);
      ShapedHasColumn(s1, names, range, SmithyRepo);
      match TruncateAll(s1, SmithyRepo, ExtensionSmithyStartDate)
      case Err(e) => Err(e)
      case Ok(s2) =>
        TruncateAllShaped(s1, names, range, SmithyRepo, ExtensionSmithyStartDate);
        Ok(s2)
  }

  /** Truncating every table of a shaped summary keeps its shape and zeroes
      exactly the cells of `repo` dated on or before `cutoff`. */
  lemma TruncateAllShaped(sum: Summary, names: seq<string>, range: seq<int>, repo: string, cutoff: int)
    requires forall cat {:trigger TableOf(sum, cat)} :: Shaped(TableOf(sum, cat), range, names)
    requires forall cat :: WellFormed(TableOf(sum, cat))
    requires TruncateAll(sum, repo, cutoff).Ok?
    ensures var r := TruncateAll(sum, repo, cutoff).value;
      forall cat {:trigger TableOf(r, cat)} :: Shaped(TableOf(r, cat), range, names)
    ensures forall cat, j: nat, k: nat :: j < |names| && k < |range| ==>
      Cell(TableOf(TruncateAll(sum, repo, cutoff).value, cat), j, k)
        == (if names[j] == repo && range[k] <= cutoff then 0 else Cell(TableOf(sum, cat), j, k))
  {
    var r := TruncateAll(sum, repo, cutoff).value;
    forall cat ensures Shaped(TableOf(r, cat), range, names) {
      assert TableOf(r, cat) == Truncate(TableOf(sum, cat), repo, cutoff).value;
    }
    forall cat, j: nat, k: nat | j < |names| && k < |range|
      ensures Cell(TableOf(TruncateAll(sum, repo, cutoff).value, cat), j, k)
        == (if names[j] == repo && range[k] <= cutoff then 0 else Cell(TableOf(sum, cat), j, k))
    {
      var t := TableOf(sum, cat);
      var u := TableOf(r, cat);
      assert Shaped(t, range, names) && Shaped(u, range, names);
      assert u == Truncate(t, repo, cutoff).value;
      assert t.columns[j].repo == names[j] && |t.columns[j].values| == |range|;
      if names[j] == repo {
        assert u.columns[j].values[k] == if t.index[k] <= cutoff then 0 else t.columns[j].values[k];
      } else {
        assert u.columns[j] == t.columns[j];
      }
      assert Cell(u, j, k) == (if names[j] == repo && range[k] <= cutoff then 0 else Cell(t, j, k));
    }
  }

  /** A table shaped by `names` has a column for `repo` exactly when `repo` is a name. */
  lemma ShapedHasColumn(sum: Summary, names: seq<string>, range: seq<int>, repo: string)
    requires forall cat :: Shaped(TableOf(sum, cat), range, names)
    ensures forall cat :: WellFormed(TableOf(sum, cat))
    ensures forall cat :: Truncate(TableOf(sum, cat), repo, 0).Err? <==> repo !in names
    ensures forall cat, c :: Truncate(TableOf(sum, cat), repo, c).Err? <==> repo !in names
  {
    forall cat, c ensures Truncate(TableOf(sum, cat), repo, c).Err? <==> repo !in names {
      var t := TableOf(sum, cat);
      if repo in names {
        var j :| 0 <= j < |names| && names[j] == repo;
        assert t.columns[j].repo == repo;
      }
    }
  }

  /** The start of the range: the given date, or the start of NWB 2. */
  function RangeStart(startDate: Option<int>): int {
    match startDate
    case Some(d) => d
    case None => Nwb2StartDate
  }

  /** The end of the range: the given date, or `today` (the call's `datetime.today()`). */
  function RangeEnd(endDate: Option<int>, today: int): int {
    match endDate
    case Some(d) => d
    case None => today
  }

  function NwbRange(startDate: Option<int>, endDate: Option<int>, today: int): seq<int> {
    DailyRange(RangeStart(startDate), RangeEnd(endDate, today))
  }

  /** `from_nwb` as written: the source's aggregation over the daily range, then
      the start-date clean-up. It fails exactly when the aggregation fails or a
      clean-up column is missing; otherwise every cell is the aggregation's
      value, or zero before the repository's start date. */
  function FromNwb(stats: GitCodeStats, startDate: Option<int>, endDate: Option<int>, today: int): (r: Result<Summary, StatsError>)
    ensures r.Ok? <==> Computable(stats, NwbRange(startDate, endDate, today)) && HdmfRepo in Names(stats.clocStats.value) && SmithyRepo in Names(stats.clocStats.value)
    ensures r.Ok? ==> forall cat :: Shaped(TableOf(r.value, cat), NwbRange(startDate, endDate, today), Names(stats.clocStats.value))
    ensures r.Ok? ==> forall cat, j: nat, k: nat :: j < |stats.clocStats.value| && k < |NwbRange(startDate, endDate, today)| ==>
      Cell(TableOf(r.value, cat), j, k)
        == (if BeforeStart(stats.clocStats.value[j].name, NwbRange(startDate, endDate, today)[k]) then 0
            else Cell(TableOf(ComputeSummaryStats(stats, NwbRange(startDate, endDate, today)).value, cat), j, k))
  {
    var range := NwbRange(startDate, endDate, today);
    match ComputeSummaryStats(stats, range)
    case Err(e) => Err(e)
    case Ok(sum) => MarkStartDates(sum, Names(stats.clocStats.value), range)
  }

  /** The corrected `from_nwb`: the same clean-up over the corrected aggregation. */
  function FromNwbFixed(stats: GitCodeStats, startDate: Option<int>, endDate: Option<int>, today: int): (r: Result<Summary, StatsError>)
    ensures r.Ok? <==> Computable(stats, NwbRange(startDate, endDate, today)) && HdmfRepo in Names(stats.clocStats.value) && SmithyRepo in Names(stats.clocStats.value)
    ensures r.Ok? ==> forall cat :: Shaped(TableOf(r.value, cat), NwbRange(startDate, endDate, today), Names(stats.clocStats.value))
    ensures r.Ok? ==> forall cat, j: nat, k: nat :: j < |stats.clocStats.value| && k < |NwbRange(startDate, endDate, today)| ==>
      Cell(TableOf(r.value, cat), j, k)
        == (if BeforeStart(stats.clocStats.value[j].name, NwbRange(startDate, endDate, today)[k]) then 0
            else Cell(TableOf(ComputeSummaryStatsFixed(stats, NwbRange(startDate, endDate, today)).value, cat), j, k))
  {
    var range := NwbRange(startDate, endDate, today);
    match ComputeSummaryStatsFixed(stats, range)
    case Err(e) => Err(e)
    case Ok(sum) => MarkStartDates(sum, Names(stats.clocStats.value), range)
  }

  /** End to end, corrected: each cell of the result is zero before the
      repository's start date and otherwise the category's value in the newest
      cloc snapshot dated on or before that day (zero before the first one),
      for any repository whose snapshots are in date order. */
  lemma FromNwbFixedCell(stats: GitCodeStats, startDate: Option<int>, endDate: Option<int>, today: int,
                         cat: Category, j: nat, k: nat)
    requires FromNwbFixed(stats, startDate, endDate, today).Ok?
    requires j < |stats.clocStats.value| && k < |NwbRange(startDate, endDate, today)|
    requires Ordered(SumTimeline(stats.clocStats.value[j].entries).value)
    ensures var repo := stats.clocStats.value[j];
      var d := NwbRange(startDate, endDate, today)[k];
      Cell(TableOf(FromNwbFixed(stats, startDate, endDate, today).value, cat), j, k)
        == (if BeforeStart(repo.name, d) then 0 else Metric(cat, LatestOf(repo.entries, d)))
  {
    var range := NwbRange(startDate, endDate, today);
    var v := stats.clocStats.value[j].entries;
    DailyRangeCovers(SumTimeline(v).value, RangeStart(startDate), RangeEnd(endDate, today));
    SummaryFixedMatchesLatest(stats, range, cat, j, k);
  }

  /** As written, with the default start date, a repository other than HDMF and
      the extension smithy that has cloc snapshots on both sides of 2016-08-31
      but none on that day reports its last pre-2016-08-31 counts on every day
      of the range. */
  lemma FromNwbFreezesAtDefaultStart(stats: GitCodeStats, endDate: Option<int>, today: int, cat: Category, j: nat, k: nat, i: nat)
    requires FromNwb(stats, None, endDate, today).Ok?
    requires j < |stats.clocStats.value| && k < |NwbRange(None, endDate, today)|
    requires var repo := stats.clocStats.value[j]; repo.name != HdmfRepo && repo.name != SmithyRepo
    requires var s := SumTimeline(stats.clocStats.value[j].entries).value;
      Ordered(s) && 0 < i < |s| && s[i - 1].day < Nwb2StartDate < s[i].day
    ensures var s := SumTimeline(stats.clocStats.value[j].entries).value;
      Cell(TableOf(FromNwb(stats, None, endDate, today).value, cat), j, k)
        == Metric(if cat == NFiles then Codes else cat, s[i - 1].payload)
  {
    var range := NwbRange(None, endDate, today);
    var s := SumTimeline(stats.clocStats.value[j].entries).value;
    var sum := ComputeSummaryStats(stats, range).value;
    assert !BeforeStart(stats.clocStats.value[j].name, range[k]);
    assert Cell(TableOf(FromNwb(stats, None, endDate, today).value, cat), j, k) == Cell(TableOf(sum, cat), j, k);
    SummaryCell(stats, range, cat, j, k);
    assert Shaped(TableOf(sum, cat), range, Names(stats.clocStats.value));
    StartBetweenSnapshotsFreezes(s, range, i);
  }
}

=== FILE: ordered_dict.dfy ===
/**
 * Python's `OrderedDict` built from a list of pairs: assigning an existing
 * key updates its value where it stands, a new key is appended. `IssueLabels`
 * and `GitRepos` are such dictionaries, and their `merge` builds one from the
 * items of the first followed by the items of the second.
 */
module OrderedDict {
  import opened Results

  /** The items of a dictionary, in insertion order. */
  type Items<K, V> = seq<(K, V)>

  function Keys<K(==,!new), V(!new)>(d: Items<K, V>): (ks: seq<K>)
    ensures |ks| == |d| && forall i :: 0 <= i < |d| ==> ks[i] == d[i].0
  {
    seq(|d|, i requires 0 <= i < |d| => d[i].0)
  }

  /** The keys of a dictionary with one more item in front. */
  lemma KeysCons<K(!new), V(!new)>(x: (K, V), d: Items<K, V>)
    ensures Keys([x] + d) == [x.0] + Keys(d)
  {
    forall i | 0 <= i < |d| + 1 ensures Keys([x] + d)[i] == ([x.0] + Keys(d))[i] {
      if i > 0 {
        assert ([x] + d)[i] == d[i - 1];
      }
    }
  }

  /** No key occurs twice: the shape of every dictionary. */
  ghost predicate DistinctKeys<K(!new), V(!new)>(d: Items<K, V>) {
    forall i, j :: 0 <= i < j < |d| ==> d[i].0 != d[j].0
  }

  /** `d[k]`, or `None` for a KeyError: the value of the last item with key `k`. */
  function Lookup<K(==,!new), V(!new)>(d: Items<K, V>, k: K): (r: Option<V>)
    ensures r.None? <==> k !in Keys(d)
    ensures r.Some? ==> exists i :: 0 <= i < |d| && d[i] == (k, r.value)
    decreases |d|
  {
    if |d| == 0 then None
    else if d[|d| - 1].0 == k then Some(d[|d| - 1].1)
    else
      var r := Lookup(d[..|d| - 1], k);
      assert Keys(d) == Keys(d[..|d| - 1]) + [d[|d| - 1].0];
      r
  }

  /** Position of key `k`, if present. */
  function IndexOf<K(==,!new), V(!new)>(d: Items<K, V>, k: K): (r: Option<nat>)
    ensures r.None? <==> k !in Keys(d)
    ensures r.Some? ==> r.value < |d| && d[r.value].0 == k
    decreases |d|
  {
    if |d| == 0 then None
    else if d[|d| - 1].0 == k then Some(|d| - 1)
    else
      assert Keys(d) == Keys(d[..|d| - 1]) + [d[|d| - 1].0];
      IndexOf(d[..|d| - 1], k)
  }

  /** `d[k] = v`: an existing key keeps its position and takes the new value,
      a new key is appended. */
  function Put<K(==,!new), V(!new)>(d: Items<K, V>, k: K, v: V): (r: Items<K, V>)
    ensures k in Keys(d) ==> |r| == |d|
    ensures k !in Keys(d) ==> r == d + [(k, v)]
  {
    match IndexOf(d, k)
    case None => d + [(k, v)]
    case Some(i) => d[i := (k, v)]
  }

  /** `OrderedDict(items)`: the items put one after another. */
  function FromItems<K(==,!new), V(!new)>(items: Items<K, V>): (r: Items<K, V>)
    ensures DistinctKeys(r)
    ensures forall k :: k in Keys(r) <==> k in Keys(items)
    ensures forall k :: Lookup(r, k) == Lookup(items, k)
    decreases |items|
  {
    if |items| == 0 then []
    else
      var n := |items| - 1;
      var before := FromItems(items[..n]);
      PutKeeps(before, items[n].0, items[n].1);
      assert Keys(items) == Keys(items[..n]) + [items[n].0];
      forall k ensures Lookup(items, k) == (if k == items[n].0 then Some(items[n].1) else Lookup(items[..n], k)) {
      }
      Put(before, items[n].0, items[n].1)
  }

  /** `Put` keeps keys distinct, adds exactly its key, and changes only its key's value. */
  lemma PutKeeps<K(!new), V(!new)>(d: Items<K, V>, k: K, v: V)
    requires DistinctKeys(d)
    ensures DistinctKeys(Put(d, k, v))
    ensures forall x :: x in Keys(Put(d, k, v)) <==> x in Keys(d) || x == k
    ensures forall x :: Lookup(Put(d, k, v), x) == if x == k then Some(v) else Lookup(d, x)
  {
    var r := Put(d, k, v);
    match IndexOf(d, k)
    case None =>
      assert Keys(r) == Keys(d) + [k];
      assert r[..|r| - 1] == d;
    case Some(i) =>
      assert Keys(r) == Keys(d);
      forall x ensures Lookup(r, x) == if x == k then Some(v) else Lookup(d, x) {
        LookupDistinct(r, x);
        LookupDistinct(d, x);
        if x == k {
          assert r[i] == (k, v);
        } else if x in Keys(d) {
          var j :| 0 <= j < |d| && d[j].0 == x;
          assert r[j] == d[j];
        }
      }
  }

  /** In a dictionary without repeated keys, the value of a key is the value of its one item. */
  lemma LookupDistinct<K(!new), V(!new)>(d: Items<K, V>, k: K)
    requires DistinctKeys(d)
    ensures forall i :: 0 <= i < |d| && d[i].0 == k ==> Lookup(d, k) == Some(d[i].1)
  {
    if Lookup(d, k).Some? {
      var i :| 0 <= i < |d| && d[i] == (k, Lookup(d, k).value);
    }
  }

  /** The last key of a dictionary does not occur before it. */
  lemma LastKeyFresh<K(!new), V(!new)>(d: Items<K, V>)
    requires DistinctKeys(d) && |d| > 0
    ensures d[|d| - 1].0 !in Keys(d[..|d| - 1])
  {
    var n := |d| - 1;
    forall j | 0 <= j < n ensures d[..n][j].0 != d[n].0 {
      assert d[..n][j] == d[j];
    }
  }

  /** A fresh key put in front keeps the keys distinct. */
  lemma PrependFresh<K(!new), V(!new)>(x: (K, V), d: Items<K, V>)
    requires DistinctKeys(d) && x.0 !in Keys(d)
    ensures DistinctKeys([x] + d)
  {
    var t := [x] + d;
    forall i, j | 0 <= i < j < |t| ensures t[i].0 != t[j].0 {
      assert t[j] == d[j - 1];
      if i == 0 {
        assert Keys(d)[j - 1] == t[j].0;
      } else {
        assert t[i] == d[i - 1];
      }
    }
  }

  /** Appending an item with a fresh key keeps keys distinct. */
  lemma AppendFresh<K(!new), V(!new)>(d: Items<K, V>, x: (K, V))
    requires DistinctKeys(d) && x.0 !in Keys(d)
    ensures DistinctKeys(d + [x])
  {
    forall i | 0 <= i < |d| ensures d[i].0 != x.0 {
      assert Keys(d)[i] == d[i].0;
    }
  }

  /** `merge(o1, o2)`: a dictionary from the items of `o1` followed by those of `o2`. */
  function Merge<K(==,!new), V(!new)>(o1: Items<K, V>, o2: Items<K, V>): (r: Items<K, V>)
    ensures DistinctKeys(r)
    ensures forall k :: k in Keys(r) <==> k in Keys(o1) || k in Keys(o2)
    ensures forall k :: k in Keys(o2) ==> Lookup(r, k) == Lookup(o2, k)
    ensures forall k :: k !in Keys(o2) ==> Lookup(r, k) == Lookup(o1, k)
  {
    assert Keys(o1 + o2) == Keys(o1) + Keys(o2);
    forall k ensures Lookup(o1 + o2, k) == if k in Keys(o2) then Lookup(o2, k) else Lookup(o1, k) {
      LookupConcat(o1, o2, k);
    }
    FromItems(o1 + o2)
  }

  /** Looking a key up in two item lists one after the other finds the later one. */
  lemma {:induction false} LookupConcat<K(!new), V(!new)>(o1: Items<K, V>, o2: Items<K, V>, k: K)
    ensures Lookup(o1 + o2, k) == if k in Keys(o2) then Lookup(o2, k) else Lookup(o1, k)
    decreases |o2|
  {
    if |o2| == 0 {
      assert o1 + o2 == o1;
    } else {
      var n := |o2| - 1;
      assert (o1 + o2)[..|o1 + o2| - 1] == o1 + o2[..n];
      assert Keys(o2) == Keys(o2[..n]) + [o2[n].0];
      LookupConcat(o1, o2[..n], k);
    }
  }

  /** The items of `o2` whose keys `o1` does not have, in order. */
  function NewItems<K(==,!new), V(!new)>(o1: Items<K, V>, o2: Items<K, V>): (r: Items<K, V>)
    ensures forall p :: p in r <==> p in o2 && p.0 !in Keys(o1)
    decreases |o2|
  {
    if |o2| == 0 then []
    else
      var n := |o2| - 1;
      assert o2 == o2[..n] + [o2[n]];
      NewItems(o1, o2[..n]) + (if o2[n].0 in Keys(o1) then [] else [o2[n]])
  }

  /** When `o1` has none of `o2`'s keys, all of `o2` is new. */
  lemma {:induction false} NewItemsAllFresh<K(!new), V(!new)>(o1: Items<K, V>, o2: Items<K, V>)
    requires forall i :: 0 <= i < |o2| ==> o2[i].0 !in Keys(o1)
    ensures NewItems(o1, o2) == o2
    decreases |o2|
  {
    if |o2| > 0 {
      var n := |o2| - 1;
      NewItemsAllFresh(o1, o2[..n]);
      assert o2 == o2[..n] + [o2[n]];
    }
  }

  /** `o1`'s items, each taking `o2`'s value when `o2` has its key. */
  function Overlay<K(==,!new), V(!new)>(o1: Items<K, V>, o2: Items<K, V>): (r: Items<K, V>)
    ensures |r| == |o1|
    ensures forall i :: 0 <= i < |o1| ==> r[i].0 == o1[i].0
  {
    seq(|o1|, i requires 0 <= i < |o1| =>
      (o1[i].0, match Lookup(o2, o1[i].0) case Some(v) => v case None => o1[i].1))
  }

  /** The merge without replays: `o1`'s keys in `o1`'s order, each with `o2`'s
      value when `o2` has the key, followed by `o2`'s new items in `o2`'s order. */
  function MergeSpec<K(==,!new), V(!new)>(o1: Items<K, V>, o2: Items<K, V>): Items<K, V> {
    Overlay(o1, o2) + NewItems(o1, o2)
  }

  /** Merging dictionaries gives exactly `MergeSpec`: every key of both, a key
      of both at its position in `o1` with its value from `o2`. */
  lemma {:induction false} MergeIsSpec<K(!new), V(!new)>(o1: Items<K, V>, o2: Items<K, V>)
    requires DistinctKeys(o1) && DistinctKeys(o2)
    ensures Merge(o1, o2) == MergeSpec(o1, o2)
    decreases |o2|
  {
    if |o2| == 0 {
      assert o1 + o2 == o1;
      FromItemsDistinct(o1);
      assert Overlay(o1, o2) == o1;
    } else {
      var n := |o2| - 1;
      var x := o2[n];
      var o2' := o2[..n];
      assert (o1 + o2)[..|o1 + o2| - 1] == o1 + o2';
      MergeIsSpec(o1, o2');
      assert Merge(o1, o2) == Put(MergeSpec(o1, o2'), x.0, x.1);
      LastKeyFresh(o2);
      if x.0 in Keys(o1) {
        MergeSpecStepShared(o1, o2);
      } else {
        MergeSpecStepNew(o1, o2);
      }
    }
  }

  /** `o2`'s last item, when its key is fresh in `o2`, is the lookup of that key;
      other keys look up as in the rest of `o2`. */
  lemma LookupLast<K(!new), V(!new)>(o2: Items<K, V>)
    requires |o2| > 0
    ensures forall k :: Lookup(o2, k) == if k == o2[|o2| - 1].0 then Some(o2[|o2| - 1].1) else Lookup(o2[..|o2| - 1], k)
  {
  }

  /** A last item of `o2` whose key `o1` has replaces that key's value in place. */
  lemma MergeSpecStepShared<K(!new), V(!new)>(o1: Items<K, V>, o2: Items<K, V>)
    requires DistinctKeys(o1) && |o2| > 0 && o2[|o2| - 1].0 in Keys(o1)
    ensures MergeSpec(o1, o2) == Put(MergeSpec(o1, o2[..|o2| - 1]), o2[|o2| - 1].0, o2[|o2| - 1].1)
  {
    var n := |o2| - 1;
    var x := o2[n];
    var o2' := o2[..n];
    var before := MergeSpec(o1, o2');
    var i :| 0 <= i < |o1| && o1[i].0 == x.0;
    SharedKeyPosition(o1, o2', i);
    OverlayReplace(o1, o2, i);
    assert NewItems(o1, o2) == NewItems(o1, o2') by {
      assert o2 == o2' + [x];
    }
    UpdateConcat(Overlay(o1, o2'), NewItems(o1, o2'), i, x);
  }

  lemma UpdateConcat<T>(a: seq<T>, b: seq<T>, i: nat, x: T)
    requires i < |a|
    ensures (a + b)[i := x] == a[i := x] + b
  {
  }

  /** In `MergeSpec`, the key of `o1[i]` is found at position `i`. */
  lemma SharedKeyPosition<K(!new), V(!new)>(o1: Items<K, V>, o2: Items<K, V>, i: nat)
    requires DistinctKeys(o1) && i < |o1|
    ensures IndexOf(MergeSpec(o1, o2), o1[i].0) == Some(i)
  {
    var m := MergeSpec(o1, o2);
    var k := o1[i].0;
    forall j | 0 <= j < |m| && j != i ensures m[j].0 != k {
      if j < |o1| {
        assert m[j].0 == o1[j].0;
      } else {
        assert m[j] in NewItems(o1, o2);
        assert k in Keys(o1);
      }
    }
    IndexOfUnique(m, k, i);
  }

  /** The last item of `o2`, whose key is `o1[i]`'s, changes only position `i` of the overlay. */
  lemma OverlayReplace<K(!new), V(!new)>(o1: Items<K, V>, o2: Items<K, V>, i: nat)
    requires DistinctKeys(o1) && |o2| > 0 && i < |o1| && o1[i].0 == o2[|o2| - 1].0
    ensures Overlay(o1, o2) == Overlay(o1, o2[..|o2| - 1])[i := o2[|o2| - 1]]
  {
    var ov := Overlay(o1, o2);
    var ov' := Overlay(o1, o2[..|o2| - 1]);
    LookupLast(o2);
    forall j | 0 <= j < |o1| ensures ov[j] == ov'[i := o2[|o2| - 1]][j] {
      if j != i {
        assert o1[j].0 != o1[i].0;
      }
    }
  }

  /** A last item of `o2` whose key `o1` lacks is appended. */
  lemma MergeSpecStepNew<K(!new), V(!new)>(o1: Items<K, V>, o2: Items<K, V>)
    requires |o2| > 0 && o2[|o2| - 1].0 !in Keys(o1) && o2[|o2| - 1].0 !in Keys(o2[..|o2| - 1])
    ensures MergeSpec(o1, o2) == Put(MergeSpec(o1, o2[..|o2| - 1]), o2[|o2| - 1].0, o2[|o2| - 1].1)
  {
    var n := |o2| - 1;
    var x := o2[n];
    var o2' := o2[..n];
    var before := MergeSpec(o1, o2');
    LookupLast(o2);
    assert NewItems(o1, o2) == NewItems(o1, o2') + [x];
    forall j | 0 <= j < |before| ensures before[j].0 != x.0 {
      if j < |o1| {
        assert before[j].0 == o1[j].0;
      } else {
        assert before[j] in NewItems(o1, o2');
        assert before[j] in o2';
      }
    }
    assert x.0 !in Keys(before);
    assert Overlay(o1, o2) == Overlay(o1, o2');
  }

  /** The only item with key `k` is at position `i`. */
  lemma IndexOfUnique<K(!new), V(!new)>(d: Items<K, V>, k: K, i: nat)
    requires i < |d| && d[i].0 == k
    requires forall j :: 0 <= j < |d| && j != i ==> d[j].0 != k
    ensures IndexOf(d, k) == Some(i)
    decreases |d|
  {
    var n := |d| - 1;
    if n != i {
      IndexOfUnique(d[..n], k, i);
    }
  }

  /** A dictionary is rebuilt unchanged from its own items. */
  lemma {:induction false} FromItemsDistinct<K(!new), V(!new)>(d: Items<K, V>)
    requires DistinctKeys(d)
    ensures FromItems(d) == d
    decreases |d|
  {
    if |d| > 0 {
      var n := |d| - 1;
      FromItemsDistinct(d[..n]);
      LastKeyFresh(d);
      assert d == d[..n] + [d[n]];
    }
  }

  /** The items whose value satisfies `keep`, in order. */
  function FilterItems<K(==,!new), V(!new)>(d: Items<K, V>, keep: V -> bool): (r: Items<K, V>)
    ensures forall p :: p in r <==> p in d && keep(p.1)
    ensures |r| <= |d|
    decreases |d|
  {
    if |d| == 0 then []
    else
      var n := |d| - 1;
      assert d == d[..n] + [d[n]];
      FilterItems(d[..n], keep) + (if keep(d[n].1) then [d[n]] else [])
  }

  /** A filter of a dictionary keeps its keys distinct, so building a
      dictionary from it changes nothing. */
  lemma {:induction false} FilterKeepsDistinct<K(!new), V(!new)>(d: Items<K, V>, keep: V -> bool)
    requires DistinctKeys(d)
    ensures DistinctKeys(FilterItems(d, keep))
    ensures FromItems(FilterItems(d, keep)) == FilterItems(d, keep)
    decreases |d|
  {
    if |d| > 0 {
      var n := |d| - 1;
      var f := FilterItems(d[..n], keep);
      assert DistinctKeys(d[..n]);
      FilterKeepsDistinct(d[..n], keep);
      LastKeyFresh(d);
      if keep(d[n].1) {
        assert d[n].0 !in Keys(f);
        AppendFresh(f, d[n]);
      }
      FromItemsDistinct(FilterItems(d, keep));
    }
  }
}

=== FILE: releases.dfy ===
/**
 * Release timelines: the release names and dates kept from GitHub's release
 * list, the releases added by hand, the major/minor/patch jump between
 * consecutive versions, and the stem levels the timeline plot draws
 * (one per release, by jump kind, or a fixed six-periodic fallback).
 */
module Releases {
  import opened Results
  import opened Strings
  import opened OrderedDict

  /** One entry of GitHub's release list: its display name, tag and
      publication timestamp ("YYYY-MM-DDTHH:MM:SSZ"). */
  datatype Release = Release(name: string, tagName: string, publishedAt: string)

  const LatestMarker: string := "Latest"

  /** The releases whose name does not contain "Latest", in their order. */
  function KeptReleases(releases: seq<Release>): (r: seq<Release>)
    ensures |r| <= |releases|
    ensures forall x :: x in r <==> x in releases && !Contains(x.name, LatestMarker)
    decreases |releases|
  {
    if |releases| == 0 then []
    else
      var rest := KeptReleases(releases[1..]);
      assert forall x :: x in releases <==> x == releases[0] || x in releases[1..];
      if Contains(releases[0].name, LatestMarker) then rest else [releases[0]] + rest
  }

  /** A single release is kept exactly when its name does not contain "Latest". */
  lemma KeptReleasesSingle(x: Release)
    ensures KeptReleases([x]) == if Contains(x.name, LatestMarker) then [] else [x]
  {
    assert [x][1..] == [];
  }

  /** Filtering keeps the order: the kept releases of a concatenation are the
      kept releases of its first part followed by those of its second. */
  lemma {:induction false} KeptReleasesAppend(a: seq<Release>, b: seq<Release>)
    ensures KeptReleases(a + b) == KeptReleases(a) + KeptReleases(b)
    decreases |a|
  {
    if |a| > 0 {
      assert (a + b)[0] == a[0];
      assert (a + b)[1..] == a[1..] + b;
      KeptReleasesAppend(a[1..], b);
    } else {
      assert a + b == b;
    }
  }

  /** `strptime(d[0:10], "%Y-%m-%d")` raised ValueError on this text. */
  datatype ReleaseError = InvalidDate(text: string)

  /** `get_release_names_and_dates` on an already fetched release list: the
      kept releases' tags without leading 'v', and their publication days.
      `parseDay` stands for `strptime` on the first ten characters. */
  function ReleaseNamesAndDates(releases: seq<Release>, parseDay: string -> Option<int>)
    : (r: Result<(seq<string>, seq<int>), ReleaseError>)
    ensures var kept := KeptReleases(releases);
      && (r.Ok? <==> forall i :: 0 <= i < |kept| ==> parseDay(Slice(kept[i].publishedAt, 0, 10)).Some?)
      && (r.Ok? ==> |r.value.0| == |kept| && |r.value.1| == |kept|
                    && forall i :: 0 <= i < |kept| ==>
                         && r.value.0[i] == LStrip(kept[i].tagName, 'v')
                         && Some(r.value.1[i]) == parseDay(Slice(kept[i].publishedAt, 0, 10)))
      && (r.Err? ==> exists i :: 0 <= i < |kept| && r.error == InvalidDate(Slice(kept[i].publishedAt, 0, 10))
                                && parseDay(Slice(kept[i].publishedAt, 0, 10)).None?)
  {
    var kept := KeptReleases(releases);
    var days := ParseDays(kept, parseDay);
    if days.Ok? then Ok((TagNames(kept), days.value)) else Err(days.error)
  }

  /** The tags of the releases without their leading 'v'. */
  function TagNames(kept: seq<Release>): (names: seq<string>)
    ensures |names| == |kept| && forall i :: 0 <= i < |kept| ==> names[i] == LStrip(kept[i].tagName, 'v')
  {
    seq(|kept|, i requires 0 <= i < |kept| => LStrip(kept[i].tagName, 'v'))
  }

  /** The publication days of the releases, failing at the first one that does not parse. */
  function ParseDays(kept: seq<Release>, parseDay: string -> Option<int>): (r: Result<seq<int>, ReleaseError>)
    ensures r.Ok? <==> forall i :: 0 <= i < |kept| ==> parseDay(Slice(kept[i].publishedAt, 0, 10)).Some?
    ensures r.Ok? ==> (|r.value| == |kept|
      && forall i :: 0 <= i < |kept| ==> Some(r.value[i]) == parseDay(Slice(kept[i].publishedAt, 0, 10)))
    ensures r.Err? ==> exists i :: 0 <= i < |kept| && r.error == InvalidDate(Slice(kept[i].publishedAt, 0, 10))
                                  && parseDay(Slice(kept[i].publishedAt, 0, 10)).None?
    decreases |kept|
  {
    if |kept| == 0 then Ok([])
    else
      var text := Slice(kept[0].publishedAt, 0, 10);
      match parseDay(text)
      case None => Err(InvalidDate(text))
      case Some(day) =>
        match ParseDays(kept[1..], parseDay)
        case Err(e) => Err(e)
        case Ok(days) =>
          assert forall i :: 1 <= i < |kept| ==> kept[i] == kept[1..][i - 1];
          Ok([day] + days)
  }

  /** The release names never start with 'v'. */
  lemma NamesHaveNoLeadingV(releases: seq<Release>, parseDay: string -> Option<int>)
    ensures var r := ReleaseNamesAndDates(releases, parseDay);
      r.Ok? ==> forall i :: 0 <= i < |r.value.0| ==> |r.value.0[i]| == 0 || r.value.0[i][0] != 'v'
  {
  }

  /** The plot appends the hand-listed releases one by one after the fetched ones. */
  method AddReleases(names: seq<string>, days: seq<int>, added: seq<(string, int)>)
    returns (allNames: seq<string>, allDays: seq<int>)
    ensures |allNames| == |names| + |added| && |allDays| == |days| + |added|
    ensures allNames[..|names|] == names && allDays[..|days|] == days
    ensures forall i :: 0 <= i < |added| ==> allNames[|names| + i] == added[i].0 && allDays[|days| + i] == added[i].1
  {
    allNames, allDays := names, days;
    for k := 0 to |added|
      invariant |allNames| == |names| + k && |allDays| == |days| + k
      invariant allNames[..|names|] == names && allDays[..|days|] == days
      invariant forall i :: 0 <= i < k ==> allNames[|names| + i] == added[i].0 && allDays[|days| + i] == added[i].1
    {
      allNames := allNames + [added[k].0];
      allDays := allDays + [added[k].1];
    }
  }

  /** A parsed `LooseVersion`: the tag text and its numeric components. */
  datatype Version = Version(vstring: string, parts: seq<nat>)

  /** Python's list `<` on component lists: the first difference decides, and
      a proper prefix is smaller. */
  predicate LexLess(a: seq<nat>, b: seq<nat>)
    decreases |a|
  {
    if |a| == 0 then |b| > 0
    else if |b| == 0 then false
    else if a[0] != b[0] then a[0] < b[0]
    else LexLess(a[1..], b[1..])
  }

  lemma {:induction false} LexLessIrreflexive(a: seq<nat>)
    ensures !LexLess(a, a)
    decreases |a|
  {
    if |a| > 0 { LexLessIrreflexive(a[1..]); }
  }

  lemma {:induction false} LexLessTotal(a: seq<nat>, b: seq<nat>)
    ensures LexLess(a, b) || LexLess(b, a) || a == b
    decreases |a|
  {
    if |a| > 0 && |b| > 0 && a[0] == b[0] {
      LexLessTotal(a[1..], b[1..]);
      if a[1..] == b[1..] {
        assert a == [a[0]] + a[1..] && b == [b[0]] + b[1..];
      }
    }
  }

  lemma {:induction false} LexLessTransitive(a: seq<nat>, b: seq<nat>, c: seq<nat>)
    requires LexLess(a, b) && LexLess(b, c)
    ensures LexLess(a, c)
    decreases |a|
  {
    if |a| > 0 && a[0] == b[0] && b[0] == c[0] {
      LexLessTransitive(a[1..], b[1..], c[1..]);
    }
  }

  /** `LexLess` is asymmetric. */
  lemma LexLessAsymmetric(a: seq<nat>, b: seq<nat>)
    requires LexLess(a, b)
    ensures !LexLess(b, a)
  {
    if LexLess(b, a) {
      LexLessTransitive(a, b, a);
      LexLessIrreflexive(a);
    }
  }

  /** Whatever is not below `y` is not below anything below `y`. */
  lemma NotBelow(x: seq<nat>, y: seq<nat>, z: seq<nat>)
    requires LexLess(x, y) && !LexLess(z, y)
    ensures !LexLess(z, x)
  {
    if LexLess(z, x) {
      LexLessTransitive(z, x, y);
    }
  }

  /** Sorted ascending: no later version is smaller than an earlier one. */
  predicate SortedVersions(s: seq<Version>) {
    forall i, j :: 0 <= i < j < |s| ==> !LexLess(s[j].parts, s[i].parts)
  }

  /** Insert `x` after every element it is not smaller than: the step of a
      stable insertion sort. */
  function Insert(x: Version, s: seq<Version>): (r: seq<Version>)
    requires SortedVersions(s)
    ensures SortedVersions(r)
    ensures multiset(r) == multiset(s) + multiset{x}
    ensures |r| == |s| + 1
    decreases |s|
  {
    if |s| == 0 then [x]
    else if LexLess(x.parts, s[0].parts) then
      InsertFront(x, s);
      [x] + s
    else
      var rest := Insert(x, s[1..]);
      InsertBehind(x, s, rest);
      assert s == [s[0]] + s[1..];
      [s[0]] + rest
  }

  lemma InsertFront(x: Version, s: seq<Version>)
    requires SortedVersions(s) && |s| > 0 && LexLess(x.parts, s[0].parts)
    ensures SortedVersions([x] + s)
  {
    var r := [x] + s;
    forall i, j | 0 <= i < j < |r| ensures !LexLess(r[j].parts, r[i].parts) {
      if i == 0 {
        if j == 1 {
          LexLessAsymmetric(x.parts, s[0].parts);
        } else {
          NotBelow(x.parts, s[0].parts, s[j - 1].parts);
        }
      } else {
        assert r[i] == s[i - 1] && r[j] == s[j - 1];
      }
    }
  }

  lemma InsertBehind(x: Version, s: seq<Version>, rest: seq<Version>)
    requires SortedVersions(s) && |s| > 0 && !LexLess(x.parts, s[0].parts)
    requires SortedVersions(rest) && multiset(rest) == multiset(s[1..]) + multiset{x}
    ensures SortedVersions([s[0]] + rest)
  {
    var r := [s[0]] + rest;
    forall j | 0 < j < |r| ensures !LexLess(r[j].parts, s[0].parts) {
      assert r[j] in multiset(rest);
      if r[j] == x {
      } else {
        assert r[j] in multiset(s[1..]);
        var k :| 0 <= k < |s[1..]| && s[1..][k] == r[j];
        assert s[k + 1] == r[j];
      }
    }
  }

  /** `sorted(versions)`: a stable sort by component list. */
  function SortVersions(s: seq<Version>): (r: seq<Version>)
    ensures SortedVersions(r)
    ensures multiset(r) == multiset(s)
    ensures |r| == |s|
    decreases |s|
  {
    if |s| == 0 then []
    else
      assert s == s[..|s| - 1] + [s[|s| - 1]];
      Insert(s[|s| - 1], SortVersions(s[..|s| - 1]))
  }

  /** The version jump into a release. */
  datatype Jump = Major | Minor | Patch

  /** A version had fewer components than the comparison reads (IndexError),
      or there were no tags at all (IndexError on `versions[0]`). */
  datatype VersionError = MissingComponent(vstring: string) | NoTags

  /** `compare_versions(v1, v2)`: major if the first component grew, else minor
      if the second grew, else patch. */
  function CompareVersions(v1: Version, v2: Version): (r: Result<Jump, VersionError>)
    ensures r.Ok? <==> |v1.parts| >= 1 && |v2.parts| >= 1 && (v2.parts[0] > v1.parts[0] || (|v1.parts| >= 2 && |v2.parts| >= 2))
    ensures r == Ok(Major) <==> |v1.parts| >= 1 && |v2.parts| >= 1 && v2.parts[0] > v1.parts[0]
  {
    if |v2.parts| == 0 then Err(MissingComponent(v2.vstring))
    else if |v1.parts| == 0 then Err(MissingComponent(v1.vstring))
    else if v2.parts[0] > v1.parts[0] then Ok(Major)
    else if |v2.parts| < 2 then Err(MissingComponent(v2.vstring))
    else if |v1.parts| < 2 then Err(MissingComponent(v1.vstring))
    else if v2.parts[1] > v1.parts[1] then Ok(Minor)
    else Ok(Patch)
  }

  /** Between sorted versions with at least two components the jump is decided
      by the first of the two leading components that differs: major, minor,
      or patch when both agree. */
  lemma JumpIsFirstDifference(v1: Version, v2: Version)
    requires |v1.parts| >= 2 && |v2.parts| >= 2 && !LexLess(v2.parts, v1.parts)
    ensures CompareVersions(v1, v2) == Ok(Major) <==> v1.parts[0] != v2.parts[0]
    ensures CompareVersions(v1, v2) == Ok(Minor) <==> v1.parts[0] == v2.parts[0] && v1.parts[1] != v2.parts[1]
    ensures CompareVersions(v1, v2) == Ok(Patch) <==> v1.parts[0] == v2.parts[0] && v1.parts[1] == v2.parts[1]
  {
    var a, b := v1.parts, v2.parts;
    if a[0] == b[0] {
      assert LexLess(b, a) == LexLess(b[1..], a[1..]);
    }
  }

  /** The smallest version is a major release unless its first component is 0. */
  function FirstJump(v: Version): (r: Result<Jump, VersionError>)
    ensures r.Ok? <==> |v.parts| >= 1
    ensures r.Ok? ==> (r.value == Major <==> v.parts[0] > 0) && r.value != Patch
  {
    if |v.parts| == 0 then Err(MissingComponent(v.vstring))
    else if v.parts[0] > 0 then Ok(Major) else Ok(Minor)
  }

  /** The jumps into `sorted[1..]`, each against its predecessor, failing at
      the first comparison that fails. */
  function LaterJumps(sorted: seq<Version>): (r: Result<Items<string, Jump>, VersionError>)
    ensures r.Ok? <==> forall i {:trigger JumpInto(sorted, i)} :: 1 <= i < |sorted| ==> JumpInto(sorted, i).Ok?
    ensures r.Ok? ==> |r.value| == if |sorted| == 0 then 0 else |sorted| - 1
    ensures r.Ok? ==> forall i {:trigger JumpInto(sorted, i)} :: 1 <= i < |sorted| ==>
      r.value[i - 1] == (sorted[i].vstring, JumpInto(sorted, i).value)
    decreases |sorted|
  {
    if |sorted| < 2 then Ok([])
    else
      var n := |sorted| - 1;
      assert forall i {:trigger JumpInto(sorted[..n], i)} :: 1 <= i < n ==> JumpInto(sorted[..n], i) == JumpInto(sorted, i);
      match LaterJumps(sorted[..n])
      case Err(e) => Err(e)
      case Ok(front) =>
        match JumpInto(sorted, n)
        case Err(e) => Err(e)
        case Ok(j) =>
          var r := front + [(sorted[n].vstring, j)];
          assert forall i {:trigger JumpInto(sorted, i)} :: 1 <= i < |sorted| ==>
            JumpInto(sorted, i).Ok? && r[i - 1] == (sorted[i].vstring, JumpInto(sorted, i).value) by {
            forall i | 1 <= i < |sorted|
              ensures JumpInto(sorted, i).Ok? && r[i - 1] == (sorted[i].vstring, JumpInto(sorted, i).value)
            {
              if i < n {
                assert JumpInto(sorted[..n], i) == JumpInto(sorted, i);
              }
            }
          }
          Ok(r)
  }

  /** `get_version_jump_from_tags`: sort the versions, classify the smallest
      by itself and every other against its predecessor, and collect the
      classifications in an ordered dictionary keyed by tag text. With
      distinct tag texts, each sorted version's entry is its own jump. */
  function VersionJumps(tags: seq<Version>): (r: Result<Items<string, Jump>, VersionError>)
    ensures |tags| == 0 ==> r == Err(NoTags)
    ensures (|tags| > 0 && forall v :: v in tags ==> |v.parts| >= 2) ==> r.Ok?
    ensures r.Ok? ==> DistinctKeys(r.value)
    ensures r.Ok? ==> forall v :: v in tags ==> v.vstring in Keys(r.value)
    ensures r.Ok? && DistinctTags(tags) ==> (|r.value| == |tags|
      && forall i :: 0 <= i < |tags| ==> (JumpInto(SortVersions(tags), i).Ok?
          && Lookup(r.value, SortVersions(tags)[i].vstring) == Some(JumpInto(SortVersions(tags), i).value)))
  {
    var sorted := SortVersions(tags);
    if |sorted| == 0 then Err(NoTags)
    else
      assert (forall v :: v in tags ==> |v.parts| >= 2) ==> FirstJump(sorted[0]).Ok? && LaterJumps(sorted).Ok? by {
        if forall v :: v in tags ==> |v.parts| >= 2 {
          JumpsDefined(tags);
        }
      }
      match FirstJump(sorted[0])
      case Err(e) => Err(e)
      case Ok(first) =>
        match LaterJumps(sorted)
        case Err(e) => Err(e)
        case Ok(later) =>
          JumpsDictionary(tags, first, later);
          Ok(Merge([(sorted[0].vstring, first)], FromItems(later)))
  }

  /** Sorting keeps the versions themselves. */
  lemma SortedMembers(tags: seq<Version>)
    ensures forall v :: v in tags <==> v in SortVersions(tags)
  {
    var sorted := SortVersions(tags);
    assert forall v :: v in tags <==> v in multiset(tags);
    assert forall v :: v in sorted <==> v in multiset(sorted);
  }

  /** With two components in every version, every jump can be classified. */
  lemma JumpsDefined(tags: seq<Version>)
    requires |tags| > 0 && forall v :: v in tags ==> |v.parts| >= 2
    ensures FirstJump(SortVersions(tags)[0]).Ok? && LaterJumps(SortVersions(tags)).Ok?
  {
    var sorted := SortVersions(tags);
    SortedMembers(tags);
    assert forall i :: 0 <= i < |sorted| ==> |sorted[i].parts| >= 2 by {
      forall i | 0 <= i < |sorted| ensures |sorted[i].parts| >= 2 {
        assert sorted[i] in sorted;
      }
    }
  }

  /** The dictionary of jumps has every tag text as a key, and with distinct
      tag texts each sorted version's entry is its own jump. */
  lemma JumpsDictionary(tags: seq<Version>, first: Jump, later: Items<string, Jump>)
    requires |tags| > 0 && FirstJump(SortVersions(tags)[0]) == Ok(first) && LaterJumps(SortVersions(tags)) == Ok(later)
    ensures var sorted := SortVersions(tags);
      var r := Merge([(sorted[0].vstring, first)], FromItems(later));
      && (forall v :: v in tags ==> v.vstring in Keys(r))
      && (DistinctTags(tags) ==> (|r| == |tags|
          && forall i :: 0 <= i < |tags| ==> (JumpInto(sorted, i).Ok?
              && Lookup(r, sorted[i].vstring) == Some(JumpInto(sorted, i).value))))
  {
    var sorted := SortVersions(tags);
    var head := [(sorted[0].vstring, first)];
    LaterJumpsShape(sorted, later);
    SortedMembers(tags);
    KeysCover(sorted, first, later);
    if DistinctTags(tags) {
      DistinctTagsPermutation(tags, sorted);
      MergedJumps(sorted, first, later);
    }
  }

  /** What `LaterJumps` promises, as the shape of its dictionary. */
  lemma LaterJumpsShape(sorted: seq<Version>, later: Items<string, Jump>)
    requires |sorted| > 0 && LaterJumps(sorted) == Ok(later)
    ensures LaterJumpsOf(sorted, later)
    ensures forall i :: 1 <= i < |sorted| ==> later[i - 1].0 == sorted[i].vstring
  {
    forall i | 1 <= i < |sorted| ensures later[i - 1].0 == sorted[i].vstring {
      assert later[i - 1] == (sorted[i].vstring, JumpInto(sorted, i).value);
    }
  }

  /** Every sorted version's tag text is a key of the merged dictionary. */
  lemma KeysCover(sorted: seq<Version>, first: Jump, later: Items<string, Jump>)
    requires |sorted| > 0 && |later| == |sorted| - 1
    requires forall i :: 1 <= i < |sorted| ==> later[i - 1].0 == sorted[i].vstring
    ensures forall v :: v in sorted ==> v.vstring in Keys(Merge([(sorted[0].vstring, first)], FromItems(later)))
  {
    var head := [(sorted[0].vstring, first)];
    forall v | v in sorted ensures v.vstring in Keys(head) || v.vstring in Keys(later) {
      var i :| 0 <= i < |sorted| && sorted[i] == v;
      if i > 0 {
        assert Keys(later)[i - 1] == v.vstring;
      } else {
        assert Keys(head)[0] == v.vstring;
      }
    }
  }

  /** No two versions share a tag text. */
  predicate DistinctTags(s: seq<Version>) {
    forall i, j :: 0 <= i < j < |s| ==> s[i].vstring != s[j].vstring
  }

  /** The jump into the `i`-th of the sorted versions. */
  function JumpInto(sorted: seq<Version>, i: nat): Result<Jump, VersionError>
    requires i < |sorted|
  {
    if i == 0 then FirstJump(sorted[0]) else CompareVersions(sorted[i - 1], sorted[i])
  }

  /** The dictionary built from the smallest version's jump and the later
      jumps holds every sorted version's own jump, when tag texts are distinct. */
  lemma MergedJumps(sorted: seq<Version>, first: Jump, later: Items<string, Jump>)
    requires DistinctTags(sorted) && |sorted| > 0 && FirstJump(sorted[0]) == Ok(first)
    requires LaterJumpsOf(sorted, later)
    ensures var r := Merge([(sorted[0].vstring, first)], FromItems(later));
      |r| == |sorted| && forall i :: 0 <= i < |sorted| ==>
        (JumpInto(sorted, i).Ok? && Lookup(r, sorted[i].vstring) == Some(JumpInto(sorted, i).value))
  {
    var head := [(sorted[0].vstring, first)];
    LaterKeys(sorted, later);
    FromItemsDistinct(later);
    MergedLength(head, later);
    forall i | 0 <= i < |sorted|
      ensures JumpInto(sorted, i).Ok? && Lookup(Merge(head, later), sorted[i].vstring) == Some(JumpInto(sorted, i).value)
    {
      MergedJumpAt(sorted, first, later, i);
    }
  }

  /** One sorted version's entry in the merged dictionary. */
  lemma MergedJumpAt(sorted: seq<Version>, first: Jump, later: Items<string, Jump>, i: nat)
    requires |sorted| > 0 && FirstJump(sorted[0]) == Ok(first) && i < |sorted|
    requires LaterJumpsOf(sorted, later) && DistinctKeys(later)
    requires forall a :: 0 <= a < |later| ==> later[a].0 != sorted[0].vstring
    ensures JumpInto(sorted, i).Ok?
    ensures Lookup(Merge([(sorted[0].vstring, first)], later), sorted[i].vstring) == Some(JumpInto(sorted, i).value)
  {
    var k := sorted[i].vstring;
    var head := [(sorted[0].vstring, first)];
    if i == 0 {
      assert k !in Keys(later) by {
        forall a | 0 <= a < |later| ensures Keys(later)[a] != k { }
      }
      assert Lookup(head, k) == Some(first);
    } else {
      assert later[i - 1] == (k, JumpInto(sorted, i).value);
      assert Keys(later)[i - 1] == k;
      LookupDistinct(later, k);
    }
  }

  /** Merging one entry with fresh distinct items gives one entry more than the items. */
  lemma MergedLength(head: Items<string, Jump>, later: Items<string, Jump>)
    requires |head| == 1 && DistinctKeys(later)
    requires forall a :: 0 <= a < |later| ==> later[a].0 != head[0].0
    ensures |Merge(head, later)| == |later| + 1
  {
    assert DistinctKeys(head);
    MergeIsSpec(head, later);
    forall a | 0 <= a < |later| ensures later[a].0 !in Keys(head) {
      assert Keys(head) == [head[0].0];
    }
    NewItemsAllFresh(head, later);
  }

  /** `later` holds, for every version after the first, its tag text and its jump. */
  predicate LaterJumpsOf(sorted: seq<Version>, later: Items<string, Jump>) {
    && |sorted| > 0 && |later| == |sorted| - 1
    && forall i {:trigger JumpInto(sorted, i)} :: 1 <= i < |sorted| ==> (JumpInto(sorted, i).Ok?
         && later[i - 1] == (sorted[i].vstring, JumpInto(sorted, i).value))
  }

  /** With distinct tag texts the later jumps have distinct keys, none of them the first tag. */
  lemma LaterKeys(sorted: seq<Version>, later: Items<string, Jump>)
    requires DistinctTags(sorted) && LaterJumpsOf(sorted, later)
    ensures DistinctKeys(later)
    ensures forall a :: 0 <= a < |later| ==> later[a].0 != sorted[0].vstring
  {
    forall a, b | 0 <= a < b < |later| ensures later[a].0 != later[b].0 {
      assert later[a] == (sorted[a + 1].vstring, JumpInto(sorted, a + 1).value);
      assert later[b] == (sorted[b + 1].vstring, JumpInto(sorted, b + 1).value);
    }
    forall a | 0 <= a < |later| ensures later[a].0 != sorted[0].vstring {
      assert later[a] == (sorted[a + 1].vstring, JumpInto(sorted, a + 1).value);
    }
  }

  /** Reordering versions keeps their tag texts distinct. */
  lemma DistinctTagsPermutation(a: seq<Version>, b: seq<Version>)
    requires multiset(a) == multiset(b) && DistinctTags(a)
    ensures DistinctTags(b)
  {
    forall i, j | 0 <= i < j < |b| ensures b[i].vstring != b[j].vstring {
      if b[i] == b[j] {
        MultisetTwice(b, i, j);
        var x, y := TwoIndices(a, b[i]);
      } else {
        assert b[i] in multiset(a) && b[j] in multiset(a);
      }
    }
  }

  /** An element at two positions occurs at least twice in the multiset. */
  lemma MultisetTwice<T>(s: seq<T>, i: nat, j: nat)
    requires i < j < |s| && s[i] == s[j]
    ensures multiset(s)[s[i]] >= 2
  {
    assert s == s[..j] + [s[j]] + s[j + 1..];
    assert s[..j][i] == s[i];
    assert s[i] in multiset(s[..j]);
  }

  /** An element that occurs at least twice sits at two positions. */
  lemma {:induction false} TwoIndices<T>(s: seq<T>, x: T) returns (i: nat, j: nat)
    requires multiset(s)[x] >= 2
    ensures i < j < |s| && s[i] == x && s[j] == x
    decreases |s|
  {
    var n := |s| - 1;
    assert s == s[..n] + [s[n]];
    if s[n] == x {
      assert x in multiset(s[..n]);
      i :| 0 <= i < n && s[..n][i] == x;
      j := n;
    } else {
      i, j := TwoIndices(s[..n], x);
    }
  }

  /** Counts of `x` among the first jumps: the number of earlier minor or
      patch releases decides the next level. */
  function Count(kinds: seq<Jump>, x: Jump): (c: nat)
    ensures c <= |kinds|
    decreases |kinds|
  {
    if |kinds| == 0 then 0
    else Count(kinds[..|kinds| - 1], x) + (if kinds[|kinds| - 1] == x then 1 else 0)
  }

  /** The level of the `i`-th release, in closed form: 5 for a major release,
      2 and 1 alternating over the minor releases, and -5 up to -1 cycling over
      the patch releases. */
  function LevelAt(kinds: seq<Jump>, i: nat): int
    requires i < |kinds|
  {
    match kinds[i]
    case Major => 5
    case Minor => if Count(kinds[..i], Minor) % 2 == 0 then 2 else 1
    case Patch => -5 + Count(kinds[..i], Patch) % 5
  }

  /** The level loop of `plot_release_timeline` over the jump of every name. */
  method Levels(kinds: seq<Jump>) returns (levels: seq<int>)
    ensures |levels| == |kinds|
    ensures forall i :: 0 <= i < |kinds| ==> levels[i] == LevelAt(kinds, i)
    ensures forall i :: 0 <= i < |kinds| ==> (levels[i] != 0
      && (kinds[i] == Major <==> levels[i] > 3)
      && (kinds[i] == Minor <==> 0 < levels[i] < 3)
      && (kinds[i] == Patch <==> levels[i] < 0))
  {
    levels := [];
    var currMajor, currMinor, currPatch := 5, 2, -5;
    for k := 0 to |kinds|
      invariant |levels| == k
      invariant forall i :: 0 <= i < k ==> levels[i] == LevelAt(kinds, i)
      invariant currMinor == if Count(kinds[..k], Minor) % 2 == 0 then 2 else 1
      invariant currPatch == -5 + Count(kinds[..k], Patch) % 5
    {
      CountStep(kinds, k, Minor);
      CountStep(kinds, k, Patch);
      match kinds[k]
      case Major =>
        levels := levels + [currMajor];
      case Minor =>
        levels := levels + [currMinor];
        currMinor := if currMinor < 2 then 2 else 1;
      case Patch =>
        levels := levels + [currPatch];
        currPatch := currPatch + 1;
        if currPatch > -1 {
          currPatch := -5;
        }
    }
    assert kinds[..|kinds|] == kinds;
    forall i | 0 <= i < |kinds| {
      LevelBands(kinds, i);
    }
  }

  /** Counting one more release adds one when it is of the kind counted. */
  lemma CountStep(kinds: seq<Jump>, k: nat, x: Jump)
    requires k < |kinds|
    ensures Count(kinds[..k + 1], x) == Count(kinds[..k], x) + (if kinds[k] == x then 1 else 0)
  {
    assert kinds[..k + 1][..k] == kinds[..k];
  }

  /** Major levels lie above 3, minor ones in 1..2, patch ones below 0. */
  lemma LevelBands(kinds: seq<Jump>, i: nat)
    requires i < |kinds|
    ensures var level := LevelAt(kinds, i);
      && level != 0
      && (kinds[i] == Major <==> level > 3)
      && (kinds[i] == Minor <==> 0 < level < 3)
      && (kinds[i] == Patch <==> level < 0)
  {
  }

  /** The fallback pattern of stem levels. */
  const FallbackPattern: seq<int> := [-5, 5, -3, 3, -1, 1]

  /** `np.tile(FallbackPattern, m)`: `m` copies of the pattern one after the other. */
  function Tile(m: nat): (r: seq<int>)
    ensures |r| == 6 * m
    ensures forall i :: 0 <= i < |r| ==> r[i] == FallbackPattern[i % 6]
  {
    if m == 0 then []
    else
      var front := Tile(m - 1);
      assert forall i :: |front| <= i < |front| + 6 ==> i % 6 == i - |front|;
      front + FallbackPattern
  }

  /** The levels when version jumps cannot be computed: the pattern tiled
      `ceil(count / 6)` times and cut to `count` entries. */
  function FallbackLevels(count: nat): (r: seq<int>)
    ensures |r| == count
    ensures forall i :: 0 <= i < count ==> r[i] == FallbackPattern[i % 6]
    ensures forall i :: 0 <= i < count ==> r[i] != 0 && (r[i] > 0 <==> i % 2 == 1)
  {
    PatternParity();
    Tile((count + 5) / 6)[..count]
  }

  /** The pattern alternates sign, negative at even positions. */
  lemma PatternParity()
    ensures forall i: nat :: FallbackPattern[i % 6] != 0 && (FallbackPattern[i % 6] > 0 <==> i % 2 == 1)
  {
    forall i: nat ensures FallbackPattern[i % 6] != 0 && (FallbackPattern[i % 6] > 0 <==> i % 2 == 1) {
      SameParity(i);
    }
  }

  /** Six is even, so an index and its position in the pattern share their parity. */
  lemma SameParity(i: nat)
    ensures i % 2 == (i % 6) % 2
  {
    var q := i / 6;
    assert i == 2 * (3 * q) + i % 6;
  }

  /** `version_jumps[n]` for every name, in order; `None` marks the first
      name missing from the dictionary (KeyError). */
  function JumpsOfNames(names: seq<string>, jumps: Items<string, Jump>): (r: Option<seq<Jump>>)
    ensures r.Some? <==> forall i :: 0 <= i < |names| ==> names[i] in Keys(jumps)
    ensures r.Some? ==> (|r.value| == |names|
      && forall i :: 0 <= i < |names| ==> Lookup(jumps, names[i]) == Some(r.value[i]))
  {
    if forall i :: 0 <= i < |names| ==> names[i] in Keys(jumps) then
      Some(seq(|names|, i requires 0 <= i < |names| => Lookup(jumps, names[i]).value))
    else None
  }

  /** `LooseVersion(name)` for every name; `parse` stands for the component parser. */
  function Tags(names: seq<string>, parse: string -> seq<nat>): (tags: seq<Version>)
    ensures |tags| == |names| && forall i :: 0 <= i < |names| ==> tags[i] == Version(names[i], parse(names[i]))
  {
    seq(|names|, i requires 0 <= i < |names| => Version(names[i], parse(names[i])))
  }

  /** The level block of `plot_release_timeline`: the levels by version jump
      when those can be computed, else the fallback levels for `dayCount`
      release dates. `byJumps` tells which. */
  method PlotLevels(names: seq<string>, dayCount: nat, parse: string -> seq<nat>)
    returns (levels: seq<int>, byJumps: bool)
    ensures byJumps <==> VersionJumps(Tags(names, parse)).Ok?
    ensures byJumps ==> |levels| == |names| && forall i :: 0 <= i < |names| ==>
      levels[i] == LevelAt(JumpsOfNames(names, VersionJumps(Tags(names, parse)).value).value, i)
    ensures !byJumps ==> levels == FallbackLevels(dayCount)
    ensures forall i :: 0 <= i < |levels| ==> levels[i] != 0
  {
    var tags := Tags(names, parse);
    match VersionJumps(tags)
    case Err(_) =>
      levels, byJumps := FallbackLevels(dayCount), false;
    case Ok(jumps) =>
      forall i | 0 <= i < |names| ensures names[i] in Keys(jumps) {
        assert tags[i] in tags;
      }
      var kinds := JumpsOfNames(names, jumps).value;
      levels := Levels(kinds);
      byJumps := true;
  }
}

=== FILE: results.dfy ===
/**
 * Option and Result datatypes used throughout the model for the source's
 * `None` values and raised exceptions.
 */
module Results {

  /** A value that may be absent (Python's `None`). */
  datatype Option<+T> = None | Some(value: T)

  /** Either a computed value or the error the source would raise instead. */
  datatype Result<+T, +E> = Ok(value: T) | Err(error: E)

  /** `f` applied to every element in order: all the values, or the first
      failure. */
  function MapAll<T, U, E>(xs: seq<T>, f: T -> Result<U, E>): (r: Result<seq<U>, E>)
    ensures r.Ok? <==> forall j :: 0 <= j < |xs| ==> f(xs[j]).Ok?
    ensures r.Ok? ==> |r.value| == |xs| && forall j :: 0 <= j < |xs| ==> f(xs[j]) == Ok(r.value[j])
    ensures r.Err? ==> exists j :: 0 <= j < |xs| && f(xs[j]) == Err(r.error) && forall i :: 0 <= i < j ==> f(xs[i]).Ok?
    decreases |xs|
  {
    if |xs| == 0 then Ok([])
    else
      assert forall j :: 1 <= j < |xs| ==> xs[1..][j - 1] == xs[j];
      match f(xs[0])
      case Err(e) => Err(e)
      case Ok(y) =>
        match MapAll(xs[1..], f)
        case Err(e) => Err(e)
        case Ok(ys) => Ok([y] + ys)
  }
}

=== FILE: strings.dfy ===
/**
 * The few pieces of Python's `str` behaviour the analytics rely on:
 * substring search, `split`/`join` with an explicit separator, `lstrip` of
 * one character, clamped slicing, and `int(x, 16)`.
 */
module Strings {
  import opened Results

  /** `sep` occurs in `s` starting at index `i`. */
  predicate OccursAt(s: string, sep: string, i: nat) {
    i + |sep| <= |s| && s[i..i + |sep|] == sep
  }

  /** `sep in s`. */
  predicate Contains(s: string, sep: string) {
    exists i :: 0 <= i <= |s| && OccursAt(s, sep, i)
  }

  /** `s.find(sep, from)`: the first occurrence of `sep` at or after `from`. */
  function FindFrom(s: string, sep: string, from: nat): (r: Option<nat>)
    ensures r.Some? ==> from <= r.value && OccursAt(s, sep, r.value)
    ensures r.Some? ==> forall i: nat :: from <= i < r.value ==> !OccursAt(s, sep, i)
    ensures r.None? ==> forall i: nat :: from <= i ==> !OccursAt(s, sep, i)
    decreases |s| - from
  {
    if from + |sep| > |s| then None
    else if s[from..from + |sep|] == sep then Some(from)
    else FindFrom(s, sep, from + 1)
  }

  /** `s.find(sep)`, with `None` for -1. */
  function Find(s: string, sep: string): (r: Option<nat>)
    ensures r.Some? <==> Contains(s, sep)
    ensures r.Some? ==> OccursAt(s, sep, r.value) && forall i: nat :: i < r.value ==> !OccursAt(s, sep, i)
  {
    FindFrom(s, sep, 0)
  }

  /** `sep.join(pieces)`. */
  function Join(pieces: seq<string>, sep: string): string
    decreases |pieces|
  {
    if |pieces| == 0 then ""
    else if |pieces| == 1 then pieces[0]
    else pieces[0] + sep + Join(pieces[1..], sep)
  }

  /** `s.split(sep)` for a non-empty separator: the pieces between the
      leftmost non-overlapping occurrences of `sep`. */
  function Split(s: string, sep: string): (r: seq<string>)
    requires |sep| > 0
    ensures |r| >= 1
    ensures forall k :: 0 <= k < |r| ==> !Contains(r[k], sep)
    ensures Contains(s, sep) <==> |r| > 1
    ensures r[0] == s[..FirstPieceEnd(s, sep)]
    decreases |s|
  {
    match Find(s, sep)
    case None => [s]
    case Some(i) =>
      NoOccurrenceInPrefix(s, sep, i);
      [s[..i]] + Split(s[i + |sep|..], sep)
  }

  /** The end of the first piece of a split: the first occurrence, or the end. */
  function FirstPieceEnd(s: string, sep: string): (e: nat)
    ensures e <= |s|
  {
    match Find(s, sep)
    case None => |s|
    case Some(i) => i
  }

  /** An occurrence in a suffix is an occurrence in the whole string. */
  lemma OccursInSuffix(s: string, sep: string, k: nat, e: nat)
    requires k <= |s| && OccursAt(s[k..], sep, e)
    ensures OccursAt(s, sep, k + e)
  {
    assert s[k..][e..e + |sep|] == s[k + e..k + e + |sep|];
  }

  /** A prefix that ends before the first occurrence of `sep` contains no `sep`. */
  lemma NoOccurrenceInPrefix(s: string, sep: string, i: nat)
    requires |sep| > 0 && i <= |s| && forall j: nat :: j < i ==> !OccursAt(s, sep, j)
    ensures !Contains(s[..i], sep)
  {
    if Contains(s[..i], sep) {
      var j :| 0 <= j <= i && OccursAt(s[..i], sep, j);
      assert s[..i][j..j + |sep|] == s[j..j + |sep|];
      assert OccursAt(s, sep, j);
    }
  }

  /** Splitting and joining again gives back the string. */
  lemma {:induction false} JoinSplit(s: string, sep: string)
    requires |sep| > 0
    ensures Join(Split(s, sep), sep) == s
    decreases |s|
  {
    match Find(s, sep)
    case None =>
    case Some(i) =>
      var rest := s[i + |sep|..];
      JoinSplit(rest, sep);
      var tail := Split(rest, sep);
      assert Split(s, sep) == [s[..i]] + tail;
      assert s == s[..i] + sep + rest;
  }

  /** Joining pieces that hold no separator and splitting again gives back the
      pieces, for a one-character separator (the ones `IssueLabel` uses). */
  lemma {:induction false} SplitJoin(pieces: seq<string>, c: char)
    requires |pieces| >= 1 && forall k :: 0 <= k < |pieces| ==> c !in pieces[k]
    ensures Split(Join(pieces, [c]), [c]) == pieces
    decreases |pieces|
  {
    var s := Join(pieces, [c]);
    if |pieces| == 1 {
      assert !Contains(s, [c]) by { CharFree(s, c); }
    } else {
      var p := pieces[0];
      var rest := Join(pieces[1..], [c]);
      assert s == p + [c] + rest;
      assert OccursAt(s, [c], |p|) by { assert s[|p|] == c; }
      forall j: nat | j < |p| ensures !OccursAt(s, [c], j) {
        assert s[j] == p[j];
      }
      assert Find(s, [c]) == Some(|p|);
      assert s[..|p|] == p;
      assert s[|p| + 1..] == rest;
      SplitJoin(pieces[1..], c);
    }
  }

  /** A string without the character has no one-character occurrence of it. */
  lemma CharFree(s: string, c: char)
    requires c !in s
    ensures !Contains(s, [c])
  {
    if Contains(s, [c]) {
      var j :| 0 <= j <= |s| && OccursAt(s, [c], j);
      OccurrenceHasChar(s, c, j);
    }
  }

  lemma OccurrenceHasChar(s: string, c: char, j: nat)
    requires OccursAt(s, [c], j)
    ensures c in s
  {
    assert s[j] == s[j..j + 1][0];
  }

  /** `s.lstrip(c)`: `s` without its leading run of `c`. */
  function LStrip(s: string, c: char): (r: string)
    ensures |r| <= |s| && r == s[|s| - |r|..]
    ensures forall i :: 0 <= i < |s| - |r| ==> s[i] == c
    ensures |r| > 0 ==> r[0] != c
    decreases |s|
  {
    if |s| > 0 && s[0] == c then LStrip(s[1..], c) else s
  }

  /** `s[i:j]` for non-negative bounds: Python clamps both to the length. */
  function Slice(s: string, i: nat, j: nat): (r: string)
    ensures |r| <= 2 || j > i + 2
    ensures |r| > 0 ==> i + |r| <= |s| && r == s[i..i + |r|]
    ensures |r| == if j <= i || i >= |s| then 0 else (if j <= |s| then j - i else |s| - i)
  {
    var hi := if j <= |s| then j else |s|;
    if i >= hi then "" else s[i..hi]
  }

  /** The characters Python's `int()` strips around a number. */
  predicate IsSpace(ch: char) {
    var n := ch as int;
    || (0x09 <= n <= 0x0D) || n == 0x20 || n == 0x85 || n == 0xA0 || n == 0x1680
    || (0x2000 <= n <= 0x200A) || n == 0x2028 || n == 0x2029 || n == 0x202F || n == 0x205F || n == 0x3000
  }

  /** The number of runs of ten non-ASCII decimal digits in Unicode 13.0,
      the digit data of Python 3.9 and 3.10. */
  const DecimalRuns: nat := 64

  /** The zero of the `i`-th run of ten non-ASCII decimal digits of Unicode
      13.0, in increasing order. */
  function Zero(i: nat): int
    requires i < DecimalRuns
  {
    if i == 0 then 0x660 else if i == 1 then 0x6F0 else if i == 2 then 0x7C0 else if i == 3 then 0x966 else
    if i == 4 then 0x9E6 else if i == 5 then 0xA66 else if i == 6 then 0xAE6 else if i == 7 then 0xB66 else
    if i == 8 then 0xBE6 else if i == 9 then 0xC66 else if i == 10 then 0xCE6 else if i == 11 then 0xD66 else
    if i == 12 then 0xDE6 else if i == 13 then 0xE50 else if i == 14 then 0xED0 else if i == 15 then 0xF20 else
    if i == 16 then 0x1040 else if i == 17 then 0x1090 else if i == 18 then 0x17E0 else if i == 19 then 0x1810 else
    if i == 20 then 0x1946 else if i == 21 then 0x19D0 else if i == 22 then 0x1A80 else if i == 23 then 0x1A90 else
    if i == 24 then 0x1B50 else if i == 25 then 0x1BB0 else if i == 26 then 0x1C40 else if i == 27 then 0x1C50 else
    if i == 28 then 0xA620 else if i == 29 then 0xA8D0 else if i == 30 then 0xA900 else if i == 31 then 0xA9D0 else
    if i == 32 then 0xA9F0 else if i == 33 then 0xAA50 else if i == 34 then 0xABF0 else if i == 35 then 0xFF10 else
    if i == 36 then 0x104A0 else if i == 37 then 0x10D30 else if i == 38 then 0x11066 else if i == 39 then 0x110F0 else
    if i == 40 then 0x11136 else if i == 41 then 0x111D0 else if i == 42 then 0x112F0 else if i == 43 then 0x11450 else
    if i == 44 then 0x114D0 else if i == 45 then 0x11650 else if i == 46 then 0x116C0 else if i == 47 then 0x11730 else
    if i == 48 then 0x118E0 else if i == 49 then 0x11950 else if i == 50 then 0x11C50 else if i == 51 then 0x11D50 else
    if i == 52 then 0x11DA0 else if i == 53 then 0x16A60 else if i == 54 then 0x16B50 else if i == 55 then 0x1D7CE else
    if i == 56 then 0x1D7D8 else if i == 57 then 0x1D7E2 else if i == 58 then 0x1D7EC else if i == 59 then 0x1D7F6 else
    if i == 60 then 0x1E140 else if i == 61 then 0x1E2F0 else if i == 62 then 0x1E950 else if i == 63 then 0x1FBF0 else
    -1
  }

  /** The zero of the run, from the `i`-th on, that holds code point `n`, and
      -1 when there is none. */
  function ZeroFrom(n: int, i: nat): (z: int)
    requires i <= DecimalRuns
    ensures z == -1 || z <= n < z + 10
    decreases DecimalRuns - i
  {
    if i == DecimalRuns || n < Zero(i) then -1
    else if n < Zero(i) + 10 then Zero(i)
    else ZeroFrom(n, i + 1)
  }

  /** The value of a decimal digit of any script, as `int()` reads it. */
  function DecimalValue(ch: char): (r: Option<nat>)
    ensures r.Some? ==> r.value < 10
  {
    var n := ch as int;
    if '0' <= ch <= '9' then Some(n - '0' as int)
    else if n < Zero(0) then None
    else
      var z := ZeroFrom(n, 0);
      if z < 0 then None else Some(n - z)
  }

  /** The value of a hexadecimal digit: a decimal digit of any script, or an
      ASCII letter from a to f in either case. No whitespace character is a
      digit; the first test says so outright. */
  function HexValue(ch: char): (r: Option<nat>)
    ensures r.Some? ==> r.value < 16
  {
    if IsSpace(ch) then None
    else if 'a' <= ch <= 'f' then Some(ch as nat - 'a' as nat + 10)
    else if 'A' <= ch <= 'F' then Some(ch as nat - 'A' as nat + 10)
    else DecimalValue(ch)
  }

  predicate AllHexDigits(s: string) {
    forall i :: 0 <= i < |s| ==> HexValue(s[i]).Some?
  }

  /** The value of a string of hexadecimal digits, most significant first. */
  function HexDigitsValue(s: string): (v: nat)
    requires AllHexDigits(s)
    ensures v < Pow16(|s|)
    decreases |s|
  {
    if |s| == 0 then 0
    else
      var last := HexValue(s[|s| - 1]).value;
      assert AllHexDigits(s[..|s| - 1]);
      HexDigitsValue(s[..|s| - 1]) * 16 + last
  }

  function Pow16(n: nat): (p: nat)
    ensures p > 0
  {
    if n == 0 then 1 else 16 * Pow16(n - 1)
  }

  /** `s` without leading and trailing whitespace. */
  function Trim(s: string): (r: string)
    ensures |r| == 0 || (!IsSpace(r[0]) && !IsSpace(r[|r| - 1]))
    decreases |s|
  {
    if |s| > 0 && IsSpace(s[0]) then Trim(s[1..])
    else if |s| > 0 && IsSpace(s[|s| - 1]) then Trim(s[..|s| - 1])
    else s
  }

  /** The digits after a sign: a "0x" or "0X" prefix (its zero in any script),
      and one underscore right after it, are skipped. */
  function DropPrefix(u: string): (b: string)
    ensures |b| <= |u|
  {
    if |u| >= 2 && DecimalValue(u[0]) == Some(0) && (u[1] == 'x' || u[1] == 'X') then
      if |u| >= 3 && u[2] == '_' then u[3..] else u[2..]
    else u
  }

  /** Hexadecimal digits, with single underscores between digits. */
  predicate Grouped(b: string) {
    && |b| > 0 && HexValue(b[0]).Some? && HexValue(b[|b| - 1]).Some?
    && (forall i :: 0 <= i < |b| ==> HexValue(b[i]).Some? || b[i] == '_')
    && (forall i :: 0 < i < |b| && b[i - 1] == '_' ==> HexValue(b[i]).Some?)
  }

  /** The digits of a grouped string, underscores removed. */
  function Digits(b: string): (d: string)
    ensures |d| <= |b|
    decreases |b|
  {
    if |b| == 0 then ""
    else if b[0] == '_' then Digits(b[1..])
    else [b[0]] + Digits(b[1..])
  }

  /** Removing the underscores of digits and underscores leaves digits only. */
  lemma {:induction false} DigitsAreHex(b: string)
    requires forall i :: 0 <= i < |b| ==> HexValue(b[i]).Some? || b[i] == '_'
    ensures AllHexDigits(Digits(b))
    decreases |b|
  {
    if |b| > 0 {
      DigitsAreHex(b[1..]);
    }
  }

  /** A grouped string's digits are hexadecimal digits. */
  lemma GroupedDigits(b: string)
    requires Grouped(b)
    ensures AllHexDigits(Digits(b))
  {
    DigitsAreHex(b);
  }

  /** A string of digits has no underscore to remove. */
  lemma {:induction false} DigitsOfHex(b: string)
    requires AllHexDigits(b)
    ensures Digits(b) == b
    decreases |b|
  {
    if |b| > 0 {
      assert b[0] != '_';
      DigitsOfHex(b[1..]);
      assert b == [b[0]] + b[1..];
    }
  }

  /** `int(u, 16)` once whitespace and sign are gone: an optional prefix, then
      grouped hexadecimal digits. */
  function Unsigned(u: string): (r: Option<nat>)
    ensures AllHexDigits(u) && |u| > 0 ==> r == Some(HexDigitsValue(u))
    ensures r.Some? && |u| <= 1 ==> r.value < 16
    ensures r.Some? && |u| <= 2 ==> r.value < 256
  {
    var body := DropPrefix(u);
    if Grouped(body) then
      GroupedDigits(body);
      DigitsNeedNoPrefix(u);
      Some(HexDigitsValue(Digits(body)))
    else None
  }

  /** A string of digits has no prefix and no underscore. */
  lemma DigitsNeedNoPrefix(u: string)
    ensures AllHexDigits(u) && |u| > 0 ==> DropPrefix(u) == u && Grouped(u) && Digits(u) == u
  {
    if AllHexDigits(u) && |u| > 0 {
      if |u| >= 2 {
        assert HexValue(u[1]).Some?;
      }
      DigitsOfHex(u);
    }
  }

  /** `int(s, 16)`: surrounding whitespace, an optional sign, then an unsigned
      number; anything else raises ValueError (`None`). A string of at most two
      characters has no room for a prefix or an underscore, so its value lies
      in -15..255. */
  function ParseHex(s: string): (r: Option<int>)
    ensures AllHexDigits(s) && |s| > 0 ==> r == Some(HexDigitsValue(s))
    ensures r.Some? && |s| <= 2 ==> -15 <= r.value < 256
  {
    var t := Trim(s);
    TrimShorter(s);
    TrimNoSpaceDigits(s);
    if |t| > 0 && (t[0] == '+' || t[0] == '-') then
      match Unsigned(t[1..])
      case None => None
      case Some(v) => Some(if t[0] == '-' then -(v as int) else v as int)
    else Unsigned(t)
  }

  lemma TrimShorter(s: string)
    ensures |Trim(s)| <= |s|
    decreases |s|
  {
  }

  /** Hexadecimal digits are not whitespace, so trimming leaves them alone. */
  lemma TrimNoSpaceDigits(s: string)
    ensures AllHexDigits(s) && |s| > 0 ==> Trim(s) == s
  {
    if AllHexDigits(s) && |s| > 0 {
      DigitNotSpace(s[0]);
      DigitNotSpace(s[|s| - 1]);
    }
  }

  /** No digit of any script is whitespace. */
  lemma DigitNotSpace(ch: char)
    requires HexValue(ch).Some?
    ensures !IsSpace(ch)
  {
  }

  /** "٣٣" (two Arabic-Indic threes) is 0x33 = 51. */
  lemma ParseHexOtherScript()
    ensures ParseHex("\U{663}\U{663}") == Some(51)
  {
    assert Trim("\U{663}\U{663}") == "\U{663}\U{663}";
    DigitsOfHex("\U{663}\U{663}");
  }

  /** A prefix is skipped: "0xff" is 255. */
  lemma ParseHexPrefix()
    ensures ParseHex("0xff") == Some(255)
  {
    assert Trim("0xff") == "0xff";
    assert DropPrefix("0xff") == "ff";
    DigitsOfHex("ff");
  }

  /** The prefix's zero may be a zero of any script: "٠xff" is 255. */
  lemma ParseHexOtherScriptPrefix()
    ensures ParseHex("\U{660}xff") == Some(255)
  {
    assert Trim("\U{660}xff") == "\U{660}xff";
    assert DropPrefix("\U{660}xff") == "ff";
    DigitsOfHex("ff");
  }

  /** A single underscore between digits is dropped: "f_f" is 255. */
  lemma ParseHexUnderscore()
    ensures ParseHex("f_f") == Some(255)
  {
    assert Trim("f_f") == "f_f";
    assert DropPrefix("f_f") == "f_f";
    assert HexValue('f') == Some(15) && HexValue('_').None?;
    assert Grouped("f_f");
    assert Digits("f_f") == "ff";
    assert "ff"[..1] == "f";
    assert HexDigitsValue("ff") == 255;
    assert Unsigned("f_f") == Some(255);
  }

  /** Whitespace, sign, prefix and the underscore after it: " -0x_f " is -15. */
  lemma ParseHexSignedPrefix()
    ensures ParseHex(" -0x_f ") == Some(-15)
  {
    assert Trim("-0x_f") == "-0x_f";
    assert Trim(" -0x_f ") == "-0x_f" by {
      assert " -0x_f "[1..] == "-0x_f ";
      assert "-0x_f "[..5] == "-0x_f";
    }
    assert "-0x_f"[1..] == "0x_f";
    assert DropPrefix("0x_f") == "f";
    DigitsOfHex("f");
    assert Unsigned("0x_f") == Some(15);
  }

  /** Doubled underscores raise: "f__f". */
  lemma ParseHexDoubleUnderscore()
    ensures ParseHex("f__f").None?
  {
    assert Trim("f__f") == "f__f";
    assert DropPrefix("f__f") == "f__f";
    assert HexValue('_').None?;
    assert "f__f"[1] == '_' && "f__f"[2] == '_';
  }

  /** A trailing underscore raises: "f_". */
  lemma ParseHexTrailingUnderscore()
    ensures ParseHex("f_").None?
  {
    assert Trim("f_") == "f_";
    assert DropPrefix("f_") == "f_";
    assert "f_"[1] == '_';
  }

  /** A prefix without digits raises: "0x". */
  lemma ParseHexBarePrefix()
    ensures ParseHex("0x").None?
  {
    assert Trim("0x") == "0x";
    assert DropPrefix("0x") == "";
  }

  /** Digits added after Unicode 13.0 are no digits here: two Kawi threes
      (added in Unicode 15.0) raise. */
  lemma ParseHexKawiNotDigit()
    ensures ParseHex("\U{11F53}\U{11F53}").None?
  {
    NoRunHolds(0x11F53, 0, 53);
    assert HexValue('\U{11F53}').None?;
    assert Trim("\U{11F53}\U{11F53}") == "\U{11F53}\U{11F53}";
    assert DropPrefix("\U{11F53}\U{11F53}") == "\U{11F53}\U{11F53}";
  }

  /** Runs that end at or before `n` are skipped by the search. */
  lemma {:induction false} SkipRuns(n: int, i: nat, j: nat)
    requires i <= j <= DecimalRuns
    requires forall k :: i <= k < j ==> Zero(k) + 10 <= n
    ensures ZeroFrom(n, i) == ZeroFrom(n, j)
    decreases j - i
  {
    if i < j {
      SkipRuns(n, i + 1, j);
    }
  }

  /** A code point after the end of the first `j` runs and before the next is in no run. */
  lemma NoRunHolds(n: int, i: nat, j: nat)
    requires i <= j < DecimalRuns
    requires forall k :: i <= k < j ==> Zero(k) + 10 <= n
    requires n < Zero(j)
    ensures ZeroFrom(n, i) == -1
  {
    SkipRuns(n, i, j);
  }
}

=== FILE: summary_stats.dfy ===
/**
 * `GitCodeStats.compute_summary_stats`: the SUM rows of every repository's
 * cloc snapshots are resampled onto one shared date range and assembled into
 * five date-by-repository tables (sizes, blanks, codes, comments, nfiles).
 *
 * The aligner is modelled as written (`AlignRepo`), including its pre-history
 * search, and proved against the reference "value at d = SUM row of the newest
 * snapshot dated on or before d, else zeros" (`Latest`) under the conditions in
 * which it meets it. `AlignRepoFixed` and `ComputeSummaryStatsFixed` are the
 * corrected versions that meet the reference without the start condition.
 */
module SummaryStats {
  import opened Results
  import opened Timeline
  import opened Cloc

  /** The exceptions `compute_summary_stats` can raise. */
  datatype StatsError =
    | NotInitialized            // AssertionError: commit_stats or cloc_stats is None
    | MissingSum                // KeyError: a snapshot whose report has no "SUM" row
    | EmptyRange                // IndexError: date_range[0] of an empty date range
    | EmptyHistory              // IndexError: curr_dates[0] of a repository without snapshots
    | MissingColumn(repo: string)  // KeyError: a repository that has no column

  /** The SUM rows of one repository, oldest first. */
  type SumSeries = seq<Snapshot<Counts>>

  /** The "sizes" metric: every SUM entry except the file count. */
  function Size(c: Counts): nat {
    c.blank + c.code + c.comment
  }

  /** The five table categories. */
  datatype Category = Sizes | Blanks | Codes | Comments | NFiles

  function Metric(cat: Category, c: Counts): nat {
    match cat
    case Sizes => Size(c)
    case Blanks => c.blank
    case Codes => c.code
    case Comments => c.comment
    case NFiles => c.nFiles
  }

  /** The SUM rows of a newest-first snapshot list, reversed to oldest first;
      fails like `cloc_entry['cloc']['SUM']['blank']` when some report has no SUM
      row of counts. */
  function SumTimeline(v: seq<ClocEntry>): (r: Result<SumSeries, StatsError>)
    ensures r.Ok? <==> forall i :: 0 <= i < |v| ==> HasLines(v[i].cloc, SumKey)
    ensures r.Err? ==> r.error == MissingSum
    ensures r.Ok? ==> |r.value| == |v|
    ensures r.Ok? ==> forall i :: 0 <= i < |v| ==>
      r.value[|v| - 1 - i] == Snapshot(v[i].day, v[i].cloc[SumKey].counts)
    decreases |v|
  {
    if |v| == 0 then Ok([])
    else if !HasLines(v[0].cloc, SumKey) then Err(MissingSum)
    else
      match SumTimeline(v[1..])
      case Err(e) => Err(e)
      case Ok(rest) => Ok(rest + [Snapshot(v[0].day, v[0].cloc[SumKey].counts)])
  }

  /** The aligner's update: a matched snapshot's SUM row replaces the current values. */
  function Overwrite(cur: Counts, row: Counts): Counts {
    row
  }

  /** Reference: the SUM row of the newest snapshot dated on or before `d`, else zeros. */
  function Latest(s: SumSeries, d: int): Counts {
    Replay(s, Overwrite, Zero, d)
  }

  /** `Latest` is zeros when every snapshot is dated later than `d`. */
  lemma {:induction false} LatestBeforeAll(s: SumSeries, d: int)
    requires forall i :: 0 <= i < |s| ==> s[i].day > d
    ensures Latest(s, d) == Zero
    decreases |s|
  {
    if |s| > 0 {
      var p := s[..|s| - 1];
      assert forall i :: 0 <= i < |p| ==> p[i] == s[i];
      LatestBeforeAll(p, d);
    }
  }

  /** `Latest` is the SUM row of snapshot `i` when it is dated on or before `d`
      and every later snapshot in the list is dated after `d`. */
  lemma {:induction false} LatestIsNewest(s: SumSeries, d: int, i: nat)
    requires i < |s| && s[i].day <= d
    requires forall j :: i < j < |s| ==> s[j].day > d
    ensures Latest(s, d) == s[i].payload
    decreases |s|
  {
    if i < |s| - 1 {
      var p := s[..|s| - 1];
      assert forall j :: 0 <= j < |p| ==> p[j] == s[j];
      assert s[|s| - 1].day > d;
      LatestIsNewest(p, d, i);
    }
  }

  /** Index of the first snapshot at or after `i` dated later than `start`:
      the `for di, d in enumerate(curr_dates)` search with its `break`. */
  function FirstAfter(s: SumSeries, start: int, i: nat): (r: Option<nat>)
    requires i <= |s|
    ensures r.Some? ==> i <= r.value < |s| && s[r.value].day > start
    ensures r.Some? ==> forall m :: i <= m < r.value ==> s[m].day <= start
    ensures r.None? ==> forall m :: i <= m < |s| ==> s[m].day <= start
    decreases |s| - i
  {
    if i == |s| then None
    else if s[i].day > start then Some(i)
    else FirstAfter(s, start, i + 1)
  }

  /** The pre-history branch as written: the cursor and current values before
      the first date of the range. */
  function PrehistoryStart(s: SumSeries, start: int): (r: (nat, Counts))
    requires |s| > 0
    ensures r.0 < |s|
    ensures start <= s[0].day ==> r == (0, Zero)
    ensures start > s[0].day ==> r.1 == s[r.0].payload
  {
    if start > s[0].day then
      var c: nat :=
        if start > s[|s| - 1].day then |s| - 1
        else match FirstAfter(s, start, 0)
          case None => 0
          case Some(di) => di - 1;
      (c, s[c].payload)
    else (0, Zero)
  }

  /** One repository's aligned SUM rows, as the source computes them. */
  function AlignRepo(s: SumSeries, range: seq<int>): (out: seq<Counts>)
    requires |s| > 0 && |range| > 0
    ensures |out| == |range|
  {
    var (c, cur) := PrehistoryStart(s, range[0]);
    Sweep(s, Overwrite, range, c, cur)
  }

  /** The start dates for which the pre-history search leaves a correct state:
      on or before the oldest snapshot, after the newest, or on the day of a
      snapshot other than the newest. */
  ghost predicate StartSupported(s: SumSeries, start: int)
    requires |s| > 0
  {
    || start <= s[0].day
    || start > s[|s| - 1].day
    || exists i :: 0 <= i < |s| - 1 && s[i].day == start
  }

  /** A first date that matches the cursor overwrites whatever value the loop started with. */
  lemma SweepOverwritesStart(s: SumSeries, range: seq<int>, c: nat, x: Counts, y: Counts)
    requires c < |s| && |range| > 0 && range[0] == s[c].day
    ensures Sweep(s, Overwrite, range, c, x) == Sweep(s, Overwrite, range, c, y)
  {
  }

  /** The aligner as written yields, at every date, the SUM row of the newest
      snapshot dated on or before it (zeros before the first snapshot), when the
      snapshots are ordered, the range strictly increases and contains every
      snapshot day inside it, and the range starts at a supported date. */
  lemma AlignRepoMatchesLatest(s: SumSeries, range: seq<int>)
    requires |s| > 0 && |range| > 0
    requires Ordered(s) && StrictlyIncreasing(range) && Covered(s, range)
    requires StartSupported(s, range[0])
    ensures forall k :: 0 <= k < |range| ==> AlignRepo(s, range)[k] == Latest(s, range[k])
  {
    var start := range[0];
    var last := |s| - 1;
    if start <= s[0].day {
      LatestBeforeAll(s, start - 1);
      SweepReplays(s, Overwrite, Zero, range, 0, Zero);
    } else if start > s[last].day {
      LatestIsNewest(s, start - 1, last);
      SweepReplays(s, Overwrite, Zero, range, last, s[last].payload);
    } else {
      var i :| 0 <= i < last && s[i].day == start;
      PrehistoryOnSnapshot(s, i);
      var ready := Latest(s, start - 1);
      SweepOverwritesStart(s, range, i, s[i].payload, ready);
      SweepReplays(s, Overwrite, Zero, range, i, ready);
    }
  }

  /** A start on the day of snapshot `i`, not the newest, puts the cursor on `i`. */
  lemma PrehistoryOnSnapshot(s: SumSeries, i: nat)
    requires Ordered(s) && i < |s| - 1 && s[i].day > s[0].day
    ensures PrehistoryStart(s, s[i].day) == (i, s[i].payload)
  {
    var start := s[i].day;
    assert s[i + 1].day > start;
    assert FirstAfter(s, start, 0) == Some(i + 1);
  }

  /** As written, a range that starts strictly between two snapshots leaves the
      cursor on the older one, whose day never comes again: the older SUM row is
      emitted at every date of the range. */
  lemma StartBetweenSnapshotsFreezes(s: SumSeries, range: seq<int>, j: nat)
    requires Ordered(s) && StrictlyIncreasing(range) && |range| > 0
    requires 0 < j < |s| && s[j - 1].day < range[0] < s[j].day
    ensures forall k :: 0 <= k < |range| ==> AlignRepo(s, range)[k] == s[j - 1].payload
  {
    var start := range[0];
    assert FirstAfter(s, start, 0) == Some(j);
    assert s[j].day <= s[|s| - 1].day;
    assert PrehistoryStart(s, start) == (j - 1, s[j - 1].payload);
    assert forall k :: 0 <= k < |range| ==> range[k] >= start;
    SweepWithoutMatch(s, Overwrite, range, j - 1, s[j - 1].payload);
  }

  /** As written, a range that starts on the newest snapshot's day (with an
      older snapshot before it) finds no later snapshot, keeps the cursor at 0,
      and emits the oldest SUM row at every date. */
  lemma StartOnNewestFreezes(s: SumSeries, range: seq<int>)
    requires Ordered(s) && StrictlyIncreasing(range) && |range| > 0
    requires |s| >= 2 && range[0] == s[|s| - 1].day
    ensures forall k :: 0 <= k < |range| ==> AlignRepo(s, range)[k] == s[0].payload
  {
    var start := range[0];
    assert FirstAfter(s, start, 0) == None;
    assert PrehistoryStart(s, start) == (0, s[0].payload);
    assert forall k :: 0 <= k < |range| ==> range[k] >= start > s[0].day;
    SweepWithoutMatch(s, Overwrite, range, 0, s[0].payload);
  }

  /** Snapshots on days 1, 5, 10 with different code counts, aligned over days
      3, 4, 5: as written, day 5 still reports the day-1 counts, while the newest
      snapshot on or before day 5 is the day-5 one. */
  lemma StartBetweenSnapshotsExample()
    ensures var s := [Snapshot(1, Counts(0, 10, 0, 1)), Snapshot(5, Counts(0, 20, 0, 2)), Snapshot(10, Counts(0, 15, 0, 2))];
            AlignRepo(s, [3, 4, 5])[2].code == 10 && Latest(s, 5).code == 20
  {
    var s := [Snapshot(1, Counts(0, 10, 0, 1)), Snapshot(5, Counts(0, 20, 0, 2)), Snapshot(10, Counts(0, 15, 0, 2))];
    var range := [3, 4, 5];
    StartBetweenSnapshotsFreezes(s, range, 1);
    LatestIsNewest(s, 5, 1);
  }

  /** Snapshots on days 1 and 5 aligned over days 5, 6: as written both dates
      report the day-1 counts, while the newest snapshot on or before them is
      the day-5 one. */
  lemma StartOnNewestExample()
    ensures var s := [Snapshot(1, Counts(0, 10, 0, 1)), Snapshot(5, Counts(0, 20, 0, 2))];
            AlignRepo(s, [5, 6])[0].code == 10 && Latest(s, 5).code == 20
  {
    var s := [Snapshot(1, Counts(0, 10, 0, 1)), Snapshot(5, Counts(0, 20, 0, 2))];
    StartOnNewestFreezes(s, [5, 6]);
    LatestIsNewest(s, 5, 1);
  }

  /** Corrected start: the first snapshot dated on or after `start`, or the
      newest when every snapshot is older. */
  function StartCursor(s: SumSeries, start: int, i: nat): (c: nat)
    requires i < |s|
    requires forall m :: 0 <= m < i ==> s[m].day < start
    ensures i <= c < |s|
    ensures forall m :: 0 <= m < c ==> s[m].day < start
    ensures start <= s[c].day || (c == |s| - 1 && s[c].day < start)
    decreases |s| - i
  {
    if start <= s[i].day || i == |s| - 1 then i else StartCursor(s, start, i + 1)
  }

  /** Corrected aligner: the cursor starts at the first snapshot not older than
      the range and the current values at the newest snapshot before it; a
      repository without snapshots yields zeros. */
  function AlignRepoFixed(s: SumSeries, range: seq<int>): (out: seq<Counts>)
    ensures |out| == |range|
  {
    if |s| == 0 || |range| == 0 then seq(|range|, _ => Zero)
    else Sweep(s, Overwrite, range, StartCursor(s, range[0], 0), Latest(s, range[0] - 1))
  }

  /** The corrected aligner meets the reference at every date for any start date. */
  lemma AlignRepoFixedMatchesLatest(s: SumSeries, range: seq<int>)
    requires Ordered(s) && StrictlyIncreasing(range) && Covered(s, range)
    ensures forall k :: 0 <= k < |range| ==> AlignRepoFixed(s, range)[k] == Latest(s, range[k])
  {
    if |s| > 0 && |range| > 0 {
      var c := StartCursor(s, range[0], 0);
      SweepReplays(s, Overwrite, Zero, range, c, Latest(s, range[0] - 1));
    }
  }

  // ---------------------------------------------------------------------------
  // Tables

  /** One repository's column of a table. */
  datatype Column = Column(repo: string, values: seq<nat>)

  /** A date-indexed table with one column per repository. */
  datatype Table = Table(index: seq<int>, columns: seq<Column>)

  /** The five tables `compute_summary_stats` returns, under their keys. */
  datatype Summary = Summary(sizes: Table, blanks: Table, codes: Table, comments: Table, nfiles: Table)

  function TableOf(sum: Summary, cat: Category): Table {
    match cat
    case Sizes => sum.sizes
    case Blanks => sum.blanks
    case Codes => sum.codes
    case Comments => sum.comments
    case NFiles => sum.nfiles
  }

  function Names(repos: seq<RepoClocs>): (names: seq<string>)
    ensures |names| == |repos| && forall j :: 0 <= j < |repos| ==> names[j] == repos[j].name
  {
    seq(|repos|, j requires 0 <= j < |repos| => repos[j].name)
  }

  /** A table indexed by `range` with one full-length column per name, in order. */
  ghost predicate Shaped(t: Table, range: seq<int>, names: seq<string>) {
    && t.index == range
    && |t.columns| == |names|
    && forall j :: 0 <= j < |names| ==> t.columns[j].repo == names[j] && |t.columns[j].values| == |range|
  }

  /** One category of a set of aligned columns. */
  function Project(xs: seq<Counts>, cat: Category): (r: seq<nat>)
    ensures |r| == |xs| && forall k :: 0 <= k < |xs| ==> r[k] == Metric(cat, xs[k])
  {
    seq(|xs|, k requires 0 <= k < |xs| => Metric(cat, xs[k]))
  }

  function MakeTable(names: seq<string>, aligned: seq<seq<Counts>>, range: seq<int>, cat: Category): (t: Table)
    requires |names| == |aligned|
    ensures (forall j :: 0 <= j < |aligned| ==> |aligned[j]| == |range|) ==> Shaped(t, range, names)
  {
    Table(range, seq(|names|, j requires 0 <= j < |names| => Column(names[j], Project(aligned[j], cat))))
  }

  /** The five tables; `nfilesFrom` is the category the "nfiles" table is built from. */
  function Assemble(names: seq<string>, aligned: seq<seq<Counts>>, range: seq<int>, nfilesFrom: Category): Summary
    requires |names| == |aligned|
  {
    Summary(MakeTable(names, aligned, range, Sizes), MakeTable(names, aligned, range, Blanks),
            MakeTable(names, aligned, range, Codes), MakeTable(names, aligned, range, Comments),
            MakeTable(names, aligned, range, nfilesFrom))
  }

  /** Whether one repository's snapshots can be aligned by the source at all. */
  predicate Alignable(v: seq<ClocEntry>, range: seq<int>) {
    SumTimeline(v).Ok? && |v| > 0 && |range| > 0
  }

  /** One repository's aligned rows, with the source's failures in its order of
      evaluation: the SUM lookups, then `date_range[0]`, then `curr_dates[0]`. */
  function AlignOne(v: seq<ClocEntry>, range: seq<int>, fixed: bool): (r: Result<seq<Counts>, StatsError>)
    ensures r.Ok? <==> Alignable(v, range)
    ensures r.Err? ==> r.error in {MissingSum, EmptyRange, EmptyHistory}
    ensures r.Ok? ==> |r.value| == |range|
  {
    match SumTimeline(v)
    case Err(e) => Err(e)
    case Ok(s) =>
      if |range| == 0 then Err(EmptyRange)
      else if |s| == 0 then Err(EmptyHistory)
      else if fixed then Ok(AlignRepoFixed(s, range))
      else Ok(AlignRepo(s, range))
  }

  /** All repositories aligned in dictionary order; the first failure is raised. */
  function AlignAll(repos: seq<RepoClocs>, range: seq<int>, fixed: bool): (r: Result<seq<seq<Counts>>, StatsError>)
    ensures r.Ok? <==> forall j :: 0 <= j < |repos| ==> Alignable(repos[j].entries, range)
    ensures r.Err? ==> r.error in {MissingSum, EmptyRange, EmptyHistory}
    ensures r.Ok? ==> |r.value| == |repos|
    ensures r.Ok? ==> forall j :: 0 <= j < |repos| ==> AlignOne(repos[j].entries, range, fixed) == Ok(r.value[j])
  {
    MapAll(repos, (x: RepoClocs) => AlignOne(x.entries, range, fixed))
  }

  predicate Initialized(stats: GitCodeStats) {
    stats.commitStats.Some? && stats.clocStats.Some?
  }

  /** The statistics are initialised and every repository can be aligned.
      (With no repository the tables have no columns, and a table without
      columns takes an index of any length.) */
  predicate Computable(stats: GitCodeStats, range: seq<int>) {
    && Initialized(stats)
    && (forall j :: 0 <= j < |stats.clocStats.value| ==> Alignable(stats.clocStats.value[j].entries, range))
  }

  /** `compute_summary_stats` as written (the nfiles table is built from the
      aligned code counts), or the corrected version when `fixed`. */
  function SummaryOf(stats: GitCodeStats, range: seq<int>, fixed: bool): (r: Result<Summary, StatsError>)
    ensures r == Err(NotInitialized) <==> !Initialized(stats)
    ensures r.Ok? <==> Computable(stats, range)
    ensures r.Ok? ==> forall cat :: Shaped(TableOf(r.value, cat), range, Names(stats.clocStats.value))
  {
    if !Initialized(stats) then Err(NotInitialized)
    else
      var repos := stats.clocStats.value;
      match AlignAll(repos, range, fixed)
      case Err(e) => Err(e)
      case Ok(aligned) =>
        AlignedLengths(repos, range, fixed);
        AssembleShaped(Names(repos), aligned, range, if fixed then NFiles else Codes);
        Ok(Assemble(Names(repos), aligned, range, if fixed then NFiles else Codes))
  }

  /** Every aligned column has one value per day of the range. */
  lemma AlignedLengths(repos: seq<RepoClocs>, range: seq<int>, fixed: bool)
    requires AlignAll(repos, range, fixed).Ok?
    ensures var aligned := AlignAll(repos, range, fixed).value;
      forall j :: 0 <= j < |aligned| ==> |aligned[j]| == |range|
  {
    var aligned := AlignAll(repos, range, fixed).value;
    forall j | 0 <= j < |aligned| ensures |aligned[j]| == |range| {
      assert AlignOne(repos[j].entries, range, fixed) == Ok(aligned[j]);
    }
  }

  /** Full-length aligned columns give five tables indexed by the range, one column per name. */
  lemma AssembleShaped(names: seq<string>, aligned: seq<seq<Counts>>, range: seq<int>, nfilesFrom: Category)
    requires |names| == |aligned| && forall j :: 0 <= j < |aligned| ==> |aligned[j]| == |range|
    ensures forall cat :: Shaped(TableOf(Assemble(names, aligned, range, nfilesFrom), cat), range, names)
  {
  }

  /** The source's aggregation: it fails exactly when the statistics are not
      initialised or some repository cannot be aligned; otherwise all five tables are
      indexed by the range and have one full-length column per repository, in
      order, and the "nfiles" table equals the "codes" table. */
  function ComputeSummaryStats(stats: GitCodeStats, range: seq<int>): (r: Result<Summary, StatsError>)
    ensures r == Err(NotInitialized) <==> !Initialized(stats)
    ensures r.Ok? <==> Computable(stats, range)
    ensures r.Ok? ==> forall cat :: Shaped(TableOf(r.value, cat), range, Names(stats.clocStats.value))
    ensures r.Ok? ==> r.value.nfiles == r.value.codes
  {
    SummaryOf(stats, range, false)
  }

  /** Without repositories the five tables have no columns and are still
      indexed by the whole range, empty or not. */
  lemma NoRepositoriesNoColumns(stats: GitCodeStats, range: seq<int>)
    requires Initialized(stats) && |stats.clocStats.value| == 0
    ensures var r := ComputeSummaryStats(stats, range);
      r.Ok? && forall cat :: TableOf(r.value, cat) == Table(range, [])
  {
    var r := ComputeSummaryStats(stats, range);
    assert Computable(stats, range);
    forall cat ensures TableOf(r.value, cat) == Table(range, []) {
      assert Shaped(TableOf(r.value, cat), range, Names(stats.clocStats.value));
    }
  }

  /** The corrected aggregation: same failures and shape, with the corrected
      aligner and the "nfiles" table built from the file counts. */
  function ComputeSummaryStatsFixed(stats: GitCodeStats, range: seq<int>): (r: Result<Summary, StatsError>)
    ensures r == Err(NotInitialized) <==> !Initialized(stats)
    ensures r.Ok? <==> Computable(stats, range)
    ensures r.Ok? ==> forall cat :: Shaped(TableOf(r.value, cat), range, Names(stats.clocStats.value))
  {
    SummaryOf(stats, range, true)
  }

  /** The reference value of one repository at day `d` (zeros when its SUM rows cannot be read). */
  function LatestOf(v: seq<ClocEntry>, d: int): Counts {
    match SumTimeline(v)
    case Ok(s) => Latest(s, d)
    case Err(_) => Zero
  }

  /** A repository whose SUM rows can be read, are ordered, and whose days
      inside the range occur in it. */
  ghost predicate WellDated(v: seq<ClocEntry>, range: seq<int>) {
    SumTimeline(v).Ok? && Ordered(SumTimeline(v).value) && Covered(SumTimeline(v).value, range)
  }

  /** A cell of an assembled table is the category's metric of the aligned
      value, with the "nfiles" table reading the category it is built from. */
  lemma AssembleCell(names: seq<string>, aligned: seq<seq<Counts>>, range: seq<int>, nfilesFrom: Category,
                     cat: Category, j: nat, k: nat)
    requires |names| == |aligned| && j < |names| && k < |aligned[j]|
    ensures TableOf(Assemble(names, aligned, range, nfilesFrom), cat).columns[j].values[k]
      == Metric(if cat == NFiles then nfilesFrom else cat, aligned[j][k])
  {
  }

  /** The aligned columns of a successful aggregation, one per repository. */
  lemma AlignedColumns(stats: GitCodeStats, range: seq<int>, fixed: bool) returns (aligned: seq<seq<Counts>>)
    requires SummaryOf(stats, range, fixed).Ok?
    ensures |aligned| == |stats.clocStats.value|
    ensures forall j :: 0 <= j < |aligned| ==> |aligned[j]| == |range|
    ensures forall j :: 0 <= j < |aligned| ==> AlignOne(stats.clocStats.value[j].entries, range, fixed) == Ok(aligned[j])
    ensures SummaryOf(stats, range, fixed).value
      == Assemble(Names(stats.clocStats.value), aligned, range, if fixed then NFiles else Codes)
  {
    aligned := AlignAll(stats.clocStats.value, range, fixed).value;
  }

  /** A cell of the source's tables is the category's metric of the repository's
      aligned value, with the "nfiles" table reading the code count. */
  lemma SummaryCell(stats: GitCodeStats, range: seq<int>, cat: Category, j: nat, k: nat)
    requires ComputeSummaryStats(stats, range).Ok?
    requires j < |stats.clocStats.value| && k < |range|
    ensures var s := SumTimeline(stats.clocStats.value[j].entries).value;
      |s| > 0 && |range| > 0 &&
      TableOf(ComputeSummaryStats(stats, range).value, cat).columns[j].values[k]
        == Metric(if cat == NFiles then Codes else cat, AlignRepo(s, range)[k])
  {
    var aligned := AlignedColumns(stats, range, false);
    AssembleCell(Names(stats.clocStats.value), aligned, range, Codes, cat, j, k);
  }

  /** Every cell of the source's tables is the reference value of its category,
      except that the "nfiles" cells hold the code count, when the range
      strictly increases and every repository is well dated and starts at a
      supported date. */
  lemma SummaryMatchesLatest(stats: GitCodeStats, range: seq<int>, cat: Category, j: nat, k: nat)
    requires ComputeSummaryStats(stats, range).Ok? && StrictlyIncreasing(range)
    requires j < |stats.clocStats.value| && k < |range|
    requires WellDated(stats.clocStats.value[j].entries, range)
    requires StartSupported(SumTimeline(stats.clocStats.value[j].entries).value, range[0])
    ensures TableOf(ComputeSummaryStats(stats, range).value, cat).columns[j].values[k]
      == Metric(if cat == NFiles then Codes else cat, LatestOf(stats.clocStats.value[j].entries, range[k]))
  {
    SummaryCell(stats, range, cat, j, k);
    AlignRepoMatchesLatest(SumTimeline(stats.clocStats.value[j].entries).value, range);
  }

  /** Every cell of the corrected tables is the reference value of its own
      category, for any start date, when the range strictly increases and the
      repository is well dated. */
  lemma SummaryFixedMatchesLatest(stats: GitCodeStats, range: seq<int>, cat: Category, j: nat, k: nat)
    requires ComputeSummaryStatsFixed(stats, range).Ok? && StrictlyIncreasing(range)
    requires j < |stats.clocStats.value| && k < |range|
    requires WellDated(stats.clocStats.value[j].entries, range)
    ensures TableOf(ComputeSummaryStatsFixed(stats, range).value, cat).columns[j].values[k]
      == Metric(cat, LatestOf(stats.clocStats.value[j].entries, range[k]))
  {
    var aligned := AlignedColumns(stats, range, true);
    var s := SumTimeline(stats.clocStats.value[j].entries).value;
    AlignRepoFixedMatchesLatest(s, range);
    AssembleCell(Names(stats.clocStats.value), aligned, range, NFiles, cat, j, k);
  }

  /** One repository whose single snapshot has 7 code lines in 3 files: as
      written, the "nfiles" table reports 7 where the snapshot counted 3 files. */
  lemma NFilesFromCodesExample()
    ensures var stats := GitCodeStats(Some(map[]), Some([RepoClocs("R", [ClocEntry("h", 1, map[SumKey := Lines(Counts(0, 7, 0, 3))])])]));
            var r := ComputeSummaryStats(stats, [1]);
            r.Ok? && r.value.nfiles.columns[0].values[0] == 7 && LatestOf(stats.clocStats.value[0].entries, 1).nFiles == 3
  {
    var v := [ClocEntry("h", 1, map[SumKey := Lines(Counts(0, 7, 0, 3))])];
    var s := SumTimeline(v).value;
    assert s == [Snapshot(1, Counts(0, 7, 0, 3))];
    LatestIsNewest(s, 1, 0);
    AlignRepoMatchesLatest(s, [1]);
  }
}

=== FILE: timeline.dfy ===
/**
 * The carry-forward cursor engine shared by `compute_summary_stats` and
 * `compute_language_stats`: a list of dated snapshots (oldest first) is
 * resampled onto a caller-given sequence of dates with a single cursor that
 * advances only when a date equals the cursor's snapshot day.
 *
 * `Sweep` is the cursor loop as the source writes it; `Replay` is the
 * reference meaning ("apply every snapshot dated on or before d, in order");
 * `SweepReplays` proves the two agree under the conditions the callers meet.
 */
module Timeline {

  /** One observation of a repository: the day number and what was observed. */
  datatype Snapshot<P> = Snapshot(day: int, payload: P)

  /** Snapshot days strictly increase from oldest to newest. */
  ghost predicate Ordered<P>(s: seq<Snapshot<P>>) {
    forall i, j :: 0 <= i < j < |s| ==> s[i].day < s[j].day
  }

  /** A date sequence without repeats, in ascending order (a pandas daily range). */
  ghost predicate StrictlyIncreasing(range: seq<int>) {
    forall i, j :: 0 <= i < j < |range| ==> range[i] < range[j]
  }

  /** Every snapshot dated between the first and the last date of `range` is itself one of its dates. */
  ghost predicate Covered<P>(s: seq<Snapshot<P>>, range: seq<int>) {
    |range| > 0 ==>
      forall i :: 0 <= i < |s| && range[0] <= s[i].day <= range[|range| - 1] ==> s[i].day in range
  }

  /** Reference semantics: the value obtained by applying, in list order, every
      snapshot dated on or before `d` to `init`. */
  function Replay<V, P>(s: seq<Snapshot<P>>, apply: (V, P) -> V, init: V, d: int): V
    decreases |s|
  {
    if |s| == 0 then init
    else
      var before := Replay(s[..|s| - 1], apply, init, d);
      if s[|s| - 1].day <= d then apply(before, s[|s| - 1].payload) else before
  }

  /** The cursor position after visiting date `d`: one step on when `d` is the
      cursor's day, but never past the newest snapshot. */
  function Advance<P>(s: seq<Snapshot<P>>, c: nat, d: int): (c': nat)
    requires c < |s|
    ensures c' < |s|
    ensures c' == c || (c' == c + 1 && d == s[c].day)
  {
    if d == s[c].day && c < |s| - 1 then c + 1 else c
  }

  /** The cursor loop: for each date, update the current value from the cursor's
      snapshot when the date equals its day, and emit the current value. */
  function Sweep<V, P>(s: seq<Snapshot<P>>, apply: (V, P) -> V, range: seq<int>, c: nat, cur: V): (out: seq<V>)
    requires c < |s|
    ensures |out| == |range|
    decreases |range|
  {
    if |range| == 0 then []
    else
      var d := range[0];
      var cur' := if d == s[c].day then apply(cur, s[c].payload) else cur;
      [cur'] + Sweep(s, apply, range[1..], Advance(s, c, d), cur')
  }

  /** The cursor position before the loop visits `range[k]`. */
  function CursorAt<P>(s: seq<Snapshot<P>>, range: seq<int>, c: nat, k: nat): (r: nat)
    requires c < |s| && k <= |range|
    ensures c <= r < |s|
    ensures r <= c + k
    decreases k
  {
    if k == 0 then c else CursorAt(s, range[1..], Advance(s, c, range[0]), k - 1)
  }

  /** What the loop emits at date `range[k]`: the previous emitted value (or the
      start value), updated from the cursor's snapshot exactly when the date is
      that snapshot's day. */
  ghost predicate CarriedAt<V, P>(s: seq<Snapshot<P>>, apply: (V, P) -> V, range: seq<int>, c: nat, cur: V, k: nat)
    requires c < |s| && k < |range|
  {
    var out := Sweep(s, apply, range, c, cur);
    var ck := CursorAt(s, range, c, k);
    var prev := if k == 0 then cur else out[k - 1];
    out[k] == (if range[k] == s[ck].day then apply(prev, s[ck].payload) else prev)
  }

  /** Literal carry-forward: at every date the emitted value is the previous one,
      updated from the cursor's snapshot exactly when the date equals its day. */
  lemma {:induction false} SweepCarriesForward<V, P>(s: seq<Snapshot<P>>, apply: (V, P) -> V, range: seq<int>, c: nat, cur: V)
    requires c < |s|
    ensures forall k :: 0 <= k < |range| ==> CarriedAt(s, apply, range, c, cur, k)
    decreases |range|
  {
    if |range| > 0 {
      var d := range[0];
      var cur' := if d == s[c].day then apply(cur, s[c].payload) else cur;
      var c' := Advance(s, c, d);
      SweepCarriesForward(s, apply, range[1..], c', cur');
      var out := Sweep(s, apply, range, c, cur);
      var tail := Sweep(s, apply, range[1..], c', cur');
      assert out == [cur'] + tail;
      forall k | 0 <= k < |range|
        ensures CarriedAt(s, apply, range, c, cur, k)
      {
        if k == 0 {
          assert CursorAt(s, range, c, 0) == c;
          assert out[0] == cur';
        } else {
          assert CarriedAt(s, apply, range[1..], c', cur', k - 1);
          assert CursorAt(s, range, c, k) == CursorAt(s, range[1..], c', k - 1);
          assert out[k] == tail[k - 1];
          assert range[k] == range[1..][k - 1];
          if k >= 2 { assert out[k - 1] == tail[k - 2]; }
        }
      }
    }
  }

  /** Before visiting date `d`, the cursor and the current value are in step with
      the reference: the value is the replay up to the day before `d`, and the
      cursor is either at the first snapshot dated `d` or later, or at the newest
      snapshot with every snapshot older than `d`. */
  ghost predicate Ready<V, P>(s: seq<Snapshot<P>>, apply: (V, P) -> V, init: V, d: int, c: nat, cur: V) {
    && c < |s|
    && cur == Replay(s, apply, init, d - 1)
    && (|| ((c == 0 || s[c - 1].day < d) && d <= s[c].day)
        || (c == |s| - 1 && s[c].day < d))
  }

  /** Two days that see the same snapshots replay to the same value. */
  lemma {:induction false} ReplaySame<V, P>(s: seq<Snapshot<P>>, apply: (V, P) -> V, init: V, d1: int, d2: int)
    requires forall i :: 0 <= i < |s| ==> (s[i].day <= d1 <==> s[i].day <= d2)
    ensures Replay(s, apply, init, d1) == Replay(s, apply, init, d2)
    decreases |s|
  {
    if |s| > 0 {
      var p := s[..|s| - 1];
      assert forall i :: 0 <= i < |p| ==> p[i] == s[i];
      ReplaySame(p, apply, init, d1, d2);
    }
  }

  /** Snapshots newer than `d` at the end of the list do not affect the replay up to `d`. */
  lemma {:induction false} ReplayDropNewer<V, P>(s: seq<Snapshot<P>>, apply: (V, P) -> V, init: V, d: int, n: nat)
    requires n <= |s|
    requires forall i :: n <= i < |s| ==> s[i].day > d
    ensures Replay(s, apply, init, d) == Replay(s[..n], apply, init, d)
    decreases |s| - n
  {
    if n == |s| {
      assert s[..n] == s;
    } else {
      var p := s[..|s| - 1];
      assert p[..n] == s[..n];
      assert forall i :: n <= i < |p| ==> p[i] == s[i];
      ReplayDropNewer(p, apply, init, d, n);
    }
  }

  /** In an ordered list, replaying up to a snapshot's own day applies that
      snapshot to the replay of the day before. */
  lemma ReplayAtSnapshot<V, P>(s: seq<Snapshot<P>>, apply: (V, P) -> V, init: V, c: nat)
    requires Ordered(s) && c < |s|
    ensures Replay(s, apply, init, s[c].day) == apply(Replay(s, apply, init, s[c].day - 1), s[c].payload)
  {
    var d := s[c].day;
    ReplayDropNewer(s, apply, init, d, c + 1);
    var q := s[..c + 1];
    assert q[..|q| - 1] == s[..c];
    assert Replay(q, apply, init, d) == apply(Replay(s[..c], apply, init, d), s[c].payload);
    ReplaySame(s[..c], apply, init, d, d - 1);
    ReplayDropNewer(s, apply, init, d - 1, c);
  }

  /** A snapshot dated after the first date of a covering range is not dated before its second date. */
  lemma NotSkipped<P>(s: seq<Snapshot<P>>, range: seq<int>, i: nat)
    requires StrictlyIncreasing(range) && Covered(s, range) && |range| >= 2
    requires i < |s| && s[i].day > range[0]
    ensures s[i].day >= range[1]
  {
    if s[i].day < range[1] {
      assert range[1] <= range[|range| - 1];
      assert s[i].day in range;
      var m :| 0 <= m < |range| && range[m] == s[i].day;
      assert false;
    }
  }

  /** Dropping the first date keeps a range increasing and covering. */
  lemma CoveredTail<P>(s: seq<Snapshot<P>>, range: seq<int>)
    requires StrictlyIncreasing(range) && Covered(s, range) && |range| >= 2
    ensures StrictlyIncreasing(range[1..]) && Covered(s, range[1..])
  {
    var t := range[1..];
    forall i | 0 <= i < |s| && t[0] <= s[i].day <= t[|t| - 1]
      ensures s[i].day in t
    {
      assert s[i].day in range;
      var m :| 0 <= m < |range| && range[m] == s[i].day;
      assert m != 0;
      assert t[m - 1] == s[i].day;
    }
  }

  /** One step of the cursor loop from a `Ready` state emits the replay up to
      the visited date and leaves a state `Ready` for the next date. */
  lemma StepKeepsReady<V, P>(s: seq<Snapshot<P>>, apply: (V, P) -> V, init: V, range: seq<int>, c: nat, cur: V)
    requires Ordered(s) && StrictlyIncreasing(range) && Covered(s, range)
    requires |range| > 0 && Ready(s, apply, init, range[0], c, cur)
    ensures var d := range[0];
            var cur' := if d == s[c].day then apply(cur, s[c].payload) else cur;
            && cur' == Replay(s, apply, init, d)
            && (|range| >= 2 ==> Ready(s, apply, init, range[1], Advance(s, c, d), cur'))
  {
    var d := range[0];
    var cur' := if d == s[c].day then apply(cur, s[c].payload) else cur;
    var c' := Advance(s, c, d);
    if d == s[c].day {
      ReplayAtSnapshot(s, apply, init, c);
    } else {
      forall i | 0 <= i < |s| ensures (s[i].day <= d - 1 <==> s[i].day <= d) {
        if i < c { assert s[i].day <= s[c - 1].day; }
        if i > c { assert s[c].day < s[i].day; }
      }
      ReplaySame(s, apply, init, d - 1, d);
    }
    if |range| >= 2 {
      var d' := range[1];
      assert d < d';
      if c' == c + 1 {
        NotSkipped(s, range, c + 1);
        forall i | 0 <= i < |s| ensures (s[i].day <= d <==> s[i].day <= d' - 1) {
          if i < c + 1 { assert s[i].day <= s[c].day; }
          if i > c + 1 { assert s[c + 1].day < s[i].day; }
        }
      } else if d < s[c].day {
        NotSkipped(s, range, c);
        forall i | 0 <= i < |s| ensures (s[i].day <= d <==> s[i].day <= d' - 1) {
          if i < c { assert s[i].day <= s[c - 1].day; }
          if i > c { assert s[c].day < s[i].day; }
        }
      } else {
        forall i | 0 <= i < |s| ensures (s[i].day <= d <==> s[i].day <= d' - 1) {
          if i < c { assert s[i].day < s[c].day; }
        }
      }
      ReplaySame(s, apply, init, d, d' - 1);
    }
  }

  /** The cursor loop computes the reference replay at every date, provided the
      snapshots are ordered, the dates strictly increase and cover every snapshot
      day inside them, and the loop starts `Ready`. */
  lemma {:induction false} SweepReplays<V, P>(s: seq<Snapshot<P>>, apply: (V, P) -> V, init: V, range: seq<int>, c: nat, cur: V)
    requires Ordered(s) && StrictlyIncreasing(range) && Covered(s, range)
    requires c < |s|
    requires |range| > 0 ==> Ready(s, apply, init, range[0], c, cur)
    ensures forall k :: 0 <= k < |range| ==> Sweep(s, apply, range, c, cur)[k] == Replay(s, apply, init, range[k])
    decreases |range|
  {
    if |range| > 0 {
      var d := range[0];
      var cur' := if d == s[c].day then apply(cur, s[c].payload) else cur;
      var c' := Advance(s, c, d);
      StepKeepsReady(s, apply, init, range, c, cur);
      if |range| >= 2 {
        CoveredTail(s, range);
      }
      SweepReplays(s, apply, init, range[1..], c', cur');
      SweepStep(s, apply, range, c, cur);
    }
  }

  /** The loop's first value is the step at the first date; the rest is the loop over the other dates. */
  lemma SweepStep<V, P>(s: seq<Snapshot<P>>, apply: (V, P) -> V, range: seq<int>, c: nat, cur: V)
    requires c < |s| && |range| > 0
    ensures var cur' := if range[0] == s[c].day then apply(cur, s[c].payload) else cur;
      var tail := Sweep(s, apply, range[1..], Advance(s, c, range[0]), cur');
      && Sweep(s, apply, range, c, cur)[0] == cur'
      && forall k :: 1 <= k < |range| ==> Sweep(s, apply, range, c, cur)[k] == tail[k - 1] && range[k] == range[1..][k - 1]
  {
  }

  /** When no date of the range is the cursor's day, the cursor never moves and
      every emitted value is the start value. */
  lemma {:induction false} SweepWithoutMatch<V, P>(s: seq<Snapshot<P>>, apply: (V, P) -> V, range: seq<int>, c: nat, cur: V)
    requires c < |s|
    requires forall k :: 0 <= k < |range| ==> range[k] != s[c].day
    ensures forall k :: 0 <= k < |range| ==> Sweep(s, apply, range, c, cur)[k] == cur
    decreases |range|
  {
    if |range| > 0 {
      assert forall k :: 0 <= k < |range| - 1 ==> range[1..][k] == range[k + 1];
      SweepWithoutMatch(s, apply, range[1..], c, cur);
    }
  }

  /** The loop over a prefix of the dates emits a prefix of the values. */
  lemma {:induction false} SweepPrefix<V, P>(s: seq<Snapshot<P>>, apply: (V, P) -> V, range: seq<int>, c: nat, cur: V, m: nat)
    requires c < |s| && m <= |range|
    ensures Sweep(s, apply, range[..m], c, cur) == Sweep(s, apply, range, c, cur)[..m]
    decreases m
  {
    if m > 0 {
      var d := range[0];
      var cur' := if d == s[c].day then apply(cur, s[c].payload) else cur;
      SweepPrefix(s, apply, range[1..], Advance(s, c, d), cur', m - 1);
      assert range[..m][1..] == range[1..][..m - 1];
    }
  }

  /** A loop that starts on the oldest snapshot's day holds that snapshot's
      update until the second snapshot's day. */
  lemma HoldsFirstUntilSecond<V, P>(s: seq<Snapshot<P>>, apply: (V, P) -> V, range: seq<int>, cur: V, k: nat)
    requires |s| >= 2 && k < |range| && range[0] == s[0].day
    requires forall j :: 1 <= j <= k ==> range[j] != s[1].day
    ensures Sweep(s, apply, range, 0, cur)[k] == apply(cur, s[0].payload)
  {
    var first := apply(cur, s[0].payload);
    var tail := Sweep(s, apply, range[1..], 1, first);
    assert Sweep(s, apply, range, 0, cur) == [first] + tail;
    if k > 0 {
      SweepPrefix(s, apply, range[1..], 1, first, k);
      var pre := range[1..][..k];
      assert forall j :: 0 <= j < |pre| ==> pre[j] == range[j + 1];
      SweepWithoutMatch(s, apply, pre, 1, first);
      assert tail[k - 1] == Sweep(s, apply, pre, 1, first)[k - 1];
    }
  }

  /** `pd.date_range(start, end, freq="D")`: every day from `start` through
      `end`, in increasing order. */
  function DailyRange(start: int, end: int): (r: seq<int>)
    ensures StrictlyIncreasing(r)
    ensures forall d :: d in r <==> start <= d <= end
    ensures |r| > 0 ==> r[0] == start
    ensures |r| == if end < start then 0 else end - start + 1
    ensures forall k :: 0 <= k < |r| ==> r[k] == start + k
  {
    if end < start then []
    else
      var r := seq(end - start + 1, k requires 0 <= k < end - start + 1 => start + k);
      assert forall d :: start <= d <= end ==> d in r by {
        forall d | start <= d <= end ensures d in r {
          assert r[d - start] == d;
        }
      }
      r
  }

  /** A daily range holds every day between its ends, so any snapshot list is
      covered by it. */
  lemma DailyRangeCovers<P>(s: seq<Snapshot<P>>, start: int, end: int)
    ensures Covered(s, DailyRange(start, end))
  {
    var r := DailyRange(start, end);
    if |r| > 0 {
      assert r[|r| - 1] in r;
    }
  }
}
